=== FILE: README.md ===
# devCamper API core in Dafny

This project models the request-handling core of the devCamper REST API, a bootcamp directory built on
Express and Mongoose. It covers four parts.

- **The list middleware `advancedResults`.** It takes the parsed query string of a list request, strips
  the reserved keys, prefixes the comparison-operator words with `$`, reads `select`, `sort`, `page` and
  `limit`, and wraps the page the store returns in the `{success, count, pagination, data}` envelope.
- **The error middleware.** It classifies a thrown error (cast failure, duplicate key, validation error,
  anything else) and turns it into a `{success: false, message}` reply with an HTTP status.
- **The review model.** This covers its field validators, the unique `(bootcamp, user)` index, the
  average-rating recompute and the hooks that run it after a save and before a removal.
- **The bootcamp, course and review handlers.** Each handler is a pure function from a store, the caller
  and the request parameters to an `Outcome`: the reply or the error passed to `next()`, plus the store
  it leaves behind. A failing handler always leaves the store as it was.

## Layout

| file | module | what it holds |
|---|---|---|
| `wrappers.dfy` | `Wrappers` | `Option` and `Result` |
| `text.dfy` | `Text` | `split`/`join`, `String(n)`, and JavaScript's `parseInt` as a total function |
| `operators.dfy` | `Operators` | the `$` rewrite of operator words in one serialised string, and its inverse |
| `advanced_results.dfy` | `AdvancedResults` | the query translation and the envelope |
| `errors.dfy` | `ErrorHandler` | the error middleware, as written and corrected |
| `collection.dfy` | `Collection` | a collection of documents with unique ids: find, insert, replace, remove |
| `api.dfy` | `Api` | records, callers, replies, `findById` with its cast failure, the ownership rule |
| `review_schema.dfy` | `ReviewSchema` | validation, unique index, average rating, save and remove |
| `bootcamps.dfy` | `Bootcamps` | `controllers/bootcamp.js` |
| `courses.dfy` | `Courses` | `controllers/courses.js` |
| `reviews.dfy` | `Reviews` | `controllers/reviews.js` |

## Modelling decisions

- **Store and ids.** The store holds three sequences of `Doc(id, val)` in insertion order, with unique ids
  (`ValidStore`). A handler that creates a record receives the fresh id the store would assign as a
  parameter (`newId`).
- **`findById`.** It first casts the id. A string that is neither 24 hex digits nor 12 characters long fails
  with a `CastError`, and the error middleware answers that with a 404 naming the id (`Api.FindById`,
  `Api.MalformedIdIsNotFound`).
- **Spellings of an id.** The store keeps an object id as 12 bytes and prints it as 24 lower-case hex
  digits, its canonical spelling. `Api.ObjectId` maps a string to that spelling as the cast does:
  - 24 hex digits in either case are lowered;
  - 12 characters below U+0100 give the hex of their codes.

  Every lookup, every filter by bootcamp and every reference a handler stores goes through it. Two
  spellings of one id therefore find the same document (`Api.SpellingsFindSame`). The caller's id
  (`req.user.id`) is taken to be canonical already, as the authentication middleware prints it.
- **Route gate.** `authorize('admin', 'publisher')` guards the bootcamp and course mutators
  (routes/bootcamps.js:28-38, routes/courses.js:23-29). The model states it as the precondition
  `MayPublish(c)` on those handlers. The review routes are not part of this model, so the review handlers
  carry no gate.
- **Shape of `ErrorResponse`.** utils/errorResponse.js is not part of this model. It is taken to build an
  `Error` carrying only a message and a status code. As a consequence, once the cast branch of the error
  middleware has rewritten `err`, the new error has no `code`. The duplicate-key branch that follows
  therefore never overrides a cast failure. The model follows the code in this: `ErrorHandler.Respond`
  states that a cast failure always ends as the 404.
- **The operator rewrite.** The source applies a regular expression to the JSON text of the filter. The
  model applies the rewrite to every key and every string value of the filter. A word is a maximal run of
  `[A-Za-z0-9_]`. A control character is serialised as an escape ending in a word character, so the word
  after it is never rewritten.
- **Lengths.** JavaScript measures a string in UTF-16 code units. `Text.JsLength` counts a character
  outside the Basic Multilingual Plane twice, and both the `maxlength` validator and the 12-character id
  cast use it.
- **Numbers.** `parseInt` is given the string form of the query value (`"undefined"` when the key is
  absent). The model skips leading white space, reads an optional sign, and reads a `0x` prefix unless
  the radix is 10. It reads the longest digit prefix as a mathematical integer, or gives NaN. JavaScript
  holds the result in a double, so very long numbers differ (see Left out). A rating is a `real`, and the
  average is the exact mean of the ratings; the store computes it in floating point (see Left out).
- **Update bodies.** An update hands the request body to the store whole. Every path it carries is
  written, `user` and `bootcamp` included: a bootcamp can change owner, a course or a review can move to
  another bootcamp. A reference that cannot be cast to an object id fails the update with a `CastError`; one that can is
  stored in its canonical spelling.
- **Bugs.** Each defect listed under Findings is modelled twice: once as written, with a lemma that
  exhibits the defect, and once corrected. The handlers use the corrected member.

## Model

| member | source | states |
|---|---|---|
| `AdvancedResults.FilterOf` | middleware/advancedResults.js:2-5 | the filter has exactly the query's keys minus `select`, `sort`, `page` and `limit`, each with its value unchanged |
| `Operators.MarkChangesExactlyOperatorWords` | middleware/advancedResults.js:8 | the rewrite changes a string if and only if it contains `gt`, `gte`, `lt`, `lte` or `in` as a whole word; words such as `gtx` or `inside` leave it untouched |
| `Operators.MarkGrowsOnOperator` | middleware/advancedResults.js:8 | a string holding a whole operator word gets longer under the rewrite |
| `Operators.MarkIsPositionwise` | middleware/advancedResults.js:8 | the rewrite copies every character in order and puts a `$` in front of exactly the positions where a whole operator word starts |
| `Operators.UnmarkMark` | middleware/advancedResults.js:7-10 | removing the `$` in front of each marked operator word gives back the original string: the rewrite loses nothing |
| `Operators.MarkInjective` | middleware/advancedResults.js:7-10 | two different strings never rewrite to the same text |
| `AdvancedResults.Rewrite` | middleware/advancedResults.js:7-10 | strings stay strings, arrays keep their length, every key `k` of an object reappears as its rewrite with its value rewritten, and every key of the result is the rewrite of an original key |
| `AdvancedResults.UnrewriteRewrite` | middleware/advancedResults.js:7-10 | the rewrite of a whole query value is undone by its inverse, so no two filter keys are merged into one |
| `AdvancedResults.BracketOperatorBecomesStoreOperator` | middleware/advancedResults.js:2-10 | `field[op]=value`, where `op` is an operator word and field and value hold none, reaches the store as `{field: {$op: value}}` |
| `AdvancedResults.ListParam` | middleware/advancedResults.js:13-24 | a `select` or `sort` parameter fails exactly when it is not a string, is present exactly when it is a non-empty string, and then is the text with every comma replaced by a space |
| `Text.JoinSplitReplaces` | middleware/advancedResults.js:14 | `split(',').join(' ')` replaces every comma with a space and changes nothing else |
| `Text.JoinSplitRoundTrip` | middleware/advancedResults.js:20 | joining the pieces of a split with the separator gives the string back |
| `AdvancedResults.NumberParam` | middleware/advancedResults.js:27-28 | the result is never 0; it is the default when the key is missing or reads as NaN or 0, and otherwise exactly the integer `parseInt` read from the parameter, negative values included |
| `AdvancedResults.NonNumericFallsBack` | middleware/advancedResults.js:27-28 | a parameter with no digit at all falls back to the default |
| `AdvancedResults.DecimalPageIsRead` | middleware/advancedResults.js:27 | a non-zero page written in decimal is read back as that page |
| `AdvancedResults.NegativeLimitIsRead` | middleware/advancedResults.js:28 | a limit written as `-n` is read as the negative number -n, not replaced by the default |
| `AdvancedResults.NumberParamReadsOneKey` | middleware/advancedResults.js:27-28 | `page` and `limit` each depend on their own key only |
| `Text.ParseIntReadsNat` | middleware/advancedResults.js:27-28 | `parseInt` reads back `String(n)` followed by any tail that does not start with a digit (nor with `x` after a lone `0` when no radix is given) |
| `Text.ParseIntReadsNegative` | middleware/advancedResults.js:27-28 | `parseInt` reads `-String(n)` back as -n, with or without the radix |
| `Text.ParseIntWithoutDigits` | middleware/advancedResults.js:27-28 | `parseInt` of a string without a digit is NaN |
| `AdvancedResults.Translate` | middleware/advancedResults.js:2-34 | the store query has the rewritten filter, the comma-to-space `select` list or no projection, the comma-to-space sort list or `createdAt`, skip `(page-1)*limit` and the parsed limit; it fails exactly when `select` or `sort` is present but not a string |
| `AdvancedResults.EmptyQueryDefaults` | middleware/advancedResults.js:19-30 | a request without parameters reads page 1 of 100 records from skip 0, sorted by `createdAt`, with an empty filter |
| `AdvancedResults.Fetch` | middleware/advancedResults.js:34-38 | a negative skip is refused; otherwise every record that comes back is the matched record at `skip + i`, at most `abs(limit)` of them, a limit of 0 reading to the end, and the window is only short when the matches run out |
| `AdvancedResults.ConsecutivePagesTile` | middleware/advancedResults.js:29-34 | two consecutive pages of `limit` records together are the page of `2 * limit` records at the same start |
| `AdvancedResults.PaginationOf` | middleware/advancedResults.js:40-52 | `next` is present if and only if `endIndex < total`, and points at page + 1 with the same limit; `prev` is present if and only if `startIndex > 0`, and points at page - 1 |
| `AdvancedResults.ListAsWritten` | middleware/advancedResults.js:31-59 | the envelope exists exactly when the query translates and the skip is not negative; it reports success, carries exactly the store's window at `(page-1)*limit` of `limit` records, counts them, and decides the links against the total it is given |
| `AdvancedResults.List` | middleware/advancedResults.js:31-59 | as `ListAsWritten` (same success condition, same window), with the links decided against the number of records the filter matched |
| `AdvancedResults.NextLinkFollows` | middleware/advancedResults.js:40-45 | writing the `next` page number back into the query gives a query whose page starts exactly where the current page ended, with the same limit |
| `AdvancedResults.ListNextIffMoreRecords` | middleware/advancedResults.js:40-45 | with the filtered count, `next` is offered exactly when the next page holds at least one record |
| `AdvancedResults.ListPagesTile` | middleware/advancedResults.js:29-59 | following the `next` link from a page gives an envelope whose data, appended to the current page's, is the window of twice the limit at the current page's start |
| `AdvancedResults.PrevIffLaterPage` | middleware/advancedResults.js:47-52 | for a positive page and limit, `prev` is offered exactly from page 2 on |
| `AdvancedResults.ListAsWrittenOffersEmptyPage` | middleware/advancedResults.js:31 | as written, a filter matching 3 of 200 records is offered a `next` page that is empty; with the filtered count no `next` is offered |
| `ErrorHandler.ReplyOf` | middleware/error.js:27-30 | the reply is always a failure with a non-zero status; the status is the error's own unless missing or zero (then 500); the message is the error's own unless empty (then `Server Error`) |
| `ErrorHandler.Respond` | middleware/error.js:11-30 | every reply has a non-zero status and a non-empty message; a cast failure ends as a 404 naming the value, whatever else the error carries; otherwise code 11000 ends as a 400 `Duplicate name entered` |
| `ErrorHandler.HandleAsWritten` | middleware/error.js:22-30 | an error no branch recognises is answered with its own status and message; a store validation error, whose message is not the word `ValidationError`, is answered as a 500 with its own message |
| `ErrorHandler.Handle` | middleware/error.js:11-30 | besides the facts of `Respond`, an unrecognised error keeps its status and message, and a validation error becomes a 400 whose message is its field messages joined by commas |
| `ErrorHandler.ErrorResponsePassesThrough` | middleware/error.js:27-30 | an `ErrorResponse` with a non-empty message and non-zero status reaches the client unchanged |
| `ErrorHandler.ValidationErrorMissedAsWritten` | middleware/error.js:22-25 | for a review without a title, the middleware as written answers 500 with the store's summary, while the corrected one answers 400 with the field's message |
| `Api.FindById` | controllers/bootcamp.js:18 | the lookup fails with a cast error exactly when the id cannot be cast; otherwise it finds a document exactly when one has the id the string is cast to, and that document is in the collection |
| `Api.ObjectId` | controllers/bootcamp.js:18 | 24 hex digits cast to the same digits in lower case, and 12 byte-sized characters cast to the canonical id whose bytes they are; both results are canonical, and any other string is left alone |
| `Api.ObjectIdIdempotent` | controllers/bootcamp.js:18 | a canonical id casts to itself, so casting twice is casting once |
| `Api.UpperCaseIsSameId` | controllers/bootcamp.js:18 | the upper-case spelling of an id is a valid id and casts to that id |
| `Api.ByteSpellingIsSameId` | controllers/bootcamp.js:18 | the 12-character spelling of an id is a valid id and casts to that id |
| `Api.HexOfBytesOf` | controllers/bootcamp.js:18 | reading lower-case hex digits as bytes and printing the bytes gives the digits back |
| `Api.BytesOfHex` | controllers/bootcamp.js:18 | printing byte-sized characters as hex and reading the hex back gives the characters |
| `Api.ByteSpellingsDiffer` | controllers/bootcamp.js:18 | two different 12-character spellings cast to different ids |
| `Api.SpellingsFindSame` | controllers/bootcamp.js:18 | two valid spellings that cast to one id get the same answer from `findById` |
| `Api.OtherSpellingsFind` | controllers/bootcamp.js:18 | a stored document is found under the upper-case and the 12-character spellings of its id |
| `Bootcamps.OtherSpellingsReadBootcamp` | controllers/bootcamp.js:17-32 | `getBootcamp` answers 200 with the stored bootcamp under either other spelling of its id |
| `Api.MalformedIdIsNotFound` | middleware/error.js:11-14 | a lookup with a malformed id reaches the client as the 404 `Resource with param id <id> not found` |
| `Api.AnswerOf` | middleware/error.js:27-30 | the client sees a success exactly when the handler succeeded, and an error reply never has status 0 |
| `Collection.Find` | controllers/bootcamp.js:18 | a document is found exactly when one has the id; it has that id and is in the collection, and with unique ids it is the only one |
| `Collection.Remove` | controllers/courses.js:131 | after `remove()` no document with that id is left, and nothing new appears |
| `Collection.RemoveKeepsOthers` | controllers/courses.js:131 | `remove()` keeps every document with another id |
| `Collection.RemoveAbsent` | controllers/courses.js:131 | removing an id that no document has changes nothing |
| `Collection.RemovePreservesUniqueIds` | controllers/courses.js:131 | removal keeps ids unique |
| `Collection.FindAfterInsert` | controllers/courses.js:75 | after inserting a document with a fresh id it is found, and every other lookup is as before |
| `Collection.FindAfterReplace` | controllers/courses.js:100-103 | after saving a document in place it is found with its new value, and every other lookup is as before |
| `Collection.ReplaceAbsent` | controllers/courses.js:100 | saving a document whose id no document has changes nothing |
| `Collection.FindAfterRemove` | controllers/courses.js:131 | after a removal the id is gone and every other lookup is as before |
| `Collection.RemoveInsert` | controllers/courses.js:75-131 | removing a document just inserted with a fresh id restores the collection |
| `Bootcamps.ListBootcamps` | controllers/bootcamp.js:10-12 | the bootcamp list is the middleware's envelope (without the populated `courses`), with its links decided against the whole collection; it exists exactly when the query translates with a non-negative skip, and carries exactly the store's window of matched bootcamps |
| `Bootcamps.GetBootcamp` | controllers/bootcamp.js:17-32 | a malformed id is a cast failure, an unknown id a 404 naming it, and a known id a 200 with that bootcamp; the store is untouched |
| `Bootcamps.OwnedCount` | controllers/bootcamp.js:44 | a user's count is 0 exactly when `findOne({user})` finds no bootcamp of theirs, and equals the number of bootcamps exactly when every one is theirs |
| `Bootcamps.CreateBootcamp` | controllers/bootcamp.js:37-61 | creation is refused (400, store unchanged) exactly when the caller already owns a bootcamp and is not an admin; otherwise the new bootcamp is owned by the caller, appended, and returned with 201 |
| `Bootcamps.CreateKeepsOneBootcampPerPublisher` | controllers/bootcamp.js:43-54 | a caller who is not an admin never comes to own more than one bootcamp through creation |
| `Bootcamps.AdminAlwaysCreates` | controllers/bootcamp.js:46-47 | an admin's creation always succeeds and adds one bootcamp to the admin's count |
| `Bootcamps.UpdateBootcamp` | controllers/bootcamp.js:66-96 | 404 for an unknown id, 401 for a caller who is neither owner nor admin, a cast failure for a `user` that is not an object id, each with the store unchanged; otherwise the body is written into that bootcamp, saved in place, and returned with 200 |
| `Bootcamps.ApplyBody` | controllers/bootcamp.js:87 | the body's `user`, when present, cast to an object id, becomes the owner; every other path of the body overrides that field, fields the body does not name are kept, no other field appears, and photo and average are unchanged |
| `Bootcamps.UpdateIsRead` | controllers/bootcamp.js:87-95 | after a successful update the bootcamp is found with the body applied, and every other lookup is as before |
| `Bootcamps.OwnedCountReplace` | controllers/bootcamp.js:87 | saving a bootcamp in place changes a user's bootcamp count by exactly the change in whether that user owns it |
| `Bootcamps.UpdateOwnership` | controllers/bootcamp.js:87 | an update without `user` leaves every user's count as it was; one naming a new owner gives that owner one more bootcamp, even one already owning a bootcamp, and the previous owner one fewer |
| `Bootcamps.DeleteBootcampAsWritten` | controllers/bootcamp.js:101-127 | as written, an existing bootcamp always ends in a `ReferenceError` and the store never changes |
| `Bootcamps.DeleteBootcamp` | controllers/bootcamp.js:101-127 | 404 for an unknown id, 401 for a caller who is neither owner nor admin, otherwise exactly that bootcamp is removed and the reply names the id |
| `Bootcamps.ReferenceErrorIsServerError` | middleware/error.js:27-30 | a handler's `ReferenceError` reaches the client as a 500 naming the variable |
| `Bootcamps.DeleteAsWrittenNeverRemoves` | controllers/bootcamp.js:113 | as written, even the owner's delete of an existing bootcamp is answered 500 `bootcamp is not defined` and removes nothing |
| `Bootcamps.DeleteRemovesOnlyThatBootcamp` | controllers/bootcamp.js:122 | corrected, the owner's delete succeeds; afterwards that id is gone and every other bootcamp is found as before |
| `Bootcamps.Extension` | controllers/bootcamp.js:196 | the extension is empty or a dot followed by dot-free text, and is a proper suffix of the file name |
| `Bootcamps.PhotoFileName` | controllers/bootcamp.js:196 | the stored file name starts with `photo_` and the bootcamp's id |
| `Bootcamps.PhotoNameKeepsExtension` | controllers/bootcamp.js:196 | for `stem.ext` with a stem not starting with a dot, the stored name is `photo_<id>.ext` |
| `Bootcamps.CheckUpload` | controllers/bootcamp.js:177-194 | no files is a 400 and a missing part a `TypeError`; a file whose type does not start with `image` is the 400 `Please upload an image`, one above the configured maximum the 400 `Please upload an image less than <max>`; otherwise the file is accepted |
| `Bootcamps.PhotoCallbackAsWritten` | controllers/bootcamp.js:197-209 | as written, a failed move is a 500 and a successful one a 200 naming the file, but the store is never changed |
| `Bootcamps.PhotoCallback` | controllers/bootcamp.js:197-209 | corrected, a successful move records the file name as the bootcamp's photo, found afterwards by id; a failed move is a 500 with the store unchanged |
| `Bootcamps.UploadPhotoAsWritten` | controllers/bootcamp.js:156-175 | as written, an upload to an existing bootcamp always ends in a `ReferenceError`, before any file check, with the store unchanged |
| `Bootcamps.UploadAsWrittenNeverChecksFile` | controllers/bootcamp.js:168 | as written, the owner's upload of an acceptable image is answered 500 `bootcamp is not defined`; corrected, it reaches the move and is answered 200 with the stored file name |
| `Bootcamps.PhotoAsWrittenNotRecorded` | controllers/bootcamp.js:203 | as written, after a successful upload the bootcamp is found exactly as before; corrected, it is found with the new file name as its photo |
| `Bootcamps.UploadPhoto` | controllers/bootcamp.js:156-210 | the checks run in order: 404, 401 (`upload photo`), the file checks, then the move; every failure leaves the store unchanged |
| `Collection.Where` | controllers/courses.js:13 | the courses (and, at controllers/reviews.js:13, the reviews) of a bootcamp are exactly the stored ones with that `bootcamp`, in both directions |
| `Collection.WhereAppend` | controllers/courses.js:13 | a document added at the end is listed after the existing matches, and only under its own key |
| `Courses.GetCoursesOf` | controllers/courses.js:12-18 | under a bootcamp, the reply lists exactly its courses with their number |
| `Courses.ListCourses` | controllers/courses.js:19-21 | without a bootcamp, the reply is the middleware's envelope (without the populated bootcamp), with its links decided against the whole course collection; it exists exactly when the query translates with a non-negative skip, and carries exactly the store's window of matched courses |
| `Courses.GetCourse` | controllers/courses.js:27-46 | a malformed id is a cast failure, an unknown id a 404 naming it, and a known id a 200 with that course |
| `Courses.CreateCourse` | controllers/courses.js:51-80 | 404 for an unknown bootcamp, 401 for a caller who is neither its owner nor an admin (nothing created), otherwise a course of that bootcamp owned by the caller is appended |
| `Courses.CreatedCourseIsListed` | controllers/courses.js:51-80 | a created course is listed under its bootcamp, after the ones already there |
| `Courses.UpdateCourse` | controllers/courses.js:85-108 | 404, then 401 `update a course`, then a cast failure for a `bootcamp` or `user` that is not an object id, each with the store unchanged; otherwise the body is written into that course and saved in place |
| `Courses.ApplyBody` | controllers/courses.js:100 | the body's `bootcamp` and `user`, when present, cast to object ids, replace the course's; every other path overrides that field, unnamed fields are kept, and no other field appears |
| `Courses.CastBody` | controllers/courses.js:100 | the body casts exactly when its `bootcamp` and `user`, where present, are object ids; otherwise the failure names the `bootcamp` value first, then the `user` value |
| `Courses.UpdateIsRead` | controllers/courses.js:100-107 | after a successful update the course is found with the body applied, its `bootcamp` the body's when the body names one, and every other lookup is as before |
| `Courses.DeleteCourse` | controllers/courses.js:113-136 | a lower-case 404, then 401, otherwise exactly that course is removed and the reply names the id |
| `Reviews.GetReviewsOf` | controllers/reviews.js:12-18 | under a bootcamp, the reply lists exactly its reviews with their number |
| `Reviews.ListReviews` | controllers/reviews.js:19-21 | without a bootcamp, the reply is the middleware's envelope, with its links decided against the whole review collection; it exists exactly when the query translates with a non-negative skip, and carries exactly the store's window of matched reviews |
| `Reviews.GetReview` | controllers/reviews.js:27-46 | a malformed id is a cast failure, an unknown id a 404 naming it, and a known id a 200 with that review |
| `Reviews.AddReview` | controllers/reviews.js:51-71 | 404 for an unknown bootcamp; otherwise any caller's review goes through the model's validation, unique index and recompute, and a failure leaves the store unchanged |
| `Reviews.SecondReviewIsDuplicate` | controllers/reviews.js:66 | a second valid review of one bootcamp by one caller is answered 400 `Duplicate name entered` and stores nothing |
| `Reviews.AddReviewKeepsAveragesCurrent` | models/Reviews.js:60-62 | adding a review keeps every bootcamp's stored average equal to the mean of its reviews' ratings |
| `Reviews.UpdateValidationError` | controllers/reviews.js:76-99 | a failed update validation is a `ValidationError` carrying the field messages |
| `Reviews.CastPatch` | controllers/reviews.js:91 | the body casts exactly when its `bootcamp` and `user`, where present, are object ids; otherwise the failure names the `bootcamp` value first, then the `user` value |
| `Reviews.PrepareUpdate` | controllers/reviews.js:76-94 | the update checks in order: cast of the id, 404, 401 `update a Review`, the body's casts, its validators, and the unique index against every other review; on success the stored review and the one replacing it, with the same id |
| `Reviews.UpdateReviewAsWritten` | controllers/reviews.js:91-98 | as written: fails exactly as `PrepareUpdate`, with the store unchanged; otherwise the review is saved in place and no bootcamp is touched |
| `Reviews.UpdateReview` | controllers/reviews.js:76-99 | corrected: fails exactly as `PrepareUpdate`, with the store unchanged; otherwise the review is saved in place and the averages of the bootcamp it left and the one it is now about are recomputed |
| `Reviews.UpdateKeepsOneReviewPerUser` | models/Reviews.js:36 | an update, as written or corrected, never stores a second review of one bootcamp by one user |
| `Reviews.UpdateReviewKeepsAveragesCurrent` | models/Reviews.js:39-62 | the corrected update keeps every bootcamp's stored average equal to the mean of its reviews' ratings |
| `Reviews.UpdateAsWrittenLeavesAverageStale` | controllers/reviews.js:91 | as written, an update that changes the mean rating of the review's bootcamp leaves the averages no longer current |
| `Reviews.DeleteReview` | controllers/reviews.js:104-127 | a lower-case 404, then 401, otherwise the review is removed, its bootcamp's average recomputed, and the reply names the id |
| `Reviews.DeleteReviewKeepsAveragesCurrent` | models/Reviews.js:64-66 | with the recompute after the removal, deleting a review keeps every bootcamp's average current |
| `ReviewSchema.FieldErrorsEmpty` | models/Reviews.js:4-34 | no path fails exactly when the title is present, non-empty and at most 100 UTF-16 code units, the text is non-empty, the rating lies in [1, 10], and both references are present |
| `ReviewSchema.Validate` | models/Reviews.js:4-34 | validation succeeds exactly on acceptable input and yields the review built from it; otherwise it is a `ValidationError` with at least one field message |
| `ReviewSchema.ValidatePatch` | controllers/reviews.js:91-94 | an update passes its validators exactly when a title it sets is non-empty and at most 100 UTF-16 code units, a text it sets is non-empty, and a rating it sets lies in [1, 10] |
| `ReviewSchema.EmptyRequiredPathFails` | models/Reviews.js:5-13 | an update that sets the title or the text to the empty string is refused with that field's `required` message |
| `Text.JsLength` | models/Reviews.js:8 | a string's JavaScript length lies between its character count and twice it, equals the character count exactly when no character lies outside the Basic Multilingual Plane, and is twice it when every one does |
| `ReviewSchema.AstralTitleCountsTwice` | models/Reviews.js:8 | a title of 60 characters from outside the Basic Multilingual Plane fails `maxlength: 100` |
| `ReviewSchema.Create` | models/Reviews.js:36-62 | a save fails exactly on unacceptable input or an existing review by that user of that bootcamp (then the duplicate-key error); otherwise it stores the review and recomputes that bootcamp's average |
| `ReviewSchema.CreateKeepsOneReviewPerUser` | models/Reviews.js:36 | a successful save never stores a second review of one bootcamp by one user |
| `ReviewSchema.RatingsOf` | models/Reviews.js:42 | the matched ratings are empty exactly when no review belongs to the bootcamp |
| `ReviewSchema.RatingsOfAppend` | models/Reviews.js:42 | after a save, the bootcamp's ratings are the old ones followed by the new review's, if it is the bootcamp's |
| `ReviewSchema.RatingsOfRemoveOther` | models/Reviews.js:42 | removing a review of another bootcamp leaves a bootcamp's ratings unchanged |
| `ReviewSchema.RatingsOfReplaceOther` | models/Reviews.js:42 | replacing a review of another bootcamp by another review of another bootcamp leaves a bootcamp's ratings unchanged |
| `ReviewSchema.MeanWithinRange` | models/Reviews.js:44-49 | the mean of ratings that each lie in [1, 10] lies in [1, 10] |
| `ReviewSchema.SetAverage` | models/Reviews.js:52-54 | only the bootcamp with that id gets the new average; every other bootcamp and all ids stay as they were |
| `ReviewSchema.AverageRatingAsWritten` | models/Reviews.js:39-58 | as written, the average is set when the bootcamp has reviews, and the store is left as it was when it has none |
| `ReviewSchema.AverageRating` | models/Reviews.js:39-58 | corrected, the bootcamp's average becomes the mean of its ratings, or none when it has no review left |
| `ReviewSchema.AverageAsWrittenStaleWhenEmpty` | models/Reviews.js:51-57 | with no review left, as written the old average 9 stays, while the corrected recompute clears it |
| `ReviewSchema.SaveRecomputeAgrees` | models/Reviews.js:51-62 | after a save the recompute as written and the corrected one leave the same store, because the saved review always matches |
| `ReviewSchema.SetAverageKeepsCurrent` | models/Reviews.js:39-58 | recomputing one bootcamp's average keeps all averages current, provided no other bootcamp's ratings changed |
| `ReviewSchema.CreateKeepsAveragesCurrent` | models/Reviews.js:60-62 | a save keeps every stored average equal to the mean of its reviews' ratings |
| `ReviewSchema.RemoveAsWritten` | models/Reviews.js:64-66 | as written, the recompute runs on the store before the review is removed |
| `ReviewSchema.RemoveReview` | models/Reviews.js:64-66 | corrected, the review is removed and the average recomputed from the remaining reviews |
| `ReviewSchema.RemoveReviewKeepsAveragesCurrent` | models/Reviews.js:64-66 | the corrected removal keeps every stored average current |
| `ReviewSchema.RemoveAsWrittenCountsRemovedReview` | models/Reviews.js:64-66 | for reviews rated 8 and 10, removing the 10 leaves the average at 9 as written but makes it 8 when corrected; as written the averages are no longer current |
| `ReviewSchema.ReplaceReview` | controllers/reviews.js:91 | corrected: the review is saved in place, the other collections are kept, and ids stay unique |
| `ReviewSchema.ReplaceReviewKeepsAveragesCurrent` | models/Reviews.js:39-58 | saving a review in place and recomputing the averages of its old and new bootcamp keeps every stored average current |
| `ReviewSchema.RatingChangeLeavesAverageStale` | controllers/reviews.js:91 | for reviews rated 8 and 10, re-rating the 10 as 4 leaves the stored average at 9 as written while the mean is 6; corrected it becomes 6 |

## Left out

- `getBootcampsInRadius` (controllers/bootcamp.js:132-151): it calls an external geocoder and runs a geospatial query with floating-point distances.
- server.js, seeder.js and the route files: application wiring, I/O and route registration. The only piece of the routes that is kept is the `authorize` gate, as a precondition.
- middleware/auth.js, middleware/async.js, utils/errorResponse.js, utils/geocoder.js and the Bootcamps, Courses and User models are not part of this model. Their validators and hooks (for example a cascade delete of courses) are not invented.
- `Bootcamps.ListBootcamps`, `Courses.ListCourses`: the list middleware's `populate` (middleware/advancedResults.js:36) is not modelled. The routes pass `courses` for bootcamps (routes/bootcamps.js:27) and the bootcamp's `name description` for courses (routes/courses.js:17-20). The envelope's `data` carries the stored documents without those joined records.
- `populate` and the `name description` projection of the bootcamp in `getCourse` and `getReview` are not modelled. The reply carries the stored document, and its meaningless `count` (the length of a single document) is dropped.
- `findOneAndUpdate(req.params.id, …)` passes a bare id where a filter is expected, and what the store does with that is not visible here. It is modelled as an update of the document with that id.
- `Courses.UpdateCourse`, `Bootcamps.UpdateBootcamp`: the update validators of the Bootcamps and Courses models are not shown, so these updates always pass validation.
- `Reviews.UpdateReview`: a rating that cannot be cast to a number, and an explicit `$unset` of a required path, are not modelled; the patch carries numbers and values.
- `Bootcamps.CreateBootcamp`, `Bootcamps.UpdateBootcamp`: a body's `photo` or `averageRating` path is kept as an ordinary field, and the attributes of those names are left as they were (none on creation), because the Bootcamps schema is not part of this model. Body values are strings.
- `Courses.UpdateCourse`, `Courses.CastBody`, `Reviews.CastPatch`, `Reviews.PrepareUpdate`, `ReviewSchema.ValidatePatch`: the store builds an update's `$set` from the body's keys, then casts and validates path by path in that order. So the cast failure reported for a body with both a malformed `bootcamp` and a malformed `user` follows the body's key order, and so does the order of the field messages in a failed update validation. The model carries a body as a map without key order and uses schema order instead: `bootcamp` before `user`, then title, text, rating.
- `Api.ObjectId`: a 12-unit id with a character above U+00FF is kept as it is. The bytes the cast makes of it depend on the driver's string encoding, which is not part of this model. The caller's `req.user.id` is assumed to be canonical.
- `Text.ParseIntReadsNat`: JavaScript's `parseInt` returns a double, so digits beyond 2^53 are rounded, and past the 20th significant digit they may be dropped; the model reads every digit exactly.
- `AdvancedResults.NumberParam`: a page or limit too long for a double, which would be read as a rounded number or as `Infinity`, is read as the exact integer, and `(page - 1) * limit` is computed exactly instead of in floating point.
- `ReviewSchema.AverageRating`: the store's `$avg` computes the mean in floating point; the model's mean is exact.
- `ReviewSchema.Validate`: a rating that cannot be cast to a number is not modelled; the input carries a number. The `createdAt` default is not modelled either.
- `ReviewSchema.OutOfRange`: the number in the range messages is printed from the text the request carried (`Number.text`) rather than by JavaScript's number formatting.
- `AdvancedResults.Rewrite`: the rewrite is applied to each key and each string value separately, not to the JSON text as a whole. The two agree because every key and string sits between quotes in that text. The `JSON.stringify`/`JSON.parse` round trip itself is not modelled.
- `Bootcamps.Extension`: the name is taken to contain no `/`; the directory part that `path.parse` splits off is not modelled.
- The list middleware's failures (`Rejection`) are returned as values. In the source they are unhandled promise rejections, and the request gets no response. The middleware also runs before `getCourses` when a bootcamp id is given; that interaction is not modelled.
- Asynchronous sequencing: un-awaited `remove()` calls and the fire-and-forget hooks are taken to complete before the reply, in program order.
- The file move is the boolean parameter `moved`, and `MAX_FILE_UPLOAD` is the optional parameter `maxUpload` (no limit when unset). The upload directory is not modelled.
- Logging (`console.log`) is left out.

## Findings

| source | as written | input that shows it | evidently intended | confidence | as-written member | corrected member |
|---|---|---|---|---|---|---|
| middleware/advancedResults.js:31 | `total` is `countDocuments()` of the whole collection, so `next` ignores the filter | a filter matching 3 of 200 records, page 1, limit 100: `next` points at an empty page 2 | count the documents the filter matches | high, not executed | `AdvancedResults.ListAsWritten` | `AdvancedResults.List` |
| middleware/error.js:22 | the validation branch tests `err.message == 'ValidationError'` | a review without a title: answered 500 with the store's summary message | test `err.name`, giving 400 with the field messages | high, not executed | `ErrorHandler.HandleAsWritten` | `ErrorHandler.Handle` |
| controllers/bootcamp.js:113 | the ownership test reads `bootcamp`, which is never declared | the owner deletes an existing bootcamp: 500 `bootcamp is not defined`, nothing removed | read `bootcamps.user` | high, not executed | `Bootcamps.DeleteBootcampAsWritten` | `Bootcamps.DeleteBootcamp` |
| controllers/bootcamp.js:168 | the ownership test of the upload reads the undeclared `bootcamp` | any upload to an existing bootcamp: 500 before any file check | read `bootcamps.user` | high, not executed | `Bootcamps.UploadPhotoAsWritten` | `Bootcamps.UploadPhoto` |
| controllers/bootcamp.js:203 | `findById(id, {photo: file.name})` treats the update as a projection | a successful upload: 200 naming the file, but the bootcamp's photo is unchanged | `findByIdAndUpdate(id, {photo: file.name})` | high, not executed | `Bootcamps.PhotoCallbackAsWritten` | `Bootcamps.PhotoCallback` |
| controllers/reviews.js:91 | the update goes through `findOneAndUpdate`, which runs no document hook, so no average is recomputed | reviews rated 8 and 10, re-rate the 10 as 4: the stored average stays 9 while the mean is 6 | recompute the averages of the bootcamps the update touched | medium, not executed | `Reviews.UpdateReviewAsWritten` | `Reviews.UpdateReview` |
| models/Reviews.js:64-66 | the recompute runs in `pre('remove')`, while the review is still stored | reviews rated 8 and 10, remove the 10: the average stays 9 | recompute in `post('remove')`, giving 8 | high, not executed | `ReviewSchema.RemoveAsWritten` | `ReviewSchema.RemoveReview` |
| models/Reviews.js:51-57 | with no matching review, `obj[0].averageRating` throws inside the `try` and the average is left as it was | a bootcamp with stored average 9 and no review: the average stays 9. As written this is unreachable, because a save's recompute always sees the saved review and the remove hook still sees the review being removed; it becomes reachable once the remove recompute runs after the removal | clear the average when no review remains | medium, not executed | `ReviewSchema.AverageRatingAsWritten` | `ReviewSchema.AverageRating` |

The lemmas that exhibit each row are `AdvancedResults.ListAsWrittenOffersEmptyPage`, `ErrorHandler.ValidationErrorMissedAsWritten`, `Bootcamps.DeleteAsWrittenNeverRemoves`, `Bootcamps.UploadAsWrittenNeverChecksFile`, `Bootcamps.PhotoAsWrittenNotRecorded`, `ReviewSchema.RatingChangeLeavesAverageStale` with `Reviews.UpdateAsWrittenLeavesAverageStale`, `ReviewSchema.RemoveAsWrittenCountsRemovedReview` and `ReviewSchema.AverageAsWrittenStaleWhenEmpty`.

=== FILE: advanced_results.dfy ===
/**
 * The list middleware `advancedResults` (middleware/advancedResults.js): it
 * turns the parsed query string of a list request into a store query (filter,
 * projection, sort, skip and limit), and wraps the page the store returns in
 * the `{success, count, pagination, data}` envelope.
 *
 * The store itself is a parameter: `matched` is what the collection returns
 * for the translated filter in the translated sort order, and `total` is what
 * `countDocuments()` returns for the whole collection.
 */
module AdvancedResults {
  import opened Wrappers
  import opened Text
  import Operators

  /**
   * One value of the parsed query string: a plain string, an array for a
   * repeated key (`a=1&a=2`), or an object for a bracketed key (`price[gte]=5`).
   */
  datatype QueryValue = Str(s: string) | Arr(items: seq<QueryValue>) | Obj(fields: map<string, QueryValue>)

  type QueryMap = map<string, QueryValue>

  /** The keys the middleware consumes itself and removes from the filter. */
  const Reserved: set<string> := {"select", "sort", "page", "limit"}

  const DefaultPage := 1
  const DefaultLimit := 100
  const DefaultSort := "createdAt"

  /** What the translated query asks of the store. */
  datatype StoreQuery = StoreQuery(
    filter: QueryMap,
    select: Option<string>,  // space-separated field list, when one was asked for
    sort: string,            // space-separated sort keys
    skip: int,
    limit: int)

  /** The `next`/`prev` entries of the pagination object. */
  datatype PageLink = PageLink(page: int, limit: int)

  datatype Pagination = Pagination(next: Option<PageLink>, prev: Option<PageLink>)

  datatype Envelope<T> = Envelope(success: bool, count: nat, pagination: Pagination, data: seq<T>)

  /**
   * The ways a list request fails. Neither reaches the error handler: the
   * middleware is not wrapped by the async handler, so the rejected promise
   * is unhandled and the request gets no response.
   */
  datatype Rejection =
    | SplitOnNonString(key: string)  // `select` or `sort` given as an array or object: `.split` is not a function
    | NegativeSkip(skip: int)        // the store refuses a negative skip

  // ---------------------------------------------------------------------
  // Filter

  /** The filter before the operator rewrite: the query without the reserved keys. */
  function FilterOf(q: QueryMap): (f: QueryMap)
    ensures f.Keys == q.Keys - Reserved
    ensures forall k :: k in f ==> f[k] == q[k]
  {
    q - Reserved
  }

  lemma MarkInjectiveAll()
    ensures forall a, b :: Operators.Mark(a) == Operators.Mark(b) ==> a == b
  {
    forall a, b | Operators.Mark(a) == Operators.Mark(b)
      ensures a == b
    {
      Operators.MarkInjective(a, b);
    }
  }

  lemma UnmarkMarkAll()
    ensures forall a :: Operators.Unmark(Operators.Mark(a)) == a
  {
    forall a
      ensures Operators.Unmark(Operators.Mark(a)) == a
    {
      Operators.UnmarkMark(a);
    }
  }

  /** The operator rewrite applied to every key and every string of a query value. */
  function Rewrite(v: QueryValue): (r: QueryValue)
    ensures v.Str? <==> r.Str?
    ensures v.Arr? ==> r.Arr? && |r.items| == |v.items|
    ensures v.Obj? ==> r.Obj?
    ensures v.Obj? ==> forall k :: k in v.fields ==>
      Operators.Mark(k) in r.fields && r.fields[Operators.Mark(k)] == Rewrite(v.fields[k])
    ensures v.Obj? ==> forall x :: x in r.fields ==>
      Operators.Unmark(x) in v.fields && Operators.Mark(Operators.Unmark(x)) == x
    decreases v
  {
    match v
    case Str(s) => Str(Operators.Mark(s))
    case Arr(items) => Arr(RewriteAll(items))
    case Obj(m) =>
      MarkInjectiveAll();
      UnmarkMarkAll();
      Obj(map k | k in m :: Operators.Mark(k) := Rewrite(m[k]))
  }

  function RewriteAll(items: seq<QueryValue>): (r: seq<QueryValue>)
    ensures |r| == |items|
    ensures forall i :: 0 <= i < |items| ==> r[i] == Rewrite(items[i])
    decreases items
  {
    if items == [] then [] else [Rewrite(items[0])] + RewriteAll(items[1..])
  }

  /**
   * The inverse of `Rewrite`: every key and string that the rewrite could
   * have produced loses its `$` marks; other keys are dropped.
   */
  function Unrewrite(v: QueryValue): (r: QueryValue)
    ensures v.Obj? ==> r.Obj? && forall k :: k in v.fields && Operators.Mark(Operators.Unmark(k)) == k ==>
      Operators.Unmark(k) in r.fields && r.fields[Operators.Unmark(k)] == Unrewrite(v.fields[k])
    decreases v
  {
    match v
    case Str(s) => Str(Operators.Unmark(s))
    case Arr(items) => Arr(UnrewriteAll(items))
    case Obj(m) =>
      Obj(map k | k in m && Operators.Mark(Operators.Unmark(k)) == k :: Operators.Unmark(k) := Unrewrite(m[k]))
  }

  function UnrewriteAll(items: seq<QueryValue>): (r: seq<QueryValue>)
    ensures |r| == |items|
    ensures forall i :: 0 <= i < |items| ==> r[i] == Unrewrite(items[i])
    decreases items
  {
    if items == [] then [] else [Unrewrite(items[0])] + UnrewriteAll(items[1..])
  }

  /** The rewrite loses nothing: in particular no two keys are merged into one. */
  lemma {:induction false} UnrewriteRewrite(v: QueryValue)
    ensures Unrewrite(Rewrite(v)) == v
    decreases v
  {
    match v
    case Str(s) =>
      Operators.UnmarkMark(s);
    case Arr(items) =>
      forall i | 0 <= i < |items|
        ensures Unrewrite(Rewrite(items[i])) == items[i]
      {
        UnrewriteRewrite(items[i]);
      }
    case Obj(m) =>
      forall k | k in m
        ensures Unrewrite(Rewrite(m[k])) == m[k]
      {
        UnrewriteRewrite(m[k]);
      }
      UnrewriteRewriteFields(m);
  }

  /** One level of an object: marked keys unmark to the keys they came from. */
  lemma UnrewriteRewriteFields(m: map<string, QueryValue>)
    requires forall k :: k in m ==> Unrewrite(Rewrite(m[k])) == m[k]
    ensures Unrewrite(Rewrite(Obj(m))) == Obj(m)
  {
    var r := Rewrite(Obj(m)).fields;
    var u := Unrewrite(Rewrite(Obj(m))).fields;
    forall k | k in m
      ensures k in u && u[k] == m[k]
    {
      Operators.UnmarkMark(k);
      var x := Operators.Mark(k);
      assert x in r && Operators.Mark(Operators.Unmark(x)) == x;
    }
    forall x | x in u
      ensures x in m
    {
      var k :| k in r && Operators.Mark(Operators.Unmark(k)) == k && Operators.Unmark(k) == x;
    }
    assert u == m;
  }

  /** The store filter of a query: reserved keys removed, operator words marked. */
  function StoreFilter(q: QueryMap): QueryMap
  {
    Rewrite(Obj(FilterOf(q))).fields
  }

  /**
   * A bracketed comparison `field[op]=value` becomes the store comparison
   * `{field: {$op: value}}`, as long as the field name and the value have no
   * operator word of their own.
   */
  lemma BracketOperatorBecomesStoreOperator(field: string, op: string, value: string)
    requires Operators.IsOperator(op)
    requires !Operators.HasOperatorWord(field) && !Operators.HasOperatorWord(value)
    requires field !in Reserved
    ensures StoreFilter(map[field := Obj(map[op := Str(value)])])
         == map[field := Obj(map["$" + op := Str(value)])]
  {
    Operators.MarkChangesExactlyOperatorWords(field);
    Operators.MarkChangesExactlyOperatorWords(value);
    assert Operators.Mark(field) == field;
    assert Operators.Mark(value) == value;
    MarkOperator(op);
    assert Rewrite(Str(value)) == Str(value);
    var inner := Obj(map["$" + op := Str(value)]);
    RewriteSingleton(op, Str(value), "$" + op, Str(value));
    RewriteSingleton(field, Obj(map[op := Str(value)]), field, inner);
    FilterKeepsOrdinaryKey(field, Obj(map[op := Str(value)]));
  }

  lemma FilterKeepsOrdinaryKey(field: string, v: QueryValue)
    requires field !in Reserved
    ensures FilterOf(map[field := v]) == map[field := v]
  {
    var f := FilterOf(map[field := v]);
    assert f.Keys == {field};
  }

  /** The rewrite of a one-entry object. */
  lemma RewriteSingleton(k: string, v: QueryValue, k': string, v': QueryValue)
    requires Operators.Mark(k) == k' && Rewrite(v) == v'
    ensures Rewrite(Obj(map[k := v])) == Obj(map[k' := v'])
  {
    var m := map[k := v];
    var r := Rewrite(Obj(m));
    assert k' in r.fields && r.fields[k'] == v' by {
      assert k in m && m[k] == v;
    }
    forall x | x in r.fields
      ensures x == k'
    {
      assert Operators.Unmark(x) in m;
    }
    SingletonMap(r.fields, k', v');
  }

  lemma SingletonMap<K, V>(r: map<K, V>, k: K, v: V)
    requires k in r && r[k] == v
    requires forall x :: x in r ==> x == k
    ensures r == map[k := v]
  {
  }

  /** An operator word on its own gains exactly one `$`. */
  lemma MarkOperator(op: string)
    requires Operators.IsOperator(op)
    ensures Operators.Mark(op) == "$" + op
  {
    Operators.OperatorIsWord(op);
    Operators.WordLenMaximal(op);
    assert op[..|op|] == op;
    assert op[|op|..] == "";
  }

  // ---------------------------------------------------------------------
  // Select and sort

  /** `String(v)`: what `parseInt` sees when a parameter is not a plain string. */
  function ToJsString(v: QueryValue): string
    decreases v
  {
    match v
    case Str(s) => s
    case Arr(items) => Join(ToJsStrings(items), ",")
    case Obj(_) => "[object Object]"
  }

  /** `String` of each array element, in order (what `Array.prototype.join` reads). */
  function ToJsStrings(items: seq<QueryValue>): (r: seq<string>)
    ensures |r| == |items|
    ensures forall i :: 0 <= i < |items| ==> r[i] == ToJsString(items[i])
    decreases items
  {
    if items == [] then []
    else
      var rest := ToJsStrings(items[1..]);
      assert forall i :: 1 <= i < |items| ==> items[i] == items[1..][i - 1];
      [ToJsString(items[0])] + rest
  }

  /**
   * A comma list parameter as the space-separated list the store takes:
   * absent or empty gives `None`, a non-string fails on `.split`.
   */
  function ListParam(q: QueryMap, key: string): (r: Result<Option<string>, Rejection>)
    ensures r.Failure? <==> key in q && !q[key].Str?
    ensures r.Success? && r.value.Some? <==> key in q && q[key].Str? && q[key].s != ""
    ensures r.Success? && r.value.Some? ==> r.value.value == ReplaceChar(q[key].s, ',', ' ')
  {
    if key !in q then Success(None)
    else match q[key]
      case Str(s) =>
        if s == "" then Success(None)
        else
          JoinSplitReplaces(s, ',', ' ');
          Success(Some(Join(Split(s, ','), " ")))
      case _ => Failure(SplitOnNonString(key))
  }

  // ---------------------------------------------------------------------
  // Page and limit

  /**
   * `parseInt(q[key]) || default`: the parsed integer, or the default when
   * the parameter is missing, not a number, or zero. Negative values pass.
   */
  function NumberParam(q: QueryMap, key: string, decimalOnly: bool, default: int): (n: int)
    requires default != 0
    ensures n != 0
    ensures key !in q ==> n == default
    ensures key in q ==> (n == default || ParseInt(ToJsString(q[key]), decimalOnly) == Some(n))
    ensures key in q && ParseInt(ToJsString(q[key]), decimalOnly).Some? && ParseInt(ToJsString(q[key]), decimalOnly).value != 0 ==>
      n == ParseInt(ToJsString(q[key]), decimalOnly).value
  {
    var text := if key in q then ToJsString(q[key]) else "undefined";
    ParseIntWithoutDigits("undefined", decimalOnly);
    match ParseInt(text, decimalOnly)
    case Some(v) => if v == 0 then default else v
    case None => default
  }

  /** `page` is read with radix 10. */
  function PageOf(q: QueryMap): int
  {
    NumberParam(q, "page", true, DefaultPage)
  }

  /** `limit` is read without a radix, so a `0x` prefix is read as hexadecimal. */
  function LimitOf(q: QueryMap): int
  {
    NumberParam(q, "limit", false, DefaultLimit)
  }

  /** A parameter is read from its own key only. */
  lemma NumberParamReadsOneKey(q: QueryMap, q': QueryMap, key: string, decimalOnly: bool, default: int)
    requires default != 0
    requires key in q <==> key in q'
    requires key in q ==> q[key] == q'[key]
    ensures NumberParam(q, key, decimalOnly, default) == NumberParam(q', key, decimalOnly, default)
  {
  }

  /** A parameter without a single digit falls back to its default. */
  lemma NonNumericFallsBack(q: QueryMap, key: string, decimalOnly: bool, default: int)
    requires default != 0 && key in q && q[key].Str?
    requires forall i :: 0 <= i < |q[key].s| ==> !IsDigit(q[key].s[i])
    ensures NumberParam(q, key, decimalOnly, default) == default
  {
    ParseIntWithoutDigits(q[key].s, decimalOnly);
  }

  /** A page number written in decimal is read back as that page. */
  lemma DecimalPageIsRead(q: QueryMap, p: nat)
    requires p != 0 && "page" in q && q["page"] == Str(NatToString(p))
    ensures PageOf(q) == p
  {
    ParseIntReadsNat(p, "", true);
    assert NatToString(p) + "" == NatToString(p);
  }

  /** A negative limit written in decimal is read as that negative number. */
  lemma NegativeLimitIsRead(q: QueryMap, p: nat)
    requires p != 0 && "limit" in q && q["limit"] == Str("-" + NatToString(p))
    ensures LimitOf(q) == -(p as int)
  {
    ParseIntReadsNegative(p, false);
  }

  // ---------------------------------------------------------------------
  // Translation and envelope

  /** The first record of the page. */
  function StartIndex(page: int, limit: int): int { (page - 1) * limit }

  /** One past the last record of the page. */
  function EndIndex(page: int, limit: int): int { page * limit }

  /** The store query for a request, or the rejection of a non-string `select` or `sort`. */
  function Translate(q: QueryMap): (r: Result<StoreQuery, Rejection>)
    ensures r.Success? ==> r.value.filter == StoreFilter(q)
    ensures r.Success? ==> r.value.skip == StartIndex(PageOf(q), LimitOf(q)) && r.value.limit == LimitOf(q)
    ensures r.Success? ==> r.value.select == (if "select" in q && q["select"].Str? && q["select"].s != "" then Some(ReplaceChar(q["select"].s, ',', ' ')) else None)
    ensures r.Success? ==> r.value.sort == (if "sort" in q && q["sort"].Str? && q["sort"].s != "" then ReplaceChar(q["sort"].s, ',', ' ') else DefaultSort)
    ensures r.Failure? <==> ("select" in q && !q["select"].Str?) || ("sort" in q && !q["sort"].Str?)
  {
    var select :- ListParam(q, "select");
    var sort :- ListParam(q, "sort");
    var page, limit := PageOf(q), LimitOf(q);
    Success(StoreQuery(StoreFilter(q), select, sort.GetOr(DefaultSort), StartIndex(page, limit), limit))
  }

  /**
   * What the store hands back for `skip(s).limit(l)`: it refuses a negative
   * skip, reads a negative limit as its absolute value and a limit of 0 as no
   * limit at all (the middleware never passes 0: `|| 100` replaces it).
   */
  function Fetch<T>(matched: seq<T>, skip: int, limit: int): (r: Result<seq<T>, Rejection>)
    ensures r.Failure? <==> skip < 0
    ensures r.Success? && limit != 0 ==> |r.value| <= Abs(limit)
    ensures r.Success? && limit == 0 ==> skip + |r.value| == |matched| || skip >= |matched|
    ensures r.Success? ==> (|r.value| == Abs(limit) || skip + |r.value| == |matched| || skip >= |matched|)
    ensures r.Success? ==> forall i :: 0 <= i < |r.value| ==> skip + i < |matched| && r.value[i] == matched[skip + i]
  {
    if skip < 0 then Failure(NegativeSkip(skip))
    else if skip >= |matched| then Success([])
    else if limit == 0 then Success(matched[skip..])
    else Success(matched[skip..Min(skip + Abs(limit), |matched|)])
  }

  function Abs(x: int): nat { if x < 0 then -x else x }

  function Min(a: int, b: int): int { if a < b then a else b }

  /** The pagination object: `next` when the page ends before `total`, `prev` when it starts after 0. */
  function PaginationOf(page: int, limit: int, total: int): (p: Pagination)
    ensures p.next.Some? <==> EndIndex(page, limit) < total
    ensures p.prev.Some? <==> StartIndex(page, limit) > 0
    ensures p.next.Some? ==> p.next.value == PageLink(page + 1, limit)
    ensures p.prev.Some? ==> p.prev.value == PageLink(page - 1, limit)
  {
    Pagination(
      if EndIndex(page, limit) < total then Some(PageLink(page + 1, limit)) else None,
      if StartIndex(page, limit) > 0 then Some(PageLink(page - 1, limit)) else None)
  }

  /**
   * The middleware as written: `total` is the size of the whole collection,
   * whatever the filter matched.
   */
  function ListAsWritten<T>(q: QueryMap, matched: seq<T>, total: nat): (r: Result<Envelope<T>, Rejection>)
    ensures r.Success? ==> r.value.success && r.value.count == |r.value.data| <= Abs(LimitOf(q))
    ensures r.Success? ==> r.value.pagination == PaginationOf(PageOf(q), LimitOf(q), total)
    ensures r.Success? <==> Translate(q).Success? && StartIndex(PageOf(q), LimitOf(q)) >= 0
    ensures r.Success? ==> r.value.data == Fetch(matched, StartIndex(PageOf(q), LimitOf(q)), LimitOf(q)).value
  {
    var query :- Translate(q);
    var data :- Fetch(matched, query.skip, query.limit);
    Success(Envelope(true, |data|, PaginationOf(PageOf(q), LimitOf(q), total), data))
  }

  /** The middleware with `total` counting the records the filter matched. */
  function List<T>(q: QueryMap, matched: seq<T>): (r: Result<Envelope<T>, Rejection>)
    ensures r.Success? ==> r.value.success && r.value.count == |r.value.data| <= Abs(LimitOf(q))
    ensures r.Success? ==> r.value.pagination == PaginationOf(PageOf(q), LimitOf(q), |matched|)
    ensures r.Success? <==> Translate(q).Success? && StartIndex(PageOf(q), LimitOf(q)) >= 0
    ensures r.Success? ==> r.value.data == Fetch(matched, StartIndex(PageOf(q), LimitOf(q)), LimitOf(q)).value
  {
    ListAsWritten(q, matched, |matched|)
  }

  // ---------------------------------------------------------------------
  // Properties of the envelope

  /** A request without parameters reads page 1 of 100 records, newest field order `createdAt`. */
  lemma EmptyQueryDefaults()
    ensures Translate(map[]) == Success(StoreQuery(map[], None, DefaultSort, 0, DefaultLimit))
  {
    assert FilterOf(map[]) == map[];
    assert Rewrite(Obj(map[])).fields == map[];
  }

  /**
   * Following the `next` link reads the records right after the current
   * page: the link's page number, written back into the query, starts
   * where the current page ended, with the same limit.
   */
  lemma NextLinkFollows(q: QueryMap, q': QueryMap)
    requires PageOf(q) >= 1
    requires q' == q["page" := Str(NatToString(PageOf(q) + 1))]
    ensures PageOf(q') == PageOf(q) + 1
    ensures LimitOf(q') == LimitOf(q)
    ensures StartIndex(PageOf(q'), LimitOf(q')) == EndIndex(PageOf(q), LimitOf(q))
  {
    var p := PageOf(q) + 1;
    assert q'["page"] == Str(NatToString(p));
    DecimalPageIsRead(q', p);
    assert |"limit"| != |"page"|;
    NumberParamReadsOneKey(q, q', "limit", false, DefaultLimit);
    NextPageStartsAtEnd(PageOf(q), LimitOf(q));
  }

  lemma NextPageStartsAtEnd(page: int, limit: int)
    ensures StartIndex(page + 1, limit) == EndIndex(page, limit)
  {
  }

  /**
   * With the filtered count, `next` is offered exactly when the next page
   * holds at least one record.
   */
  lemma ListNextIffMoreRecords<T>(q: QueryMap, matched: seq<T>)
    requires List(q, matched).Success?
    requires PageOf(q) >= 1 && LimitOf(q) >= 1
    ensures var nextPage := Fetch(matched, EndIndex(PageOf(q), LimitOf(q)), LimitOf(q));
            nextPage.Success? &&
            (List(q, matched).value.pagination.next.Some? <==> |nextPage.value| > 0)
  {
    var l := LimitOf(q);
    var e := EndIndex(PageOf(q), l);
    assert e >= 0 by { MulNonNegative(PageOf(q), l); }
  }

  /** `prev` is offered exactly from page 2 on. */
  lemma PrevIffLaterPage<T>(q: QueryMap, matched: seq<T>)
    requires List(q, matched).Success?
    requires PageOf(q) >= 1 && LimitOf(q) >= 1
    ensures List(q, matched).value.pagination.prev.Some? <==> PageOf(q) > 1
  {
    var p, l := PageOf(q), LimitOf(q);
    if p > 1 {
      MulPositive(p - 1, l);
    }
  }

  lemma MulNonNegative(a: int, b: int)
    requires a >= 0 && b >= 0
    ensures a * b >= 0
  {
  }

  lemma MulPositive(a: int, b: int)
    requires a > 0 && b > 0
    ensures a * b > 0
  {
  }

  /** Two consecutive pages of `limit` records are the page of `2 * limit` records at the same start. */
  lemma ConsecutivePagesTile<T>(matched: seq<T>, skip: int, limit: int)
    requires skip >= 0 && limit >= 1
    ensures var a, b, ab := Fetch(matched, skip, limit), Fetch(matched, skip + limit, limit), Fetch(matched, skip, 2 * limit);
            a.Success? && b.Success? && ab.Success? && a.value + b.value == ab.value
  {
    var a, b, ab := Fetch(matched, skip, limit), Fetch(matched, skip + limit, limit), Fetch(matched, skip, 2 * limit);
    if skip < |matched| {
      var m1 := Min(skip + limit, |matched|);
      if skip + limit < |matched| {
        assert matched[skip..m1] + matched[m1..Min(skip + 2 * limit, |matched|)] == matched[skip..Min(skip + 2 * limit, |matched|)];
      } else {
        assert b.value == [];
      }
    }
  }

  /**
   * Following the `next` link from a page of the envelope yields the records
   * right after it: the two pages' data together are the window of twice
   * the limit at the first page's start.
   */
  lemma ListPagesTile<T>(q: QueryMap, q': QueryMap, matched: seq<T>)
    requires PageOf(q) >= 1 && LimitOf(q) >= 1 && List(q, matched).Success?
    requires q' == q["page" := Str(NatToString(PageOf(q) + 1))]
    ensures List(q', matched).Success?
    ensures List(q, matched).value.data + List(q', matched).value.data
         == Fetch(matched, StartIndex(PageOf(q), LimitOf(q)), 2 * LimitOf(q)).value
  {
    var skip, limit := StartIndex(PageOf(q), LimitOf(q)), LimitOf(q);
    NextPageListed(q, q', matched);
    var a, b := List(q, matched).value.data, List(q', matched).value.data;
    assert a == Fetch(matched, skip, limit).value;
    assert b == Fetch(matched, skip + limit, limit).value;
    ConsecutivePagesTile(matched, skip, limit);
  }

  /** The `next` page of a listed page is listed too, from where the first one ended. */
  lemma NextPageListed<T>(q: QueryMap, q': QueryMap, matched: seq<T>)
    requires PageOf(q) >= 1 && LimitOf(q) >= 1 && List(q, matched).Success?
    requires q' == q["page" := Str(NatToString(PageOf(q) + 1))]
    ensures List(q', matched).Success? && LimitOf(q') == LimitOf(q)
    ensures StartIndex(PageOf(q'), LimitOf(q')) == StartIndex(PageOf(q), LimitOf(q)) + LimitOf(q)
  {
    NextLinkFollows(q, q');
    EndIsStartPlusLimit(PageOf(q), LimitOf(q));
    TranslateIgnoresPage(q, Str(NatToString(PageOf(q) + 1)));
  }

  /** Whether a query translates does not depend on its page. */
  lemma TranslateIgnoresPage(q: QueryMap, v: QueryValue)
    ensures Translate(q["page" := v]).Success? <==> Translate(q).Success?
  {
    ListParamIgnoresPage(q, v, "select");
    ListParamIgnoresPage(q, v, "sort");
  }

  lemma ListParamIgnoresPage(q: QueryMap, v: QueryValue, key: string)
    requires key != "page"
    ensures ListParam(q["page" := v], key).Failure? <==> ListParam(q, key).Failure?
  {
  }

  lemma EndIsStartPlusLimit(page: int, limit: int)
    ensures EndIndex(page, limit) == StartIndex(page, limit) + limit
  {
  }

  /**
   * The middleware as written counts the whole collection for `next`: a
   * filter that matches 3 of 200 records still offers a second page, and
   * that page is empty.
   */
  lemma ListAsWrittenOffersEmptyPage()
    ensures var r := ListAsWritten(map[], [1, 2, 3], 200);
            r.Success? && r.value.pagination.next == Some(PageLink(2, 100))
            && Fetch([1, 2, 3], EndIndex(1, 100), 100) == Success([])
    ensures List(map[], [1, 2, 3]).value.pagination.next == None
  {
    EmptyQueryDefaults();
  }
}

=== FILE: api.dfy ===
/**
 * What every resource handler shares: the caller, the stored records, the
 * shape of a reply, the lookup by id with its cast failure, and the
 * ownership rule "the record's owner or an admin".
 */
module Api {
  import opened Wrappers
  import opened Collection
  import Text
  import ErrorHandler

  datatype Role = User | Publisher | Admin

  /** The authenticated user of a request (`req.user`). */
  datatype Caller = Caller(id: string, role: Role)

  /**
   * A bootcamp as far as the handlers look into it: its owner, the body
   * fields it was created or updated with, its average rating and photo.
   */
  datatype Bootcamp = Bootcamp(user: string, fields: map<string, string>, averageRating: Option<real>, photo: Option<string>)

  datatype Course = Course(bootcamp: string, user: string, fields: map<string, string>)

  datatype Review = Review(title: string, text: string, rating: real, bootcamp: string, user: string)

  datatype Store = Store(bootcamps: seq<Doc<Bootcamp>>, courses: seq<Doc<Course>>, reviews: seq<Doc<Review>>)

  predicate ValidStore(s: Store)
  {
    UniqueIds(s.bootcamps) && UniqueIds(s.courses) && UniqueIds(s.reviews)
  }

  /** The body of a successful reply. */
  datatype Body<T> =
    | One(doc: T)                       // `{success: true, body | data: doc}`
    | Many(count: nat, data: seq<T>)    // `{success: true, count, data}`
    | Note(msg: string)                 // `{success: true, msg}`
    | Named(name: string)               // `{success: true, data: name}`

  datatype Reply<T> = Reply(status: int, body: Body<T>)

  /** A handler's answer and the store it leaves behind. */
  datatype Outcome<T> = Outcome(result: Result<Reply<T>, ErrorHandler.JsError>, store: Store)

  /** What the client receives: the success reply, or the error middleware's reply. */
  datatype Answer<T> = Ok(reply: Reply<T>) | Err(error: ErrorHandler.ErrorReply)

  function AnswerOf<T>(o: Outcome<T>): (a: Answer<T>)
    ensures o.result.Success? <==> a.Ok?
    ensures a.Err? ==> a.error.status != 0
  {
    match o.result
    case Success(reply) => Ok(reply)
    case Failure(e) => Err(ErrorHandler.Handle(e))
  }

  lemma AnswerOfFailure<T>(o: Outcome<T>, e: ErrorHandler.JsError)
    requires o.result == Failure(e)
    ensures AnswerOf(o) == Err(ErrorHandler.Handle(e))
  {
  }

  /** A failed handler leaves the store as it was. */
  function Fail<T>(s: Store, e: ErrorHandler.JsError): (o: Outcome<T>)
    ensures o.result.Failure? && o.store == s
  {
    Outcome(Failure(e), s)
  }

  /** `authorize('admin', 'publisher')` on the routes that change bootcamps and courses. */
  predicate MayPublish(c: Caller)
  {
    c.role == Publisher || c.role == Admin
  }

  /**
   * `record.user != req.user.id && req.user.role !== 'admin'`, negated. The
   * loose comparison prints the stored object id, so both sides are the
   * canonical spelling of an id.
   */
  predicate OwnerOrAdmin(owner: string, c: Caller)
  {
    owner == c.id || c.role == Admin
  }

  predicate IsHexDigit(ch: char)
  {
    IsLowerHexDigit(ch) || 'A' <= ch <= 'F'
  }

  /**
   * A string the store can cast to an object id: 24 hexadecimal digits, or
   * any string of JavaScript length 12 (UTF-16 code units).
   */
  predicate ValidObjectId(s: string)
  {
    Text.JsLength(s) == 12 || (|s| == 24 && forall i :: 0 <= i < |s| ==> IsHexDigit(s[i]))
  }

  /** The store's error for an id it cannot cast. */
  function CastError(value: string): (e: ErrorHandler.JsError)
    ensures e.name == "CastError" && e.value == value
  {
    ErrorHandler.JsError("CastError", None,
      "Cast to ObjectId failed for value \"" + value + "\" at path \"_id\"", None, value, None)
  }

  // ---------------------------------------------------------------------
  // The spelling of an object id

  predicate IsLowerHexDigit(ch: char)
  {
    '0' <= ch <= '9' || 'a' <= ch <= 'f'
  }

  /** How an object id prints (`toString()`, `req.user.id`): 24 lower-case hexadecimal digits. */
  predicate IsCanonicalId(s: string)
  {
    |s| == 24 && forall i :: 0 <= i < |s| ==> IsLowerHexDigit(s[i])
  }

  predicate IsHexId(s: string)
  {
    |s| == 24 && forall i :: 0 <= i < |s| ==> IsHexDigit(s[i])
  }

  /** Twelve characters below U+0100, each read as one byte of the id. */
  predicate IsByteId(s: string)
  {
    |s| == 12 && forall i :: 0 <= i < |s| ==> s[i] as int < 256
  }

  const HexDigits: string := "0123456789abcdef"

  /** The value of a hexadecimal digit, either case. */
  function HexValue(ch: char): (v: nat)
    requires IsHexDigit(ch)
    ensures v < 16 && HexDigits[v] == LowerDigit(ch)
  {
    if '0' <= ch <= '9' then ch as int - '0' as int
    else if 'a' <= ch <= 'f' then ch as int - 'a' as int + 10
    else ch as int - 'A' as int + 10
  }

  function LowerDigit(ch: char): (l: char)
    ensures IsHexDigit(ch) ==> IsLowerHexDigit(l)
    ensures IsLowerHexDigit(ch) ==> l == ch
  {
    if 'A' <= ch <= 'F' then (ch as int - 'A' as int + 'a' as int) as char else ch
  }

  function LowerDigits(s: string): (r: string)
    ensures |r| == |s|
    ensures forall i :: 0 <= i < |s| ==> r[i] == LowerDigit(s[i])
  {
    if |s| == 0 then [] else [LowerDigit(s[0])] + LowerDigits(s[1..])
  }

  /** A character below U+0100 as two lower-case hexadecimal digits, high nibble first. */
  function ByteHex(ch: char): (h: string)
    requires ch as int < 256
    ensures |h| == 2 && IsLowerHexDigit(h[0]) && IsLowerHexDigit(h[1])
  {
    [HexDigits[ch as int / 16], HexDigits[ch as int % 16]]
  }

  /** The hexadecimal of a string of byte-sized characters. */
  function HexOfBytes(s: string): (r: string)
    requires forall i :: 0 <= i < |s| ==> s[i] as int < 256
    ensures |r| == 2 * |s|
    ensures forall k :: 0 <= k < |r| ==> IsLowerHexDigit(r[k])
  {
    if |s| == 0 then [] else ByteHex(s[0]) + HexOfBytes(s[1..])
  }

  /**
   * The object id a string is cast to, in the spelling the store prints it:
   * 24 hexadecimal digits in either case give the lower-case digits, twelve
   * byte-sized characters give the hexadecimal of their codes, and any other
   * string is left as it is (it is never looked up, except a twelve-unit
   * string with a character above U+00FF).
   */
  function ObjectId(s: string): (r: string)
    ensures IsHexId(s) ==> |r| == 24 && forall i :: 0 <= i < 24 ==> r[i] == LowerDigit(s[i])
    ensures IsByteId(s) ==> IsCanonicalId(r) && BytesOf(r) == s
    ensures IsHexId(s) || IsByteId(s) ==> IsCanonicalId(r)
    ensures !IsHexId(s) && !IsByteId(s) ==> r == s
  {
    if IsHexId(s) then LowerDigits(s)
    else if IsByteId(s) then BytesOfHex(s); HexOfBytes(s)
    else s
  }

  /** Every hex or byte spelling is a valid id, and the canonical spelling is one. */
  lemma CastableIsValid(s: string)
    requires IsHexId(s) || IsByteId(s)
    ensures ValidObjectId(s) && ValidObjectId(ObjectId(s))
  {
    if IsByteId(s) {
      assert forall i :: 0 <= i < |s| ==> !Text.IsAstral(s[i]);
    }
  }

  /** The cast leaves a canonical id alone, so casting twice is casting once. */
  lemma ObjectIdIdempotent(s: string)
    ensures IsCanonicalId(s) ==> ObjectId(s) == s
    ensures ObjectId(ObjectId(s)) == ObjectId(s)
  {
    if IsCanonicalId(s) {
      assert IsHexId(s);
      assert ObjectId(s) == s;
    }
    if IsHexId(s) || IsByteId(s) {
      var r := ObjectId(s);
      assert IsCanonicalId(r);
      assert IsHexId(r);
      assert ObjectId(r) == r;
    }
  }

  function UpperDigit(ch: char): char
  {
    if 'a' <= ch <= 'f' then (ch as int - 'a' as int + 'A' as int) as char else ch
  }

  function UpperDigits(s: string): (r: string)
    ensures |r| == |s|
    ensures forall i :: 0 <= i < |s| ==> r[i] == UpperDigit(s[i])
  {
    if |s| == 0 then [] else [UpperDigit(s[0])] + UpperDigits(s[1..])
  }

  /** The upper-case spelling of an id is cast to the same id. */
  lemma UpperCaseIsSameId(x: string)
    requires IsCanonicalId(x)
    ensures ValidObjectId(UpperDigits(x)) && ObjectId(UpperDigits(x)) == x
  {
    var u := UpperDigits(x);
    assert IsHexId(u);
    assert forall i :: 0 <= i < 24 ==> LowerDigit(u[i]) == x[i];
    CastableIsValid(u);
  }

  /** The character whose code two hexadecimal digits spell. */
  function ByteOf(hi: char, lo: char): (ch: char)
    requires IsHexDigit(hi) && IsHexDigit(lo)
    ensures ch as int < 256
  {
    (16 * HexValue(hi) + HexValue(lo)) as char
  }

  /** The bytes a string of hexadecimal digits stands for, as characters below U+0100. */
  function BytesOf(x: string): (b: string)
    requires |x| % 2 == 0 && forall i :: 0 <= i < |x| ==> IsHexDigit(x[i])
    ensures |b| == |x| / 2
    ensures forall i :: 0 <= i < |b| ==> b[i] as int < 256
  {
    if |x| == 0 then [] else [ByteOf(x[0], x[1])] + BytesOf(x[2..])
  }

  lemma HexValueOfDigit(v: nat)
    requires v < 16
    ensures IsLowerHexDigit(HexDigits[v]) && HexValue(HexDigits[v]) == v
  {
  }

  /** Printing a byte and reading it back gives the byte. */
  lemma ByteHexRoundTrip(ch: char)
    requires ch as int < 256
    ensures ByteOf(ByteHex(ch)[0], ByteHex(ch)[1]) == ch
  {
    HexValueOfDigit(ch as int / 16);
    HexValueOfDigit(ch as int % 16);
  }

  /** Reading two lower-case digits and printing the byte gives the digits. */
  lemma ByteOfRoundTrip(hi: char, lo: char)
    requires IsLowerHexDigit(hi) && IsLowerHexDigit(lo)
    ensures ByteHex(ByteOf(hi, lo)) == [hi, lo]
  {
    var h, l := HexValue(hi), HexValue(lo);
    assert (16 * h + l) / 16 == h && (16 * h + l) % 16 == l;
  }

  /** Lower-case hexadecimal read as bytes prints back as itself. */
  lemma {:induction false} HexOfBytesOf(x: string)
    requires |x| % 2 == 0 && forall i :: 0 <= i < |x| ==> IsLowerHexDigit(x[i])
    ensures HexOfBytes(BytesOf(x)) == x
    decreases |x|
  {
    if |x| != 0 {
      var b := BytesOf(x);
      assert b[1..] == BytesOf(x[2..]);
      HexOfBytesOf(x[2..]);
      ByteOfRoundTrip(x[0], x[1]);
      assert x == [x[0], x[1]] + x[2..];
    }
  }

  /** Bytes printed as hexadecimal read back as themselves. */
  lemma {:induction false} BytesOfHex(s: string)
    requires forall i :: 0 <= i < |s| ==> s[i] as int < 256
    ensures BytesOf(HexOfBytes(s)) == s
    decreases |s|
  {
    if |s| != 0 {
      var h := HexOfBytes(s);
      assert h[2..] == HexOfBytes(s[1..]);
      BytesOfHex(s[1..]);
      ByteHexRoundTrip(s[0]);
      assert s == [s[0]] + s[1..];
    }
  }

  /** The twelve-character spelling of a canonical id. */
  function ByteSpelling(x: string): (b: string)
    requires IsCanonicalId(x)
    ensures IsByteId(b)
  {
    assert forall i :: 0 <= i < |x| ==> IsHexDigit(x[i]);
    BytesOf(x)
  }

  /** The twelve-character spelling of an id is cast to the same id. */
  lemma ByteSpellingIsSameId(x: string)
    requires IsCanonicalId(x)
    ensures ValidObjectId(ByteSpelling(x)) && ObjectId(ByteSpelling(x)) == x
  {
    var b := ByteSpelling(x);
    assert IsByteId(b);
    HexOfBytesOf(x);
    CastableIsValid(b);
  }

  /** Distinct twelve-character spellings are distinct ids. */
  lemma ByteSpellingsDiffer(a: string, b: string)
    requires IsByteId(a) && IsByteId(b) && a != b
    ensures ObjectId(a) != ObjectId(b)
  {
    BytesOfHex(a);
    BytesOfHex(b);
  }

  /**
   * `Model.findById(id)`: a cast failure, or the document whose id is the
   * cast of `id`, if there is one.
   */
  function FindById<T>(c: seq<Doc<T>>, id: string): (r: Result<Option<Doc<T>>, ErrorHandler.JsError>)
    ensures r.Failure? <==> !ValidObjectId(id)
    ensures r.Failure? ==> r.error == CastError(id)
    ensures r.Success? ==> (r.value.Some? <==> HasId(c, ObjectId(id)))
    ensures r.Success? && r.value.Some? ==> r.value.value.id == ObjectId(id) && r.value.value in c
  {
    if !ValidObjectId(id) then Failure(CastError(id)) else Success(Find(c, ObjectId(id)))
  }

  /** Two spellings of one id find the same document, or fail the same way. */
  lemma SpellingsFindSame<T>(c: seq<Doc<T>>, a: string, b: string)
    requires ValidObjectId(a) && ValidObjectId(b) && ObjectId(a) == ObjectId(b)
    ensures FindById(c, a) == FindById(c, b)
  {
  }

  /** A stored id is found under its upper-case and its twelve-character spellings. */
  lemma OtherSpellingsFind<T>(c: seq<Doc<T>>, d: Doc<T>)
    requires UniqueIds(c) && d in c && IsCanonicalId(d.id)
    ensures FindById(c, UpperDigits(d.id)) == Success(Some(d))
    ensures FindById(c, ByteSpelling(d.id)) == Success(Some(d))
  {
    UpperCaseIsSameId(d.id);
    ByteSpellingIsSameId(d.id);
    var i :| 0 <= i < |c| && c[i] == d;
    assert HasId(c, d.id);
  }

  /** `ReferenceError` raised by reading a variable that was never declared. */
  function ReferenceError(variable: string): ErrorHandler.JsError
  {
    ErrorHandler.JsError("ReferenceError", None, variable + " is not defined", None, "", None)
  }

  /** `TypeError` raised by reading a property of `undefined`. */
  function TypeError(property: string): ErrorHandler.JsError
  {
    ErrorHandler.JsError("TypeError", None, "Cannot read property '" + property + "' of undefined", None, "", None)
  }

  /** A malformed id reaches the client as the error middleware's 404. */
  lemma MalformedIdIsNotFound<T>(o: Outcome<T>, id: string)
    requires o.result == Failure(CastError(id))
    ensures AnswerOf(o) == Err(ErrorHandler.JsonReply(404, false, ErrorHandler.NotFoundMessage(id)))
  {
  }
}

=== FILE: bootcamps.dfy ===
/**
 * The bootcamp handlers (controllers/bootcamp.js): read one, create, update,
 * delete, and the photo upload. Every handler checks in the same order:
 * the id must name a bootcamp (404), the caller must own it or be an admin
 * (401), then the handler's own checks (400).
 */
module Bootcamps {
  import opened Wrappers
  import opened Text
  import opened Collection
  import opened Api
  import opened ErrorHandler
  import AdvancedResults

  function NotFound(id: string): JsError
  {
    ErrorResponse("Bootcamp with param id " + id + " not found", 404)
  }

  function Unauthorized(c: Caller, action: string): JsError
  {
    ErrorResponse("User user id " + c.id + " not authorized to " + action, 401)
  }

  // ---------------------------------------------------------------------
  // Read

  /**
   * `getBootcamps`: the list middleware's envelope, whose `next` link is
   * decided against the size of the whole bootcamp collection. `matched` is
   * what the store returns for the translated query.
   */
  function ListBootcamps(s: Store, q: AdvancedResults.QueryMap, matched: seq<Doc<Bootcamp>>): (r: Result<AdvancedResults.Envelope<Doc<Bootcamp>>, AdvancedResults.Rejection>)
    ensures r.Success? ==> r.value.pagination == AdvancedResults.PaginationOf(AdvancedResults.PageOf(q), AdvancedResults.LimitOf(q), |s.bootcamps|)
    ensures r.Success? ==> r.value.count == |r.value.data| <= AdvancedResults.Abs(AdvancedResults.LimitOf(q))
    ensures r.Success? <==> AdvancedResults.Translate(q).Success? && AdvancedResults.StartIndex(AdvancedResults.PageOf(q), AdvancedResults.LimitOf(q)) >= 0
    ensures r.Success? ==>
      r.value.data == AdvancedResults.Fetch(matched, AdvancedResults.StartIndex(AdvancedResults.PageOf(q), AdvancedResults.LimitOf(q)), AdvancedResults.LimitOf(q)).value
  {
    AdvancedResults.ListAsWritten(q, matched, |s.bootcamps|)
  }

  /** `getBootcamp`: the bootcamp with that id, or a 404 naming the id. */
  function GetBootcamp(s: Store, id: string): (o: Outcome<Doc<Bootcamp>>)
    ensures o.store == s
    ensures !ValidObjectId(id) ==> o.result == Failure(CastError(id))
    ensures ValidObjectId(id) && !HasId(s.bootcamps, ObjectId(id)) ==> o.result == Failure(NotFound(id))
    ensures ValidObjectId(id) && HasId(s.bootcamps, ObjectId(id)) ==>
      o.result.Success? && o.result.value.status == 200 && o.result.value.body.One?
      && o.result.value.body.doc.id == ObjectId(id) && o.result.value.body.doc in s.bootcamps
  {
    match FindById(s.bootcamps, id)
    case Failure(e) => Fail(s, e)
    case Success(None) => Fail(s, NotFound(id))
    case Success(Some(d)) => Outcome(Success(Reply(200, One(d))), s)
  }

  // ---------------------------------------------------------------------
  // Create

  /** Some bootcamp of the store is owned by `user` (`findOne({user})`). */
  predicate Owns(bootcamps: seq<Doc<Bootcamp>>, user: string)
  {
    exists i :: 0 <= i < |bootcamps| && bootcamps[i].val.user == user
  }

  /**
   * The number of bootcamps owned by `user`: none exactly when `findOne({user})`
   * finds nothing, all of them exactly when every bootcamp is theirs.
   */
  function OwnedCount(bootcamps: seq<Doc<Bootcamp>>, user: string): (n: nat)
    ensures n <= |bootcamps|
    ensures n == 0 <==> !Owns(bootcamps, user)
    ensures n == |bootcamps| <==> forall i :: 0 <= i < |bootcamps| ==> bootcamps[i].val.user == user
  {
    if |bootcamps| == 0 then 0
    else
      var rest := OwnedCount(bootcamps[1..], user);
      assert forall i :: 1 <= i < |bootcamps| ==> bootcamps[i] == bootcamps[1..][i - 1];
      (if bootcamps[0].val.user == user then 1 else 0) + rest
  }

  function AlreadyPublished(c: Caller): JsError
  {
    ErrorResponse("Current user with id " + c.id + " has already published a bootcamp ", 400)
  }

  /**
   * `createBootcamps`: the caller becomes the owner, whatever `user` the body
   * named; a caller who already owns a bootcamp and is not an admin is
   * refused with a 400. `newId` is the fresh id the store assigns.
   */
  function CreateBootcamp(s: Store, c: Caller, fields: map<string, string>, newId: string): (o: Outcome<Doc<Bootcamp>>)
    requires MayPublish(c)
    requires ValidStore(s) && !HasId(s.bootcamps, newId)
    ensures ValidStore(o.store)
    ensures o.result.Failure? <==> Owns(s.bootcamps, c.id) && c.role != Admin
    ensures o.result.Failure? ==> o.result.error == AlreadyPublished(c) && o.store == s
    ensures o.result.Success? ==>
      var d := Doc(newId, Bootcamp(c.id, fields - {"user"}, None, None));
      o.result.value == Reply(201, One(d)) && o.store == s.(bootcamps := s.bootcamps + [d])
  {
    if Owns(s.bootcamps, c.id) && c.role != Admin then Fail(s, AlreadyPublished(c))
    else
      var d := Doc(newId, Bootcamp(c.id, fields - {"user"}, None, None));
      FindAfterInsert(s.bootcamps, d, newId);
      Outcome(Success(Reply(201, One(d))), s.(bootcamps := s.bootcamps + [d]))
  }

  // ---------------------------------------------------------------------
  // Update

  /**
   * The request body applied to a bootcamp, as `findOneAndUpdate` writes it:
   * a `user` in the body, cast to an object id, becomes the owner, every
   * other path is merged into the fields.
   */
  function ApplyBody(b: Bootcamp, body: map<string, string>): (b': Bootcamp)
    ensures b'.user == (if "user" in body then ObjectId(body["user"]) else b.user)
    ensures forall k :: k in body && k != "user" ==> k in b'.fields && b'.fields[k] == body[k]
    ensures forall k :: k in b.fields && k !in body ==> k in b'.fields && b'.fields[k] == b.fields[k]
    ensures forall k :: k in b'.fields ==> k in b.fields || (k in body && k != "user")
    ensures b'.photo == b.photo && b'.averageRating == b.averageRating
  {
    b.(user := if "user" in body then ObjectId(body["user"]) else b.user, fields := b.fields + (body - {"user"}))
  }

  /**
   * `updateBootcamps`: the body is written into the bootcamp with that id,
   * which is saved in place; a `user` that cannot be cast to an object id
   * fails the update.
   */
  function UpdateBootcamp(s: Store, c: Caller, id: string, body: map<string, string>): (o: Outcome<Doc<Bootcamp>>)
    requires MayPublish(c)
    requires ValidStore(s)
    ensures ValidStore(o.store)
    ensures o.result.Failure? ==> o.store == s
    ensures !ValidObjectId(id) ==> o.result == Failure(CastError(id))
    ensures ValidObjectId(id) && !HasId(s.bootcamps, ObjectId(id)) ==> o.result == Failure(NotFound(id))
    ensures ValidObjectId(id) && HasId(s.bootcamps, ObjectId(id)) ==>
      var d := Find(s.bootcamps, ObjectId(id)).value;
      if !OwnerOrAdmin(d.val.user, c) then o.result == Failure(Unauthorized(c, "update"))
      else if "user" in body && !ValidObjectId(body["user"]) then o.result == Failure(CastError(body["user"]))
      else
        var d' := d.(val := ApplyBody(d.val, body));
        o.result == Success(Reply(200, One(d'))) && o.store == s.(bootcamps := Replace(s.bootcamps, d'))
  {
    match FindById(s.bootcamps, id)
    case Failure(e) => Fail(s, e)
    case Success(None) => Fail(s, NotFound(id))
    case Success(Some(d)) =>
      if !OwnerOrAdmin(d.val.user, c) then Fail(s, Unauthorized(c, "update"))
      else if "user" in body && !ValidObjectId(body["user"]) then Fail(s, CastError(body["user"]))
      else
        var d' := d.(val := ApplyBody(d.val, body));
        ReplacePreservesUniqueIds(s.bootcamps, d');
        Outcome(Success(Reply(200, One(d'))), s.(bootcamps := Replace(s.bootcamps, d')))
  }

  // ---------------------------------------------------------------------
  // Delete

  /**
   * `deleteBootcamps` as written: the ownership test reads `bootcamp`, a
   * name declared nowhere, so every request for an existing bootcamp ends in
   * a `ReferenceError` and nothing is removed.
   */
  function DeleteBootcampAsWritten(s: Store, c: Caller, id: string): (o: Outcome<Doc<Bootcamp>>)
    requires MayPublish(c)
    ensures o.store == s
    ensures !ValidObjectId(id) ==> o.result == Failure(CastError(id))
    ensures ValidObjectId(id) && !HasId(s.bootcamps, ObjectId(id)) ==> o.result == Failure(NotFound(id))
    ensures ValidObjectId(id) && HasId(s.bootcamps, ObjectId(id)) ==> o.result == Failure(ReferenceError("bootcamp"))
  {
    match FindById(s.bootcamps, id)
    case Failure(e) => Fail(s, e)
    case Success(None) => Fail(s, NotFound(id))
    case Success(Some(_)) => Fail(s, ReferenceError("bootcamp"))
  }

  /** `deleteBootcamps` with the ownership test reading the bootcamp it found. */
  function DeleteBootcamp(s: Store, c: Caller, id: string): (o: Outcome<Doc<Bootcamp>>)
    requires MayPublish(c)
    requires ValidStore(s)
    ensures ValidStore(o.store)
    ensures o.result.Failure? ==> o.store == s
    ensures !ValidObjectId(id) ==> o.result == Failure(CastError(id))
    ensures ValidObjectId(id) && !HasId(s.bootcamps, ObjectId(id)) ==> o.result == Failure(NotFound(id))
    ensures ValidObjectId(id) && HasId(s.bootcamps, ObjectId(id)) ==>
      if !OwnerOrAdmin(Find(s.bootcamps, ObjectId(id)).value.val.user, c) then o.result == Failure(Unauthorized(c, "update"))
      else o.result == Success(Reply(200, Note("Delete bootcamp " + id)))
           && o.store == s.(bootcamps := Remove(s.bootcamps, ObjectId(id)))
  {
    match FindById(s.bootcamps, id)
    case Failure(e) => Fail(s, e)
    case Success(None) => Fail(s, NotFound(id))
    case Success(Some(d)) =>
      if !OwnerOrAdmin(d.val.user, c) then Fail(s, Unauthorized(c, "update"))
      else
        RemovePreservesUniqueIds(s.bootcamps, ObjectId(id));
        Outcome(Success(Reply(200, Note("Delete bootcamp " + id))), s.(bootcamps := Remove(s.bootcamps, ObjectId(id))))
  }

  // ---------------------------------------------------------------------
  // Photo upload

  /** An uploaded file as the upload middleware describes it. */
  datatype FilePart = FilePart(name: string, mimetype: string, size: nat)

  /** `req.files`: absent, or present with or without a part named `file`. */
  datatype Upload = NoFiles | Files(file: Option<FilePart>)

  predicate StartsWith(s: string, prefix: string)
  {
    |prefix| <= |s| && s[..|prefix|] == prefix
  }

  /** The position of the last `.` in `s`, if any. */
  function LastDot(s: string): (k: Option<nat>)
    ensures k.Some? ==> k.value < |s| && s[k.value] == '.'
    ensures k.Some? ==> forall i :: k.value < i < |s| ==> s[i] != '.'
    ensures k.None? ==> forall i :: 0 <= i < |s| ==> s[i] != '.'
  {
    if |s| == 0 then None
    else if s[|s| - 1] == '.' then Some(|s| - 1)
    else LastDot(s[..|s| - 1])
  }

  /**
   * `path.parse(name).ext`: from the last `.` on, unless there is none, it
   * is the first character (a hidden file), or the name is `..`.
   */
  function Extension(name: string): (ext: string)
    ensures ext == "" || (ext[0] == '.' && |ext| < |name| && name == name[..|name| - |ext|] + ext)
    ensures forall i :: 0 < i < |ext| ==> ext[i] != '.'
  {
    match LastDot(name)
    case None => ""
    case Some(k) =>
      if k == 0 || name == ".." then ""
      else
        assert name == name[..k] + name[k..];
        name[k..]
  }

  /** The stored file name: `photo_`, the bootcamp's id, the original extension. */
  function PhotoFileName(id: string, name: string): (f: string)
    ensures StartsWith(f, "photo_" + id)
  {
    assert ("photo_" + id + Extension(name))[..|"photo_" + id|] == "photo_" + id;
    "photo_" + id + Extension(name)
  }

  /**
   * The file checks, in order: some file was sent, the part is present
   * (reading `mimetype` of a missing part throws), it is an image, and it is
   * not larger than the configured maximum (no maximum when unset).
   */
  function CheckUpload(upload: Upload, maxUpload: Option<nat>): (r: Result<FilePart, JsError>)
    ensures upload.NoFiles? ==> r == Failure(ErrorResponse("Please upload a file", 400))
    ensures upload == Files(None) ==> r == Failure(TypeError("mimetype"))
    ensures upload.Files? && upload.file.Some? && !StartsWith(upload.file.value.mimetype, "image") ==>
      r == Failure(ErrorResponse("Please upload an image", 400))
    ensures upload.Files? && upload.file.Some? && StartsWith(upload.file.value.mimetype, "image")
            && maxUpload.Some? && upload.file.value.size > maxUpload.value ==>
      r == Failure(ErrorResponse("Please upload an image less than " + NatToString(maxUpload.value), 400))
    ensures r.Success? <==>
      upload.Files? && upload.file.Some? && StartsWith(upload.file.value.mimetype, "image")
      && (maxUpload.Some? ==> upload.file.value.size <= maxUpload.value)
    ensures r.Success? ==> r.value == upload.file.value
  {
    match upload
    case NoFiles => Failure(ErrorResponse("Please upload a file", 400))
    case Files(None) => Failure(TypeError("mimetype"))
    case Files(Some(file)) =>
      if !StartsWith(file.mimetype, "image") then Failure(ErrorResponse("Please upload an image", 400))
      else if maxUpload.Some? && file.size > maxUpload.value then
        Failure(ErrorResponse("Please upload an image less than " + NatToString(maxUpload.value), 400))
      else Success(file)
  }

  /**
   * The move callback as written: line 203 calls `findById` with the new
   * name as a projection, so the photo is never recorded.
   */
  function PhotoCallbackAsWritten(s: Store, d: Doc<Bootcamp>, fileName: string, moved: bool): (o: Outcome<Doc<Bootcamp>>)
    ensures o.store == s
    ensures !moved <==> o.result.Failure?
    ensures !moved ==> o.result.error == ErrorResponse("Problem with file upload", 500)
    ensures moved ==> o.result.value == Reply(200, Named(fileName))
  {
    if !moved then Fail(s, ErrorResponse("Problem with file upload", 500))
    else Outcome(Success(Reply(200, Named(fileName))), s)
  }

  /** The move callback recording the photo on the bootcamp, as the handler evidently intends. */
  function PhotoCallback(s: Store, d: Doc<Bootcamp>, fileName: string, moved: bool): (o: Outcome<Doc<Bootcamp>>)
    requires ValidStore(s) && d in s.bootcamps
    ensures ValidStore(o.store)
    ensures !moved <==> o.result.Failure?
    ensures !moved ==> o.result.error == ErrorResponse("Problem with file upload", 500) && o.store == s
    ensures moved ==> o.result.value == Reply(200, Named(fileName))
    ensures moved ==> Find(o.store.bootcamps, d.id) == Some(d.(val := d.val.(photo := Some(fileName))))
  {
    if !moved then Fail(s, ErrorResponse("Problem with file upload", 500))
    else
      var d' := d.(val := d.val.(photo := Some(fileName)));
      ReplacePreservesUniqueIds(s.bootcamps, d');
      FindAfterReplace(s.bootcamps, d', d.id);
      Outcome(Success(Reply(200, Named(fileName))), s.(bootcamps := Replace(s.bootcamps, d')))
  }

  /**
   * `bootcampUploadPhoto` as written: the ownership test reads the undeclared
   * `bootcamp`, so the file checks are never reached.
   */
  function UploadPhotoAsWritten(s: Store, c: Caller, id: string, upload: Upload, maxUpload: Option<nat>, moved: bool): (o: Outcome<Doc<Bootcamp>>)
    requires MayPublish(c)
    ensures o.store == s
    ensures !ValidObjectId(id) ==> o.result == Failure(CastError(id))
    ensures ValidObjectId(id) && !HasId(s.bootcamps, ObjectId(id)) ==> o.result == Failure(NotFound(id))
    ensures ValidObjectId(id) && HasId(s.bootcamps, ObjectId(id)) ==> o.result == Failure(ReferenceError("bootcamp"))
  {
    match FindById(s.bootcamps, id)
    case Failure(e) => Fail(s, e)
    case Success(None) => Fail(s, NotFound(id))
    case Success(Some(_)) => Fail(s, ReferenceError("bootcamp"))
  }

  /**
   * `bootcampUploadPhoto` with the ownership test reading the bootcamp it
   * found and the photo recorded: 404, 401, the file checks, then the move.
   * `maxUpload` is the configured limit and `moved` whether the move succeeded.
   */
  function UploadPhoto(s: Store, c: Caller, id: string, upload: Upload, maxUpload: Option<nat>, moved: bool): (o: Outcome<Doc<Bootcamp>>)
    requires MayPublish(c)
    requires ValidStore(s)
    ensures ValidStore(o.store)
    ensures o.result.Failure? ==> o.store == s
    ensures !ValidObjectId(id) ==> o.result == Failure(CastError(id))
    ensures ValidObjectId(id) && !HasId(s.bootcamps, ObjectId(id)) ==> o.result == Failure(NotFound(id))
    ensures ValidObjectId(id) && HasId(s.bootcamps, ObjectId(id)) ==>
      var d := Find(s.bootcamps, ObjectId(id)).value;
      if !OwnerOrAdmin(d.val.user, c) then o.result == Failure(Unauthorized(c, "upload photo"))
      else if CheckUpload(upload, maxUpload).Failure? then o.result == Failure(CheckUpload(upload, maxUpload).error)
      else o == PhotoCallback(s, d, PhotoFileName(ObjectId(id), upload.file.value.name), moved)
  {
    match FindById(s.bootcamps, id)
    case Failure(e) => Fail(s, e)
    case Success(None) => Fail(s, NotFound(id))
    case Success(Some(d)) =>
      if !OwnerOrAdmin(d.val.user, c) then Fail(s, Unauthorized(c, "upload photo"))
      else match CheckUpload(upload, maxUpload)
        case Failure(e) => Fail(s, e)
        case Success(file) => PhotoCallback(s, d, PhotoFileName(d.id, file.name), moved)
  }

  // ---------------------------------------------------------------------
  // Properties

  lemma {:induction false} OwnedCountAppend(bootcamps: seq<Doc<Bootcamp>>, d: Doc<Bootcamp>, user: string)
    ensures OwnedCount(bootcamps + [d], user) == OwnedCount(bootcamps, user) + (if d.val.user == user then 1 else 0)
  {
    if |bootcamps| == 0 {
      assert [] + [d] == [d];
    } else {
      assert (bootcamps + [d])[1..] == bootcamps[1..] + [d];
      OwnedCountAppend(bootcamps[1..], d, user);
    }
  }

  /**
   * A publisher owns at most one bootcamp: creating never takes a caller
   * other than an admin past one.
   */
  lemma CreateKeepsOneBootcampPerPublisher(s: Store, c: Caller, fields: map<string, string>, newId: string)
    requires MayPublish(c) && c.role != Admin
    requires ValidStore(s) && !HasId(s.bootcamps, newId)
    requires OwnedCount(s.bootcamps, c.id) <= 1
    ensures OwnedCount(CreateBootcamp(s, c, fields, newId).store.bootcamps, c.id) <= 1
  {
    var d := Doc(newId, Bootcamp(c.id, fields - {"user"}, None, None));
    OwnedCountAppend(s.bootcamps, d, c.id);
  }

  /** An admin may create any number of bootcamps. */
  lemma AdminAlwaysCreates(s: Store, c: Caller, fields: map<string, string>, newId: string)
    requires c.role == Admin
    requires ValidStore(s) && !HasId(s.bootcamps, newId)
    ensures var o := CreateBootcamp(s, c, fields, newId);
            o.result.Success? && OwnedCount(o.store.bootcamps, c.id) == OwnedCount(s.bootcamps, c.id) + 1
  {
    var d := Doc(newId, Bootcamp(c.id, fields - {"user"}, None, None));
    OwnedCountAppend(s.bootcamps, d, c.id);
  }

  /**
   * Replacing a bootcamp moves one unit of ownership from its old owner to
   * its new one; the counts of everybody else stay as they were.
   */
  lemma {:induction false} OwnedCountReplace(bootcamps: seq<Doc<Bootcamp>>, d': Doc<Bootcamp>, prior: Doc<Bootcamp>, user: string)
    requires UniqueIds(bootcamps) && prior in bootcamps && prior.id == d'.id
    ensures OwnedCount(Replace(bootcamps, d'), user) + (if prior.val.user == user then 1 else 0)
         == OwnedCount(bootcamps, user) + (if d'.val.user == user then 1 else 0)
    decreases |bootcamps|
  {
    var r := Replace(bootcamps, d');
    var rest := bootcamps[1..];
    assert r[1..] == Replace(rest, d');
    assert UniqueIds(rest) by {
      assert forall i :: 0 <= i < |rest| ==> rest[i] == bootcamps[i + 1];
    }
    if bootcamps[0].id == d'.id {
      assert bootcamps[0] == prior;
      assert !HasId(rest, d'.id) by {
        assert forall i :: 0 <= i < |rest| ==> rest[i] == bootcamps[i + 1];
      }
      ReplaceAbsent(rest, d');
    } else {
      assert prior in rest by {
        var i :| 0 <= i < |bootcamps| && bootcamps[i] == prior;
        assert rest[i - 1] == prior;
      }
      OwnedCountReplace(rest, d', prior, user);
    }
  }

  /**
   * A bootcamp is read under any spelling of its id: the upper-case digits
   * and the twelve-character form find it as the stored spelling does.
   */
  lemma OtherSpellingsReadBootcamp(s: Store, d: Doc<Bootcamp>)
    requires ValidStore(s) && d in s.bootcamps && IsCanonicalId(d.id)
    ensures GetBootcamp(s, UpperDigits(d.id)).result == Success(Reply(200, One(d)))
    ensures GetBootcamp(s, ByteSpelling(d.id)).result == Success(Reply(200, One(d)))
  {
    OtherSpellingsFind(s.bootcamps, d);
  }

  /**
   * An update is what a later read sees: the bootcamp is found with the body
   * applied, and every other lookup is as before.
   */
  lemma UpdateIsRead(s: Store, c: Caller, id: string, body: map<string, string>, other: string)
    requires MayPublish(c) && ValidStore(s)
    requires UpdateBootcamp(s, c, id, body).result.Success?
    ensures HasId(s.bootcamps, ObjectId(id))
    ensures Find(UpdateBootcamp(s, c, id, body).store.bootcamps, other)
         == if other == ObjectId(id) then Some(Find(s.bootcamps, ObjectId(id)).value.(val := ApplyBody(Find(s.bootcamps, ObjectId(id)).value.val, body)))
            else Find(s.bootcamps, other)
  {
    var d := Find(s.bootcamps, ObjectId(id)).value;
    FindAfterReplace(s.bootcamps, d.(val := ApplyBody(d.val, body)), other);
  }

  /**
   * An update whose body names no `user` leaves every user's bootcamp count
   * as it was; one that names a new owner hands the bootcamp over, so the
   * new owner gains one bootcamp even when they already had one.
   */
  lemma UpdateOwnership(s: Store, c: Caller, id: string, body: map<string, string>, user: string)
    requires MayPublish(c) && ValidStore(s)
    requires UpdateBootcamp(s, c, id, body).result.Success?
    ensures var before, after := OwnedCount(s.bootcamps, user), OwnedCount(UpdateBootcamp(s, c, id, body).store.bootcamps, user);
            var owner := Find(s.bootcamps, ObjectId(id)).value.val.user;
            && ("user" !in body ==> after == before)
            && ("user" in body && ObjectId(body["user"]) == user && owner != user ==> after == before + 1)
            && ("user" in body && ObjectId(body["user"]) != user && owner == user ==> after + 1 == before)
  {
    var d := Find(s.bootcamps, ObjectId(id)).value;
    OwnedCountReplace(s.bootcamps, d.(val := ApplyBody(d.val, body)), d, user);
  }

  /** A handler's `ReferenceError` reaches the client as a 500 naming the variable. */
  lemma ReferenceErrorIsServerError(variable: string)
    ensures Handle(ReferenceError(variable)) == JsonReply(500, false, variable + " is not defined")
  {
    var e := ReferenceError(variable);
    assert |e.name| != |"CastError"| && |e.name| != |"ValidationError"|;
    assert e.message != "";
  }

  /**
   * As written, the owner of an existing bootcamp cannot delete it: the
   * reply is a 500 naming the undeclared variable, and the store is as before.
   */
  lemma DeleteAsWrittenNeverRemoves(s: Store, c: Caller, id: string)
    requires MayPublish(c)
    requires ValidObjectId(id) && HasId(s.bootcamps, ObjectId(id)) && Find(s.bootcamps, ObjectId(id)).value.val.user == c.id
    ensures AnswerOf(DeleteBootcampAsWritten(s, c, id)) == Err(JsonReply(500, false, "bootcamp" + " is not defined"))
    ensures DeleteBootcampAsWritten(s, c, id).store == s
  {
    var o := DeleteBootcampAsWritten(s, c, id);
    var e := ReferenceError("bootcamp");
    assert o.result == Failure(e);
    ReferenceErrorIsServerError("bootcamp");
    AnswerOfFailure(o, e);
  }

  /** Corrected, the owner's delete removes that bootcamp and no other. */
  lemma DeleteRemovesOnlyThatBootcamp(s: Store, c: Caller, id: string, other: string)
    requires MayPublish(c) && ValidStore(s)
    requires ValidObjectId(id) && HasId(s.bootcamps, ObjectId(id)) && Find(s.bootcamps, ObjectId(id)).value.val.user == c.id
    ensures var o := DeleteBootcamp(s, c, id);
            o.result.Success? && Find(o.store.bootcamps, other) == (if other == ObjectId(id) then None else Find(s.bootcamps, other))
  {
    FindAfterRemove(s.bootcamps, ObjectId(id), other);
  }

  /**
   * As written, the owner's upload of an acceptable image to an existing
   * bootcamp is a 500 naming the undeclared variable, before any file check;
   * corrected, it reaches the move.
   */
  lemma UploadAsWrittenNeverChecksFile(s: Store, c: Caller, id: string, file: FilePart, maxUpload: Option<nat>)
    requires MayPublish(c) && ValidStore(s)
    requires ValidObjectId(id) && HasId(s.bootcamps, ObjectId(id)) && Find(s.bootcamps, ObjectId(id)).value.val.user == c.id
    requires CheckUpload(Files(Some(file)), maxUpload).Success?
    ensures AnswerOf(UploadPhotoAsWritten(s, c, id, Files(Some(file)), maxUpload, true)) == Err(JsonReply(500, false, "bootcamp" + " is not defined"))
    ensures UploadPhoto(s, c, id, Files(Some(file)), maxUpload, true).result == Success(Reply(200, Named(PhotoFileName(ObjectId(id), file.name))))
  {
    var o := UploadPhotoAsWritten(s, c, id, Files(Some(file)), maxUpload, true);
    var e := ReferenceError("bootcamp");
    assert o.result == Failure(e);
    ReferenceErrorIsServerError("bootcamp");
    AnswerOfFailure(o, e);
  }

  /**
   * As written, a successful upload leaves the bootcamp's photo as it was;
   * corrected, the bootcamp is found with the new file name as its photo.
   */
  lemma PhotoAsWrittenNotRecorded(s: Store, d: Doc<Bootcamp>, fileName: string)
    requires ValidStore(s) && d in s.bootcamps && d.val.photo == None
    ensures Find(PhotoCallbackAsWritten(s, d, fileName, true).store.bootcamps, d.id) == Some(d)
    ensures Find(PhotoCallback(s, d, fileName, true).store.bootcamps, d.id).value.val.photo == Some(fileName)
  {
    var i :| 0 <= i < |s.bootcamps| && s.bootcamps[i] == d;
    assert s.bootcamps[i].id == d.id;
  }

  /** A file name's extension is kept after the bootcamp's id. */
  lemma PhotoNameKeepsExtension(id: string, stem: string, ext: string)
    requires |stem| > 0 && stem[0] != '.'
    requires forall i :: 0 <= i < |ext| ==> ext[i] != '.'
    ensures PhotoFileName(id, stem + "." + ext) == "photo_" + id + "." + ext
  {
    var name := stem + "." + ext;
    var k := |stem|;
    assert name[k] == '.';
    LastDotOfSuffix(name, k);
    assert name[k..] == "." + ext;
    assert name != ".." by {
      if |name| == 2 {
        assert name[0] == stem[0];
      }
    }
  }

  lemma LastDotOfSuffix(s: string, k: nat)
    requires k < |s| && s[k] == '.'
    requires forall i :: k < i < |s| ==> s[i] != '.'
    ensures LastDot(s) == Some(k)
    decreases |s|
  {
    if s[|s| - 1] != '.' {
      LastDotOfSuffix(s[..|s| - 1], k);
    }
  }
}

=== FILE: collection.dfy ===
/**
 * A store collection: documents with string ids, in the store's natural
 * (insertion) order. The operations are the ones the handlers use: lookup
 * by id, insertion, replacement and removal of one document.
 */
module Collection {
  import opened Wrappers

  datatype Doc<T> = Doc(id: string, val: T)

  /** No two documents share an id (the store's `_id` index). */
  predicate UniqueIds<T>(c: seq<Doc<T>>)
  {
    forall i, j :: 0 <= i < j < |c| ==> c[i].id != c[j].id
  }

  predicate HasId<T>(c: seq<Doc<T>>, id: string)
  {
    exists i :: 0 <= i < |c| && c[i].id == id
  }

  /** `findById`: the document with that id, if there is one. */
  function Find<T>(c: seq<Doc<T>>, id: string): (r: Option<Doc<T>>)
    ensures r.Some? <==> HasId(c, id)
    ensures r.Some? ==> r.value.id == id && r.value in c
    ensures r.Some? && UniqueIds(c) ==> forall i :: 0 <= i < |c| && c[i].id == id ==> c[i] == r.value
  {
    if |c| == 0 then None
    else if c[0].id == id then Some(c[0])
    else
      var r := Find(c[1..], id);
      assert HasId(c[1..], id) ==> HasId(c, id) by {
        if HasId(c[1..], id) {
          var i :| 0 <= i < |c[1..]| && c[1..][i].id == id;
          assert c[i + 1].id == id;
        }
      }
      assert HasId(c, id) ==> HasId(c[1..], id) by {
        if HasId(c, id) {
          var i :| 0 <= i < |c| && c[i].id == id;
          assert c[1..][i - 1].id == id;
        }
      }
      r
  }

  /** `document.remove()`: every document but the one with that id, in the same order. */
  function Remove<T>(c: seq<Doc<T>>, id: string): (r: seq<Doc<T>>)
    ensures |r| <= |c|
    ensures forall i :: 0 <= i < |r| ==> r[i].id != id
    ensures multiset(r) <= multiset(c)
  {
    if |c| == 0 then []
    else
      assert c == [c[0]] + c[1..];
      if c[0].id == id then Remove(c[1..], id)
      else [c[0]] + Remove(c[1..], id)
  }

  /** Saving a changed document: the document with the same id is replaced, in place. */
  function Replace<T>(c: seq<Doc<T>>, d: Doc<T>): (r: seq<Doc<T>>)
    ensures |r| == |c|
    ensures forall i :: 0 <= i < |c| ==> r[i].id == c[i].id
    ensures forall i :: 0 <= i < |c| ==> r[i] == (if c[i].id == d.id then d else c[i])
  {
    if |c| == 0 then []
    else [if c[0].id == d.id then d else c[0]] + Replace(c[1..], d)
  }

  // ---------------------------------------------------------------------
  // Properties

  /** A removal keeps every document with another id. */
  lemma {:induction false} RemoveKeepsOthers<T>(c: seq<Doc<T>>, id: string)
    ensures forall i :: 0 <= i < |c| && c[i].id != id ==> c[i] in Remove(c, id)
  {
    if |c| > 0 {
      var rest := Remove(c[1..], id);
      RemoveKeepsOthers(c[1..], id);
      forall i | 0 <= i < |c| && c[i].id != id
        ensures c[i] in Remove(c, id)
      {
        if i == 0 {
          assert Remove(c, id) == [c[0]] + rest;
        } else {
          assert c[i] == c[1..][i - 1];
          assert c[i] in rest;
        }
      }
    }
  }

  /** A removal of an id no document has changes nothing. */
  lemma {:induction false} RemoveAbsent<T>(c: seq<Doc<T>>, id: string)
    requires !HasId(c, id)
    ensures Remove(c, id) == c
  {
    if |c| > 0 {
      assert c[0].id != id;
      assert !HasId(c[1..], id) by {
        forall i | 0 <= i < |c[1..]|
          ensures c[1..][i].id != id
        {
          assert c[1..][i] == c[i + 1];
        }
      }
      RemoveAbsent(c[1..], id);
      assert c == [c[0]] + c[1..];
    }
  }

  lemma {:induction false} RemovePreservesUniqueIds<T>(c: seq<Doc<T>>, id: string)
    requires UniqueIds(c)
    ensures UniqueIds(Remove(c, id))
  {
    if |c| > 0 {
      RemovePreservesUniqueIds(c[1..], id);
      var rest := Remove(c[1..], id);
      if c[0].id != id {
        forall k | 0 <= k < |rest|
          ensures rest[k].id != c[0].id
        {
          assert rest[k] in multiset(c[1..]);
          var i :| 0 <= i < |c[1..]| && c[1..][i] == rest[k];
          assert c[i + 1] == rest[k];
        }
      }
    }
  }

  lemma ReplacePreservesUniqueIds<T>(c: seq<Doc<T>>, d: Doc<T>)
    requires UniqueIds(c)
    ensures UniqueIds(Replace(c, d))
  {
  }

  /** After an insertion of a fresh id the new document is found, and every other lookup is as before. */
  lemma FindAfterInsert<T>(c: seq<Doc<T>>, d: Doc<T>, id: string)
    requires UniqueIds(c) && !HasId(c, d.id)
    ensures UniqueIds(c + [d])
    ensures Find(c + [d], id) == if id == d.id then Some(d) else Find(c, id)
  {
    var c' := c + [d];
    if id == d.id {
      assert c'[|c|] == d;
    } else if HasId(c, id) {
      var i :| 0 <= i < |c| && c[i].id == id;
      assert c'[i] == c[i];
    } else {
      forall i | 0 <= i < |c'|
        ensures c'[i].id != id
      {
        if i < |c| {
          assert c'[i] == c[i];
        }
      }
    }
  }

  /** Replacing an id that is not stored changes nothing. */
  lemma ReplaceAbsent<T>(c: seq<Doc<T>>, d: Doc<T>)
    requires !HasId(c, d.id)
    ensures Replace(c, d) == c
  {
  }

  /** After a replacement the new document is found under its id, and every other lookup is as before. */
  lemma FindAfterReplace<T>(c: seq<Doc<T>>, d: Doc<T>, id: string)
    requires UniqueIds(c) && HasId(c, d.id)
    ensures Find(Replace(c, d), id) == if id == d.id then Some(d) else Find(c, id)
  {
    var r := Replace(c, d);
    ReplacePreservesUniqueIds(c, d);
    if HasId(c, id) {
      var i :| 0 <= i < |c| && c[i].id == id;
      assert r[i].id == id;
      var found := Find(r, id);
      assert found.Some? && found.value == r[i];
    } else {
      forall i | 0 <= i < |r|
        ensures r[i].id != id
      {
        assert r[i].id == c[i].id;
      }
    }
  }

  /** After a removal the id is gone, and every other lookup is as before. */
  lemma FindAfterRemove<T>(c: seq<Doc<T>>, removed: string, id: string)
    requires UniqueIds(c)
    ensures Find(Remove(c, removed), id) == if id == removed then None else Find(c, id)
  {
    var r := Remove(c, removed);
    RemovePreservesUniqueIds(c, removed);
    RemoveKeepsOthers(c, removed);
    if id != removed {
      if HasId(c, id) {
        var i :| 0 <= i < |c| && c[i].id == id;
        assert c[i] in r;
      } else {
        forall i | 0 <= i < |r|
          ensures r[i].id != id
        {
          assert r[i] in multiset(c);
        }
      }
    }
  }

  /** Removal undoes insertion. */
  lemma {:induction false} RemoveInsert<T>(c: seq<Doc<T>>, d: Doc<T>)
    requires !HasId(c, d.id)
    ensures Remove(c + [d], d.id) == c
  {
    if |c| == 0 {
      assert [] + [d] == [d];
    } else {
      assert (c + [d])[1..] == c[1..] + [d];
      forall i | 0 <= i < |c[1..]|
        ensures c[1..][i].id != d.id
      {
        assert c[1..][i] == c[i + 1];
      }
      RemoveInsert(c[1..], d);
      assert c[0].id != d.id;
      assert c == [c[0]] + c[1..];
    }
  }

  /**
   * `Model.find({field: v})`: the documents whose `key` is `v`, in store
   * order.
   */
  function Where<T>(c: seq<Doc<T>>, key: T -> string, v: string): (r: seq<Doc<T>>)
    ensures |r| <= |c|
    ensures forall i :: 0 <= i < |r| ==> key(r[i].val) == v && r[i] in c
    ensures forall i :: 0 <= i < |c| && key(c[i].val) == v ==> c[i] in r
  {
    if |c| == 0 then []
    else
      var rest := Where(c[1..], key, v);
      assert forall i :: 1 <= i < |c| ==> c[i] == c[1..][i - 1];
      if key(c[0].val) == v then [c[0]] + rest else rest
  }

  /** A document added at the end is listed after the earlier matches, and only when it matches. */
  lemma {:induction false} WhereAppend<T>(c: seq<Doc<T>>, d: Doc<T>, key: T -> string, v: string)
    ensures Where(c + [d], key, v) == Where(c, key, v) + (if key(d.val) == v then [d] else [])
  {
    if |c| == 0 {
      assert [] + [d] == [d];
      assert [d][1..] == [];
    } else {
      assert (c + [d])[1..] == c[1..] + [d];
      WhereAppend(c[1..], d, key, v);
    }
  }
}

=== FILE: courses.dfy ===
/**
 * The course handlers (controllers/courses.js): list (all, or those of one
 * bootcamp), read one, create under a bootcamp, update, delete.
 */
module Courses {
  import opened Wrappers
  import opened Collection
  import opened Api
  import opened ErrorHandler
  import AdvancedResults

  function NotFound(id: string): JsError
  {
    ErrorResponse("Course with param id " + id + " not found", 404)
  }

  function Unauthorized(c: Caller, action: string): JsError
  {
    ErrorResponse("User user id " + c.id + " not authorized to " + action, 401)
  }

  function CourseBootcamp(c: Course): string
  {
    c.bootcamp
  }

  /** `Courses.find({bootcamp})`, `bootcamp` already cast: the courses of that bootcamp, in store order. */
  function CoursesOf(courses: seq<Doc<Course>>, bootcamp: string): seq<Doc<Course>>
  {
    Where(courses, CourseBootcamp, bootcamp)
  }

  /**
   * `getCourses` under a bootcamp: exactly that bootcamp's courses and their
   * number. An id that cannot be cast fails like a lookup by id.
   */
  function GetCoursesOf(s: Store, bootcampId: string): (o: Outcome<Doc<Course>>)
    ensures o.store == s
    ensures !ValidObjectId(bootcampId) ==> o.result == Failure(CastError(bootcampId))
    ensures ValidObjectId(bootcampId) ==>
      var r := CoursesOf(s.courses, ObjectId(bootcampId));
      o.result == Success(Reply(200, Many(|r|, r)))
  {
    if !ValidObjectId(bootcampId) then Fail(s, CastError(bootcampId))
    else
      var r := CoursesOf(s.courses, ObjectId(bootcampId));
      Outcome(Success(Reply(200, Many(|r|, r))), s)
  }

  /**
   * `getCourses` without a bootcamp: the list middleware's envelope, whose
   * `next` link is decided against the size of the whole course collection.
   * `matched` is what the store returns for the translated query.
   */
  function ListCourses(s: Store, q: AdvancedResults.QueryMap, matched: seq<Doc<Course>>): (r: Result<AdvancedResults.Envelope<Doc<Course>>, AdvancedResults.Rejection>)
    ensures r.Success? ==> r.value.pagination == AdvancedResults.PaginationOf(AdvancedResults.PageOf(q), AdvancedResults.LimitOf(q), |s.courses|)
    ensures r.Success? ==> r.value.count == |r.value.data| <= AdvancedResults.Abs(AdvancedResults.LimitOf(q))
    ensures r.Success? <==> AdvancedResults.Translate(q).Success? && AdvancedResults.StartIndex(AdvancedResults.PageOf(q), AdvancedResults.LimitOf(q)) >= 0
    ensures r.Success? ==>
      r.value.data == AdvancedResults.Fetch(matched, AdvancedResults.StartIndex(AdvancedResults.PageOf(q), AdvancedResults.LimitOf(q)), AdvancedResults.LimitOf(q)).value
  {
    AdvancedResults.ListAsWritten(q, matched, |s.courses|)
  }

  /** `getCourse`: the course with that id, or a 404 naming the id. */
  function GetCourse(s: Store, id: string): (o: Outcome<Doc<Course>>)
    ensures o.store == s
    ensures !ValidObjectId(id) ==> o.result == Failure(CastError(id))
    ensures ValidObjectId(id) && !HasId(s.courses, ObjectId(id)) ==> o.result == Failure(NotFound(id))
    ensures ValidObjectId(id) && HasId(s.courses, ObjectId(id)) ==>
      o.result.Success? && o.result.value.status == 200 && o.result.value.body.One?
      && o.result.value.body.doc.id == ObjectId(id) && o.result.value.body.doc in s.courses
  {
    match FindById(s.courses, id)
    case Failure(e) => Fail(s, e)
    case Success(None) => Fail(s, NotFound(id))
    case Success(Some(d)) => Outcome(Success(Reply(200, One(d))), s)
  }

  /**
   * `createCourse`: the course belongs to the bootcamp of the path and to the
   * caller, whatever `bootcamp` and `user` the body named; the bootcamp must exist (404) and be the caller's unless the
   * caller is an admin (401). `newId` is the fresh id the store assigns.
   */
  function CreateCourse(s: Store, c: Caller, bootcampId: string, fields: map<string, string>, newId: string): (o: Outcome<Doc<Course>>)
    requires MayPublish(c)
    requires ValidStore(s) && !HasId(s.courses, newId)
    ensures ValidStore(o.store)
    ensures o.result.Failure? ==> o.store == s
    ensures !ValidObjectId(bootcampId) ==> o.result == Failure(CastError(bootcampId))
    ensures ValidObjectId(bootcampId) && !HasId(s.bootcamps, ObjectId(bootcampId)) ==>
      o.result == Failure(ErrorResponse("Bootcamp with param id " + bootcampId + " not found", 404))
    ensures ValidObjectId(bootcampId) && HasId(s.bootcamps, ObjectId(bootcampId)) ==>
      if !OwnerOrAdmin(Find(s.bootcamps, ObjectId(bootcampId)).value.val.user, c) then
        o.result == Failure(Unauthorized(c, "add a course"))
      else
        var d := Doc(newId, Course(ObjectId(bootcampId), c.id, fields - {"bootcamp", "user"}));
        o.result == Success(Reply(201, One(d))) && o.store == s.(courses := s.courses + [d])
  {
    match FindById(s.bootcamps, bootcampId)
    case Failure(e) => Fail(s, e)
    case Success(None) => Fail(s, ErrorResponse("Bootcamp with param id " + bootcampId + " not found", 404))
    case Success(Some(b)) =>
      if !OwnerOrAdmin(b.val.user, c) then Fail(s, Unauthorized(c, "add a course"))
      else
        var d := Doc(newId, Course(ObjectId(bootcampId), c.id, fields - {"bootcamp", "user"}));
        FindAfterInsert(s.courses, d, newId);
        Outcome(Success(Reply(201, One(d))), s.(courses := s.courses + [d]))
  }

  /**
   * The request body applied to a course, as `findOneAndUpdate` writes it: a
   * `bootcamp` in the body moves the course, a `user` gives it a new owner
   * (both cast to object ids), every other path is merged into the fields.
   */
  function ApplyBody(r: Course, body: map<string, string>): (r': Course)
    ensures r'.bootcamp == (if "bootcamp" in body then ObjectId(body["bootcamp"]) else r.bootcamp)
    ensures r'.user == (if "user" in body then ObjectId(body["user"]) else r.user)
    ensures forall k :: k in body && k != "bootcamp" && k != "user" ==> k in r'.fields && r'.fields[k] == body[k]
    ensures forall k :: k in r.fields && k !in body ==> k in r'.fields && r'.fields[k] == r.fields[k]
    ensures forall k :: k in r'.fields ==> k in r.fields || (k in body && k != "bootcamp" && k != "user")
  {
    Course(if "bootcamp" in body then ObjectId(body["bootcamp"]) else r.bootcamp,
           if "user" in body then ObjectId(body["user"]) else r.user,
           r.fields + (body - {"bootcamp", "user"}))
  }

  /** The cast of the body's object-id paths, `bootcamp` first. */
  function CastBody(body: map<string, string>): (e: Option<JsError>)
    ensures e.None? <==> ("bootcamp" in body ==> ValidObjectId(body["bootcamp"])) && ("user" in body ==> ValidObjectId(body["user"]))
    ensures "bootcamp" in body && !ValidObjectId(body["bootcamp"]) ==> e == Some(CastError(body["bootcamp"]))
    ensures ("bootcamp" in body ==> ValidObjectId(body["bootcamp"])) && "user" in body && !ValidObjectId(body["user"]) ==>
      e == Some(CastError(body["user"]))
  {
    if "bootcamp" in body && !ValidObjectId(body["bootcamp"]) then Some(CastError(body["bootcamp"]))
    else if "user" in body && !ValidObjectId(body["user"]) then Some(CastError(body["user"]))
    else None
  }

  /**
   * `updateCourses`: the body is written into the course with that id, which
   * is saved in place; an object-id path that cannot be cast fails it.
   */
  function UpdateCourse(s: Store, c: Caller, id: string, body: map<string, string>): (o: Outcome<Doc<Course>>)
    requires MayPublish(c)
    requires ValidStore(s)
    ensures ValidStore(o.store)
    ensures o.result.Failure? ==> o.store == s
    ensures !ValidObjectId(id) ==> o.result == Failure(CastError(id))
    ensures ValidObjectId(id) && !HasId(s.courses, ObjectId(id)) ==> o.result == Failure(NotFound(id))
    ensures ValidObjectId(id) && HasId(s.courses, ObjectId(id)) ==>
      var d := Find(s.courses, ObjectId(id)).value;
      if !OwnerOrAdmin(d.val.user, c) then o.result == Failure(Unauthorized(c, "update a course"))
      else if CastBody(body).Some? then o.result == Failure(CastBody(body).value)
      else
        var d' := d.(val := ApplyBody(d.val, body));
        o.result == Success(Reply(200, One(d'))) && o.store == s.(courses := Replace(s.courses, d'))
  {
    match FindById(s.courses, id)
    case Failure(e) => Fail(s, e)
    case Success(None) => Fail(s, NotFound(id))
    case Success(Some(d)) =>
      if !OwnerOrAdmin(d.val.user, c) then Fail(s, Unauthorized(c, "update a course"))
      else if CastBody(body).Some? then Fail(s, CastBody(body).value)
      else
        var d' := d.(val := ApplyBody(d.val, body));
        ReplacePreservesUniqueIds(s.courses, d');
        Outcome(Success(Reply(200, One(d'))), s.(courses := Replace(s.courses, d')))
  }

  /** `deleteCourse`: the course is removed and the reply names its id. */
  function DeleteCourse(s: Store, c: Caller, id: string): (o: Outcome<Doc<Course>>)
    requires MayPublish(c)
    requires ValidStore(s)
    ensures ValidStore(o.store)
    ensures o.result.Failure? ==> o.store == s
    ensures !ValidObjectId(id) ==> o.result == Failure(CastError(id))
    ensures ValidObjectId(id) && !HasId(s.courses, ObjectId(id)) ==>
      o.result == Failure(ErrorResponse("course with param id " + id + " not found", 404))
    ensures ValidObjectId(id) && HasId(s.courses, ObjectId(id)) ==>
      if !OwnerOrAdmin(Find(s.courses, ObjectId(id)).value.val.user, c) then o.result == Failure(Unauthorized(c, "update a course"))
      else o.result == Success(Reply(200, Note("Delete course " + id))) && o.store == s.(courses := Remove(s.courses, ObjectId(id)))
  {
    match FindById(s.courses, id)
    case Failure(e) => Fail(s, e)
    case Success(None) => Fail(s, ErrorResponse("course with param id " + id + " not found", 404))
    case Success(Some(d)) =>
      if !OwnerOrAdmin(d.val.user, c) then Fail(s, Unauthorized(c, "update a course"))
      else
        RemovePreservesUniqueIds(s.courses, ObjectId(id));
        Outcome(Success(Reply(200, Note("Delete course " + id))), s.(courses := Remove(s.courses, ObjectId(id))))
  }

  // ---------------------------------------------------------------------
  // Properties

  /** A created course is listed under its bootcamp, after the ones already there. */
  lemma CreatedCourseIsListed(s: Store, c: Caller, bootcampId: string, fields: map<string, string>, newId: string)
    requires MayPublish(c) && ValidStore(s) && !HasId(s.courses, newId)
    requires CreateCourse(s, c, bootcampId, fields, newId).result.Success?
    ensures var s' := CreateCourse(s, c, bootcampId, fields, newId).store;
            CoursesOf(s'.courses, ObjectId(bootcampId)) == CoursesOf(s.courses, ObjectId(bootcampId)) + [Doc(newId, Course(ObjectId(bootcampId), c.id, fields - {"bootcamp", "user"}))]
  {
    WhereAppend(s.courses, Doc(newId, Course(ObjectId(bootcampId), c.id, fields - {"bootcamp", "user"})), CourseBootcamp, ObjectId(bootcampId));
  }

  /**
   * An update is what a later read sees: the course is found with the body
   * applied, under the bootcamp the body named if it named one, and every
   * other lookup is as before.
   */
  lemma UpdateIsRead(s: Store, c: Caller, id: string, body: map<string, string>, other: string)
    requires MayPublish(c) && ValidStore(s)
    requires UpdateCourse(s, c, id, body).result.Success?
    ensures HasId(s.courses, ObjectId(id))
    ensures Find(UpdateCourse(s, c, id, body).store.courses, other)
         == if other == ObjectId(id) then Some(Find(s.courses, ObjectId(id)).value.(val := ApplyBody(Find(s.courses, ObjectId(id)).value.val, body)))
            else Find(s.courses, other)
    ensures "bootcamp" in body ==> Find(UpdateCourse(s, c, id, body).store.courses, ObjectId(id)).value.val.bootcamp == ObjectId(body["bootcamp"])
  {
    var d := Find(s.courses, ObjectId(id)).value;
    FindAfterReplace(s.courses, d.(val := ApplyBody(d.val, body)), other);
    FindAfterReplace(s.courses, d.(val := ApplyBody(d.val, body)), ObjectId(id));
  }
}

=== FILE: errors.dfy ===
/**
 * The error-handling middleware (middleware/error.js): every error a handler
 * passes on is turned into a JSON reply `{success: false, message}` with an
 * HTTP status. Three kinds of error are recognised and rewritten, one after
 * the other, into an `ErrorResponse` (a message with a status code); anything
 * else keeps its own status code and message.
 */
module ErrorHandler {
  import opened Wrappers
  import opened Text

  /**
   * A thrown JavaScript error, with the fields the middleware reads. Missing
   * fields are `None`; `errors` holds the messages of a validation error's
   * `errors` object, in insertion order.
   */
  datatype JsError = JsError(
    name: string,
    code: Option<int>,
    message: string,
    statusCode: Option<int>,
    value: string,
    errors: Option<seq<string>>)

  /**
   * What the client receives: the middleware's JSON reply, or Express's own
   * error page with status 500 when the middleware itself throws.
   */
  datatype ErrorReply =
    | JsonReply(status: int, success: bool, message: string)
    | FallbackPage(status: int)

  const DuplicateCode := 11000
  const DuplicateMessage := "Duplicate name entered"
  const DefaultMessage := "Server Error"

  /**
   * `new ErrorResponse(message, statusCode)`: an `Error` carrying a status.
   * Its class (utils/errorResponse.js) is not part of this model; it is taken
   * to set only the message and the status code.
   */
  function ErrorResponse(message: string, statusCode: int): (e: JsError)
    ensures e.message == message && e.statusCode == Some(statusCode)
    ensures e.name != "CastError" && e.code == None && e.errors == None
  {
    JsError("Error", None, message, Some(statusCode), "", None)
  }

  /** The message of a failed lookup by id. */
  function NotFoundMessage(id: string): string
  {
    "Resource with param id " + id + " not found"
  }

  /** First rewrite: a value that could not be cast to an id becomes a 404. */
  function AfterCast(e: JsError): JsError
  {
    if e.name == "CastError" then ErrorResponse(NotFoundMessage(e.value), 404) else e
  }

  /** Second rewrite: a unique-index violation becomes a 400. */
  function AfterDuplicate(e: JsError): JsError
  {
    if e.code == Some(DuplicateCode) then ErrorResponse(DuplicateMessage, 400) else e
  }

  /**
   * Third rewrite: a validation error becomes a 400 whose message is its
   * field messages joined by commas (an array converted to a string). The
   * test reads `name` when `byName` holds and `message` otherwise. A matching
   * error without an `errors` object makes the middleware throw: `None`.
   */
  function AfterValidation(e: JsError, byName: bool): Option<JsError>
  {
    var matches := if byName then e.name == "ValidationError" else e.message == "ValidationError";
    if !matches then Some(e)
    else match e.errors
      case None => None
      case Some(messages) => Some(ErrorResponse(Join(messages, ","), 400))
  }

  /** The reply for an error after the rewrites: a missing or zero status is 500, an empty message is replaced. */
  function ReplyOf(e: JsError): (r: ErrorReply)
    ensures r.JsonReply? && !r.success && r.status != 0 && r.message != ""
    ensures e.statusCode.Some? && e.statusCode.value != 0 ==> r.status == e.statusCode.value
    ensures e.message != "" ==> r.message == e.message
  {
    var status := match e.statusCode case Some(s) => (if s != 0 then s else 500) case None => 500;
    JsonReply(status, false, if e.message != "" then e.message else DefaultMessage)
  }

  /**
   * The three rewrites in order, then the reply. A cast failure always ends
   * as a 404 naming the value, whatever else the error carries: the
   * rewritten error has no `code`, so the duplicate-key test that follows
   * never overrides it.
   */
  function Respond(error: JsError, byName: bool): (r: ErrorReply)
    ensures r.status != 0 && (r.JsonReply? ==> !r.success && r.message != "")
    ensures error.name == "CastError" ==> r == JsonReply(404, false, NotFoundMessage(error.value))
    ensures error.name != "CastError" && error.code == Some(DuplicateCode) ==> r == JsonReply(400, false, DuplicateMessage)
  {
    assert NotFoundMessage(error.value) != "ValidationError" by {
      assert NotFoundMessage(error.value)[0] == 'R';
    }
    match AfterValidation(AfterDuplicate(AfterCast(error)), byName)
    case None => FallbackPage(500)
    case Some(err) => ReplyOf(err)
  }

  /** True of the errors that none of the three rewrites touches. */
  predicate Unrecognised(error: JsError, byName: bool)
  {
    error.name != "CastError" && error.code != Some(DuplicateCode)
    && (if byName then error.name != "ValidationError" else error.message != "ValidationError")
  }

  /**
   * The middleware as written: the validation test reads the error's
   * `message`, so an error only reaches that branch when its message is the
   * word `ValidationError`; a validation error from the store keeps its own
   * message and, having no status, is reported as a 500.
   */
  function HandleAsWritten(error: JsError): (r: ErrorReply)
    ensures Unrecognised(error, false) ==> r == ReplyOf(error)
    ensures error.name == "ValidationError" && error.message != "ValidationError"
         && error.code != Some(DuplicateCode) && error.statusCode == None && error.message != ""
         ==> r == JsonReply(500, false, error.message)
  {
    Respond(error, false)
  }

  /**
   * The middleware with the validation test reading the error's `name`, as
   * the comparison evidently intends: a validation error becomes a 400
   * listing its field messages, comma-separated.
   */
  function Handle(error: JsError): (r: ErrorReply)
    ensures r.status != 0 && (r.JsonReply? ==> !r.success && r.message != "")
    ensures error.name == "CastError" ==> r == JsonReply(404, false, NotFoundMessage(error.value))
    ensures error.name != "CastError" && error.code == Some(DuplicateCode) ==> r == JsonReply(400, false, DuplicateMessage)
    ensures Unrecognised(error, true) ==> r == ReplyOf(error)
    ensures error.name == "ValidationError" && error.code != Some(DuplicateCode) && error.errors.Some? ==>
      var joined := Join(error.errors.value, ",");
      r == JsonReply(400, false, if joined != "" then joined else DefaultMessage)
  {
    Respond(error, true)
  }

  // ---------------------------------------------------------------------
  // Properties

  /**
   * An `ErrorResponse` thrown by a handler reaches the client unchanged,
   * provided its message is not empty and its status is not zero.
   */
  lemma ErrorResponsePassesThrough(message: string, status: int)
    requires message != "" && message != "ValidationError" && status != 0
    ensures Handle(ErrorResponse(message, status)) == JsonReply(status, false, message)
    ensures HandleAsWritten(ErrorResponse(message, status)) == JsonReply(status, false, message)
  {
  }

  /** The validation error the store raises for a review with no title. */
  const MissingTitleError := JsError("ValidationError", None,
    "Reviews validation failed: title: Please add a title for the review",
    None, "", Some(["Please add a title for the review"]))

  /**
   * As written, a real validation error misses the validation branch and is
   * reported as a 500 with the store's message; with the test on `name` it
   * is the intended 400 with the field's own message.
   */
  lemma ValidationErrorMissedAsWritten()
    ensures HandleAsWritten(MissingTitleError)
         == JsonReply(500, false, "Reviews validation failed: title: Please add a title for the review")
    ensures Handle(MissingTitleError) == JsonReply(400, false, "Please add a title for the review")
  {
    assert |MissingTitleError.message| != |"ValidationError"|;
    assert Join(["Please add a title for the review"], ",") == "Please add a title for the review";
  }
}

=== FILE: operators.dfy ===
/**
 * The comparison-operator rewrite of the list middleware
 * (middleware/advancedResults.js line 8): in the JSON text of the filter,
 * every whole word `gte`, `gt`, `lt`, `lte` or `in` gets a `$` in front, so
 * that `price[gte]=100` becomes the store query `{price: {$gte: "100"}}`.
 *
 * The rewrite runs on the serialised filter, where every key and every string
 * value sits between quotes. It is modelled here on one such string at a time.
 * A word is a maximal run of `[A-Za-z0-9_]` (the characters of the regular
 * expression `\b`). A control character is serialised as an escape that ends
 * in a word character (`\n`, `\t`, `\u001f`), so the word that follows it in
 * the original string is not a whole word in the JSON text and is never
 * rewritten.
 */
module Operators {

  predicate IsWordChar(ch: char)
  {
    'a' <= ch <= 'z' || 'A' <= ch <= 'Z' || '0' <= ch <= '9' || ch == '_'
  }

  /** Characters `JSON.stringify` writes as a backslash escape ending in a letter or digit. */
  predicate IsEscaped(ch: char)
  {
    ch < ' '
  }

  /** The five operator words of the rewrite: `gt`, `lt`, `in`, `gte` and `lte`. */
  predicate IsOperator(w: string)
  {
    || (|w| == 2 && (((w[0] == 'g' || w[0] == 'l') && w[1] == 't') || (w[0] == 'i' && w[1] == 'n')))
    || (|w| == 3 && (w[0] == 'g' || w[0] == 'l') && w[1] == 't' && w[2] == 'e')
  }

  /** The length of the word at the start of `s` (0 when `s` starts with a non-word character). */
  function WordLen(s: string): (n: nat)
    ensures n <= |s|
    ensures |s| > 0 && IsWordChar(s[0]) ==> n >= 1
    decreases |s|
  {
    if |s| == 0 || !IsWordChar(s[0]) then 0 else 1 + WordLen(s[1..])
  }

  /**
   * The length of the first token of `s`, the unit the rewrite works on: a
   * whole word, a control character together with the word its escape runs
   * into, or any other single character.
   */
  function TokenLen(s: string): (k: nat)
    requires |s| > 0
    ensures 1 <= k <= |s|
  {
    if IsWordChar(s[0]) then WordLen(s)
    else if IsEscaped(s[0]) then 1 + WordLen(s[1..])
    else 1
  }

  /** `$` in front of every whole operator word of one serialised string. */
  function Mark(s: string): string
    decreases |s|
  {
    if |s| == 0 then ""
    else
      var k := TokenLen(s);
      (if IsOperator(s[..k]) then "$" else "") + s[..k] + Mark(s[k..])
  }

  /** Drops each `$` that stands right before a whole operator word: the inverse of `Mark`. */
  function Unmark(t: string): string
    decreases |t|
  {
    if |t| == 0 then ""
    else if t[0] == '$' && IsOperator(t[1..1 + WordLen(t[1..])]) then
      var n := WordLen(t[1..]);
      t[1..n + 1] + Unmark(t[n + 1..])
    else
      var k := TokenLen(t);
      t[..k] + Unmark(t[k..])
  }

  /**
   * The position-wise reading of the regular expression: `s[i..j]` is an
   * operator word that the rewrite must mark, because nothing word-like
   * touches it on either side.
   */
  predicate MarkedAt(s: string, i: int, j: int)
    requires 0 <= i < j <= |s|
  {
    && IsOperator(s[i..j])
    && (i == 0 || (!IsWordChar(s[i - 1]) && !IsEscaped(s[i - 1])))
    && (j == |s| || !IsWordChar(s[j]))
  }

  predicate HasOperatorWord(s: string)
  {
    exists i, j :: 0 <= i < j <= |s| && MarkedAt(s, i, j)
  }

  // ---------------------------------------------------------------------
  // Words and tokens

  /** The word at the start of `s` is maximal: word characters up to it, a non-word character after. */
  lemma {:induction false} WordLenMaximal(s: string)
    ensures forall i :: 0 <= i < WordLen(s) ==> IsWordChar(s[i])
    ensures WordLen(s) < |s| ==> !IsWordChar(s[WordLen(s)])
    decreases |s|
  {
    if |s| > 0 && IsWordChar(s[0]) {
      WordLenMaximal(s[1..]);
    }
  }

  /** Every character of a token after the first is a word character, and a word or escape token is maximal. */
  lemma TokenShape(s: string)
    requires |s| > 0
    ensures forall i :: 1 <= i < TokenLen(s) ==> IsWordChar(s[i])
    ensures IsWordChar(s[0]) || IsEscaped(s[0]) || TokenLen(s) == 1
    ensures (IsWordChar(s[0]) || IsEscaped(s[0])) && TokenLen(s) < |s| ==> !IsWordChar(s[TokenLen(s)])
  {
    if IsWordChar(s[0]) {
      WordLenMaximal(s);
    } else if IsEscaped(s[0]) {
      WordLenMaximal(s[1..]);
      assert forall i :: 1 <= i < TokenLen(s) ==> s[i] == s[1..][i - 1];
    }
  }

  lemma {:induction false} WordLenAppend(w: string, y: string)
    requires forall i :: 0 <= i < |w| ==> IsWordChar(w[i])
    requires |y| > 0 ==> !IsWordChar(y[0])
    ensures WordLen(w + y) == |w|
    decreases |w|
  {
    if |w| > 0 {
      var wy := w + y;
      assert wy[0] == w[0];
      assert wy[1..] == w[1..] + y;
      WordLenAppend(w[1..], y);
      assert WordLen(wy) == 1 + WordLen(wy[1..]);
    } else {
      assert w + y == y;
    }
  }

  lemma OperatorIsWord(w: string)
    requires IsOperator(w)
    ensures |w| > 0 && forall i :: 0 <= i < |w| ==> IsWordChar(w[i])
  {
  }

  /** A string that starts with a non-word character keeps it in front after marking. */
  lemma MarkHead(x: string)
    requires |x| > 0 && !IsWordChar(x[0])
    ensures |Mark(x)| > 0 && Mark(x)[0] == x[0]
  {
    var k := TokenLen(x);
    assert !IsOperator(x[..k]) by {
      assert x[..k][0] == x[0];
    }
  }

  /** What follows a word or escape token after marking the rest is never a word character. */
  lemma MarkRestHead(s: string)
    requires |s| > 0 && (IsWordChar(s[0]) || IsEscaped(s[0]))
    ensures |Mark(s[TokenLen(s)..])| > 0 ==> !IsWordChar(Mark(s[TokenLen(s)..])[0])
  {
    var k := TokenLen(s);
    TokenShape(s);
    if k < |s| {
      assert s[k..][0] == s[k];
      MarkHead(s[k..]);
    }
  }

  /** What marking puts in front is never an unmarked operator word. */
  lemma MarkNoLeadingOperator(x: string)
    ensures !IsOperator(Mark(x)[..WordLen(Mark(x))])
  {
    if |x| > 0 && IsWordChar(x[0]) {
      var k := TokenLen(x);
      var w, y := x[..k], Mark(x[k..]);
      if !IsOperator(w) {
        assert Mark(x) == w + y by {
          assert Mark(x) == "" + w + y;
          assert "" + w == w;
        }
        assert WordLen(w + y) == |w| by {
          TokenShape(x);
          MarkRestHead(x);
          WordLenAppend(w, y);
        }
        assert (w + y)[..|w|] == w;
      } else {
        assert Mark(x)[0] == '$' by {
          assert Mark(x) == "$" + w + y;
        }
      }
    }
  }

  // ---------------------------------------------------------------------
  // Round trip

  /** Unmarking a marked operator word followed by a non-word character. */
  lemma UnmarkOperator(w: string, y: string)
    requires WordLen(w + y) == |w| && IsOperator(w)
    ensures Unmark("$" + w + y) == w + Unmark(y)
  {
    var t := "$" + w + y;
    assert t[1..] == w + y;
    assert t[1..|w| + 1] == w;
    assert t[|w| + 1..] == y;
  }

  /** Unmarking a token that is left as it is. */
  lemma UnmarkPlainToken(w: string, y: string)
    requires |w| > 0 && w[0] != '$' && TokenLen(w + y) == |w|
    ensures Unmark(w + y) == w + Unmark(y)
  {
    var t := w + y;
    assert t[0] == w[0];
    assert t[..|w|] == w;
    assert t[|w|..] == y;
  }

  /** Unmarking a `$` that was in the original string. */
  lemma UnmarkOtherChar(c: char, y: string)
    requires !IsWordChar(c) && !IsEscaped(c)
    requires !IsOperator(y[..WordLen(y)])
    ensures Unmark([c] + y) == [c] + Unmark(y)
  {
    var t := [c] + y;
    assert t[0] == c;
    assert t[1..] == y;
    assert !IsOperator(t[1..1 + WordLen(t[1..])]);
    assert TokenLen(t) == 1;
    assert t[..1] == [c];
  }

  /** Marking the first token and the rest separately. */
  lemma MarkStep(s: string)
    requires |s| > 0
    ensures IsOperator(s[..TokenLen(s)]) ==> Mark(s) == "$" + s[..TokenLen(s)] + Mark(s[TokenLen(s)..])
    ensures !IsOperator(s[..TokenLen(s)]) ==> Mark(s) == s[..TokenLen(s)] + Mark(s[TokenLen(s)..])
  {
    var k := TokenLen(s);
    if !IsOperator(s[..k]) {
      assert "" + s[..k] == s[..k];
    }
  }

  /** One step of `UnmarkMark`: the first token comes back as it was. */
  lemma UnmarkMarkStep(s: string)
    requires |s| > 0
    ensures Unmark(Mark(s)) == s[..TokenLen(s)] + Unmark(Mark(s[TokenLen(s)..]))
  {
    if IsWordChar(s[0]) || IsEscaped(s[0]) {
      UnmarkMarkWordFirst(s);
    } else {
      UnmarkMarkOtherFirst(s);
    }
  }

  lemma UnmarkMarkWordFirst(s: string)
    requires |s| > 0 && (IsWordChar(s[0]) || IsEscaped(s[0]))
    ensures Unmark(Mark(s)) == s[..TokenLen(s)] + Unmark(Mark(s[TokenLen(s)..]))
  {
    var k := TokenLen(s);
    MarkStep(s);
    TokenShape(s);
    MarkRestHead(s);
    UnmarkMarkWordStep(s[..k], Mark(s[k..]));
  }

  lemma UnmarkMarkOtherFirst(s: string)
    requires |s| > 0 && !IsWordChar(s[0]) && !IsEscaped(s[0])
    ensures Unmark(Mark(s)) == s[..TokenLen(s)] + Unmark(Mark(s[TokenLen(s)..]))
  {
    var k := TokenLen(s);
    assert k == 1 && s[..k] == [s[0]];
    MarkStep(s);
    MarkNoLeadingOperator(s[k..]);
    UnmarkOtherChar(s[0], Mark(s[k..]));
  }

  /** `UnmarkMarkStep` for a first token that is a word or an escape with its word. */
  lemma UnmarkMarkWordStep(w: string, y: string)
    requires |w| > 0 && (IsWordChar(w[0]) || IsEscaped(w[0]))
    requires forall i :: 1 <= i < |w| ==> IsWordChar(w[i])
    requires |y| > 0 ==> !IsWordChar(y[0])
    ensures Unmark((if IsOperator(w) then "$" else "") + w + y) == w + Unmark(y)
  {
    if IsOperator(w) {
      OperatorIsWord(w);
      WordLenAppend(w, y);
      UnmarkOperator(w, y);
    } else {
      assert "" + w == w;
      assert (w + y)[0] == w[0];
      if IsWordChar(w[0]) {
        WordLenAppend(w, y);
      } else {
        assert (w + y)[1..] == w[1..] + y;
        WordLenAppend(w[1..], y);
      }
      UnmarkPlainToken(w, y);
    }
  }

  /** Marking loses nothing: removing the inserted `$` signs restores the string. */
  lemma {:induction false} UnmarkMark(s: string)
    ensures Unmark(Mark(s)) == s
    decreases |s|
  {
    if |s| > 0 {
      var k := TokenLen(s);
      assert s == s[..k] + s[k..];
      UnmarkMark(s[k..]);
      UnmarkMarkStep(s);
    }
  }

  /** Two different strings never mark to the same string, so rewriting keys cannot merge them. */
  lemma MarkInjective(a: string, b: string)
    requires Mark(a) == Mark(b)
    ensures a == b
  {
    UnmarkMark(a);
    UnmarkMark(b);
  }

  // ---------------------------------------------------------------------
  // Whole words only

  /** An operator word found after the first token is one of the whole string. */
  lemma LiftMarked(s: string, i: nat, j: nat)
    requires |s| > 0 && i < j <= |s| - TokenLen(s)
    requires MarkedAt(s[TokenLen(s)..], i, j)
    ensures MarkedAt(s, i + TokenLen(s), j + TokenLen(s))
  {
    var k := TokenLen(s);
    TokenShape(s);
    SliceOfSuffix(s, k, i, j);
    OperatorIsWord(s[i + k..j + k]);
    if i > 0 {
      assert s[k..][i - 1] == s[i + k - 1];
    } else {
      assert s[k..][0] == s[k];
    }
    if j < |s| - k {
      assert s[k..][j] == s[j + k];
    }
  }

  lemma SliceOfSuffix(s: string, k: nat, i: nat, j: nat)
    requires k <= |s| && i <= j <= |s| - k
    ensures s[k..][i..j] == s[i + k..j + k]
  {
    assert forall m :: 0 <= m < j - i ==> s[k..][i..j][m] == s[i + k + m];
  }

  /** An operator word of `s` is either the first token or one of the rest. */
  lemma LowerMarked(s: string, i: nat, j: nat)
    requires i < j <= |s|
    requires MarkedAt(s, i, j)
    ensures (i == 0 && j == TokenLen(s) && IsOperator(s[..TokenLen(s)]))
         || (TokenLen(s) <= i && MarkedAt(s[TokenLen(s)..], i - TokenLen(s), j - TokenLen(s)))
  {
    var k := TokenLen(s);
    TokenShape(s);
    OperatorIsWord(s[i..j]);
    assert forall m :: i <= m < j ==> IsWordChar(s[m]) by {
      assert forall m :: i <= m < j ==> s[m] == s[i..j][m - i];
    }
    if i < k {
      if i == 0 {
        WordLenMaximal(s);
        assert s[..k] == s[i..j];
      } else {
        assert false;
      }
    } else {
      ShiftMarked(s, k, i, j);
    }
  }

  lemma ShiftMarked(s: string, k: nat, i: nat, j: nat)
    requires k <= i < j <= |s| && MarkedAt(s, i, j)
    ensures MarkedAt(s[k..], i - k, j - k)
  {
    var r := s[k..];
    assert r[i - k..j - k] == s[i..j] by {
      assert forall m | i - k <= m < j - k :: r[m] == s[m + k];
    }
    if i > k {
      assert r[i - k - 1] == s[i - 1];
    }
    if j < |s| {
      assert r[j - k] == s[j];
    }
  }

  /** Marking never removes anything. */
  lemma {:induction false} MarkGrows(s: string)
    ensures |Mark(s)| >= |s|
    decreases |s|
  {
    if |s| > 0 {
      MarkGrows(s[TokenLen(s)..]);
    }
  }

  /** An operator word as the first token is a whole word of the string. */
  lemma FirstTokenMarked(s: string)
    requires |s| > 0 && IsOperator(s[..TokenLen(s)])
    ensures MarkedAt(s, 0, TokenLen(s))
  {
    var k := TokenLen(s);
    TokenShape(s);
    OperatorIsWord(s[..k]);
    assert s[..k][0] == s[0];
    WordLenMaximal(s);
    assert s[0..k] == s[..k];
  }

  /** Whenever marking changes a string, the string has a whole operator word. */
  lemma {:induction false} MarkChangedHasOperator(s: string)
    requires Mark(s) != s
    ensures HasOperatorWord(s)
    decreases |s|
  {
    var k := TokenLen(s);
    var rest := s[k..];
    MarkStep(s);
    if IsOperator(s[..k]) {
      FirstTokenMarked(s);
    } else {
      assert s == s[..k] + rest;
      MarkChangedHasOperator(rest);
      var i, j :| 0 <= i < j <= |rest| && MarkedAt(rest, i, j);
      LiftMarked(s, i, j);
    }
  }

  lemma {:induction false} MarkGrowsOnOperator(s: string)
    requires HasOperatorWord(s)
    ensures |Mark(s)| > |s|
    decreases |s|
  {
    var i, j :| 0 <= i < j <= |s| && MarkedAt(s, i, j);
    var k := TokenLen(s);
    LowerMarked(s, i, j);
    if i == 0 && j == k && IsOperator(s[..k]) {
      MarkGrows(s[k..]);
    } else {
      MarkGrowsOnOperator(s[k..]);
    }
  }

  /**
   * A string comes out of the rewrite unchanged exactly when it has no whole
   * operator word: `gtx`, `inside` or `a_gt` stay as they are.
   */
  lemma MarkChangesExactlyOperatorWords(s: string)
    ensures Mark(s) == s <==> !HasOperatorWord(s)
  {
    if HasOperatorWord(s) {
      MarkGrowsOnOperator(s);
    }
    if Mark(s) != s {
      MarkChangedHasOperator(s);
    }
  }

  // ---------------------------------------------------------------------
  // Every whole word, and only those

  /** A whole operator word of `s` starts at position `i`. */
  predicate OperatorAt(s: string, i: nat)
    requires i < |s|
  {
    exists j :: i < j <= |s| && MarkedAt(s, i, j)
  }

  /**
   * The rewrite read position by position, independently of tokens: each
   * character of `s[i..]` is copied, with a `$` in front exactly where a
   * whole operator word starts.
   */
  function MarkFrom(s: string, i: nat): string
    requires i <= |s|
    decreases |s| - i
  {
    if i == |s| then ""
    else (if OperatorAt(s, i) then "$" else "") + [s[i]] + MarkFrom(s, i + 1)
  }

  /**
   * The rewrite puts a `$` before every whole operator word of the string and
   * nowhere else: it is the position-wise reading from the first character.
   */
  lemma {:induction false} MarkIsPositionwise(s: string)
    ensures Mark(s) == MarkFrom(s, 0)
    decreases |s|
  {
    if |s| > 0 {
      var k := TokenLen(s);
      MarkStep(s);
      MarkIsPositionwise(s[k..]);
      ShiftFrom(s, k);
      FirstTokenFrom(s);
    }
  }

  /** Past the first token, a whole word of `s` is a whole word of the rest, and back. */
  lemma OperatorAtShift(s: string, p: nat)
    requires |s| > 0 && TokenLen(s) <= p < |s|
    ensures OperatorAt(s, p) <==> OperatorAt(s[TokenLen(s)..], p - TokenLen(s))
  {
    var k := TokenLen(s);
    if OperatorAt(s, p) {
      var j :| p < j <= |s| && MarkedAt(s, p, j);
      ShiftMarked(s, k, p, j);
    }
    if OperatorAt(s[k..], p - k) {
      var j :| p - k < j <= |s| - k && MarkedAt(s[k..], p - k, j);
      LiftMarked(s, p - k, j);
    }
  }

  /** The position-wise reading of `s` from the end of its first token is that of the rest. */
  lemma ShiftFrom(s: string, k: nat)
    requires |s| > 0 && k == TokenLen(s)
    ensures MarkFrom(s, k) == MarkFrom(s[k..], 0)
  {
    ShiftFromAt(s, k, k);
  }

  lemma ShiftFromAt(s: string, k: nat, p: nat)
    requires |s| > 0 && k == TokenLen(s) && k <= p <= |s|
    ensures MarkFrom(s, p) == MarkFrom(s[k..], p - k)
    decreases |s| - p
  {
    if p < |s| {
      OperatorAtShift(s, p);
      ShiftFromAt(s, k, p + 1);
      assert s[k..][p - k] == s[p];
    }
  }

  /** Within the first token only its first position can start a whole word, and does iff it is an operator. */
  lemma FirstTokenStarts(s: string, p: nat)
    requires |s| > 0 && p < TokenLen(s)
    ensures OperatorAt(s, p) <==> p == 0 && IsOperator(s[..TokenLen(s)])
  {
    var k := TokenLen(s);
    if OperatorAt(s, p) {
      var j :| p < j <= |s| && MarkedAt(s, p, j);
      LowerMarked(s, p, j);
    }
    if p == 0 && IsOperator(s[..k]) {
      FirstTokenMarked(s);
    }
  }

  lemma FirstTokenFrom(s: string)
    requires |s| > 0
    ensures MarkFrom(s, 0) == (if IsOperator(s[..TokenLen(s)]) then "$" else "") + s[..TokenLen(s)] + MarkFrom(s, TokenLen(s))
  {
    var k := TokenLen(s);
    var pre := if IsOperator(s[..k]) then "$" else "";
    var head, inner, m := [s[0]], s[1..k], MarkFrom(s, k);
    assert MarkFrom(s, 0) == pre + head + MarkFrom(s, 1) by {
      FirstTokenStarts(s, 0);
    }
    assert MarkFrom(s, 1) == inner + m by {
      InsideFirstToken(s, 1);
    }
    assert head + inner == s[..k] by {
      ConsSlice(s, 0, k);
    }
    Regroup(pre, head, inner, m);
  }

  lemma Regroup(pre: string, head: string, inner: string, m: string)
    ensures pre + head + (inner + m) == pre + (head + inner) + m
  {
  }

  lemma InsideFirstToken(s: string, p: nat)
    requires |s| > 0 && 1 <= p <= TokenLen(s)
    ensures MarkFrom(s, p) == s[p..TokenLen(s)] + MarkFrom(s, TokenLen(s))
    decreases TokenLen(s) - p
  {
    var k := TokenLen(s);
    if p < k {
      FirstTokenStarts(s, p);
      InsideFirstToken(s, p + 1);
      ConsSlice(s, p, k);
    }
  }

  lemma ConsSlice(s: string, i: nat, k: nat)
    requires i < k <= |s|
    ensures [s[i]] + s[i + 1..k] == s[i..k]
  {
  }
}

=== FILE: review_schema.dfy ===
/**
 * The review model (models/Reviews.js): the schema's validators, the unique
 * index on (bootcamp, user), the average-rating recompute and the hooks that
 * run it after a save and before a removal.
 */
module ReviewSchema {
  import opened Wrappers
  import opened Text
  import opened Collection
  import opened Api
  import ErrorHandler

  const TitleMaxLength := 100
  const MinRating: real := 1.0
  const MaxRating: real := 10.0

  /** A number as the request carried it: its value, and how JavaScript prints it in a message. */
  datatype Number = Number(value: real, text: string)

  /** The fields of a new review before validation; each may be missing. */
  datatype ReviewInput = ReviewInput(
    title: Option<string>,
    text: Option<string>,
    rating: Option<Number>,
    bootcamp: Option<string>,
    user: Option<string>)

  /**
   * The paths an update body may carry; a missing path is left as it is.
   * `bootcamp` moves the review, `user` gives it another author.
   */
  datatype ReviewPatch = ReviewPatch(
    title: Option<string>,
    text: Option<string>,
    rating: Option<Number>,
    bootcamp: Option<string>,
    user: Option<string>)

  datatype FieldError = FieldError(path: string, message: string)

  // ---------------------------------------------------------------------
  // Validation

  /** A string path marked `required`: missing and empty both fail. */
  function RequiredString(path: string, v: Option<string>, message: string): Option<FieldError>
  {
    if v.None? || v.value == "" then Some(FieldError(path, message)) else None
  }

  /** `maxlength`: the JavaScript length of the string, in UTF-16 code units. */
  function TooLong(path: string, t: string, max: nat): Option<FieldError>
  {
    if JsLength(t) > max then
      Some(FieldError(path, "Path `" + path + "` (`" + t + "`) is longer than the maximum allowed length (" + NatToString(max) + ")."))
    else None
  }

  function OutOfRange(path: string, n: Number): Option<FieldError>
  {
    if n.value < MinRating then
      Some(FieldError(path, "Path `" + path + "` (" + n.text + ") is less than minimum allowed value (1)."))
    else if n.value > MaxRating then
      Some(FieldError(path, "Path `" + path + "` (" + n.text + ") is more than maximum allowed value (10)."))
    else None
  }

  /** `title`: required with its own message, then at most 100 UTF-16 code units. */
  function CheckTitle(t: Option<string>): Option<FieldError>
  {
    match RequiredString("title", t, "Please add a title for the review")
    case Some(e) => Some(e)
    case None => TooLong("title", t.value, TitleMaxLength)
  }

  function CheckText(t: Option<string>): Option<FieldError>
  {
    RequiredString("text", t, "Please add some text")
  }

  /** `rating`: required with its own message, then between 1 and 10; fractions pass. */
  function CheckRating(r: Option<Number>): Option<FieldError>
  {
    match r
    case None => Some(FieldError("rating", "Please add a rating"))
    case Some(n) => OutOfRange("rating", n)
  }

  /** An object-id path marked `required` without a message of its own. */
  function CheckReference(path: string, v: Option<string>): Option<FieldError>
  {
    if v.None? then Some(FieldError(path, "Path `" + path + "` is required.")) else None
  }

  function Collect(checks: seq<Option<FieldError>>): (errs: seq<FieldError>)
    ensures |errs| <= |checks|
    ensures errs == [] <==> forall i :: 0 <= i < |checks| ==> checks[i].None?
    ensures forall i :: 0 <= i < |checks| && checks[i].Some? ==> checks[i].value in errs
  {
    if |checks| == 0 then []
    else
      var rest := Collect(checks[1..]);
      assert forall i :: 1 <= i < |checks| ==> checks[i] == checks[1..][i - 1];
      match checks[0]
      case Some(e) => [e] + rest
      case None => rest
  }

  /** Every failing path, in schema order: title, text, rating, bootcamp, user. */
  function FieldErrors(input: ReviewInput): seq<FieldError>
  {
    Collect([CheckTitle(input.title), CheckText(input.text), CheckRating(input.rating),
             CheckReference("bootcamp", input.bootcamp), CheckReference("user", input.user)])
  }

  /** No path fails exactly when the input meets the schema's rules. */
  lemma FieldErrorsEmpty(input: ReviewInput)
    ensures FieldErrors(input) == [] <==> Acceptable(input)
  {
    var checks := [CheckTitle(input.title), CheckText(input.text), CheckRating(input.rating),
                   CheckReference("bootcamp", input.bootcamp), CheckReference("user", input.user)];
    assert checks[0].None? <==> input.title.Some? && input.title.value != "" && JsLength(input.title.value) <= TitleMaxLength;
    assert checks[1].None? <==> input.text.Some? && input.text.value != "";
    assert checks[2].None? <==> input.rating.Some? && MinRating <= input.rating.value.value <= MaxRating;
    assert checks[3].None? <==> input.bootcamp.Some?;
    assert checks[4].None? <==> input.user.Some?;
  }

  /**
   * A title of 60 characters beyond U+FFFF is 120 UTF-16 code units long, so
   * `maxlength: 100` refuses it although it has fewer than 100 characters.
   */
  lemma AstralTitleCountsTwice(t: string)
    requires |t| == 60 && forall i :: 0 <= i < |t| ==> IsAstral(t[i])
    ensures |t| <= TitleMaxLength
    ensures CheckTitle(Some(t)).Some? && CheckTitle(Some(t)).value.path == "title"
  {
  }

  /** The schema's rules, stated directly. */
  predicate Acceptable(input: ReviewInput)
  {
    input.title.Some? && input.title.value != "" && JsLength(input.title.value) <= TitleMaxLength
    && input.text.Some? && input.text.value != ""
    && input.rating.Some? && MinRating <= input.rating.value.value <= MaxRating
    && input.bootcamp.Some? && input.user.Some?
  }

  function Messages(errs: seq<FieldError>): (ms: seq<string>)
    ensures |ms| == |errs|
    ensures forall i :: 0 <= i < |errs| ==> ms[i] == errs[i].message
  {
    if |errs| == 0 then [] else [errs[0].message] + Messages(errs[1..])
  }

  function Summaries(errs: seq<FieldError>): (ss: seq<string>)
    ensures |ss| == |errs|
  {
    if |errs| == 0 then [] else [errs[0].path + ": " + errs[0].message] + Summaries(errs[1..])
  }

  /** The store's `ValidationError` for a set of failing paths. */
  function ValidationError(errs: seq<FieldError>): (e: ErrorHandler.JsError)
    ensures e.name == "ValidationError" && e.code == None && e.statusCode == None
    ensures e.errors == Some(Messages(errs))
  {
    ErrorHandler.JsError("ValidationError", None,
      "Reviews validation failed: " + Join(Summaries(errs), ", "), None, "", Some(Messages(errs)))
  }

  /** Validation of a new review: the review, or the error listing every failing path. */
  function Validate(input: ReviewInput): (r: Result<Review, ErrorHandler.JsError>)
    ensures r.Success? <==> Acceptable(input)
    ensures r.Success? ==> r.value == Review(input.title.value, input.text.value, input.rating.value.value,
                                             input.bootcamp.value, input.user.value)
    ensures r.Failure? ==> r.error.name == "ValidationError" && r.error.errors.Some? && r.error.errors.value != []
  {
    var errs := FieldErrors(input);
    FieldErrorsEmpty(input);
    if errs == [] then
      Success(Review(input.title.value, input.text.value, input.rating.value.value, input.bootcamp.value, input.user.value))
    else
      Failure(ValidationError(errs))
  }

  /**
   * Validation of an update with `runValidators`: only the paths the update
   * sets are checked, each with all of its validators, so a title or text set
   * to the empty string fails `required` as it would on a new review.
   */
  function ValidatePatch(patch: ReviewPatch): (errs: seq<FieldError>)
    ensures errs == [] <==>
      (patch.title.Some? ==> patch.title.value != "" && JsLength(patch.title.value) <= TitleMaxLength)
      && (patch.text.Some? ==> patch.text.value != "")
      && (patch.rating.Some? ==> MinRating <= patch.rating.value.value <= MaxRating)
  {
    var checks := [if patch.title.Some? then CheckTitle(patch.title) else None,
                   if patch.text.Some? then CheckText(patch.text) else None,
                   if patch.rating.Some? then OutOfRange("rating", patch.rating.value) else None];
    assert checks[0].None? <==> (patch.title.Some? ==> patch.title.value != "" && JsLength(patch.title.value) <= TitleMaxLength);
    assert checks[1].None? <==> (patch.text.Some? ==> patch.text.value != "");
    assert checks[2].None? <==> (patch.rating.Some? ==> MinRating <= patch.rating.value.value <= MaxRating);
    Collect(checks)
  }

  /** An update that empties the title or the text reports that path's `required` message. */
  lemma EmptyRequiredPathFails(patch: ReviewPatch)
    ensures patch.title == Some("") ==> FieldError("title", "Please add a title for the review") in ValidatePatch(patch)
    ensures patch.text == Some("") ==> FieldError("text", "Please add some text") in ValidatePatch(patch)
  {
    var checks := [if patch.title.Some? then CheckTitle(patch.title) else None,
                   if patch.text.Some? then CheckText(patch.text) else None,
                   if patch.rating.Some? then OutOfRange("rating", patch.rating.value) else None];
    assert ValidatePatch(patch) == Collect(checks);
    assert patch.title == Some("") ==> checks[0] == Some(FieldError("title", "Please add a title for the review"));
    assert patch.text == Some("") ==> checks[1] == Some(FieldError("text", "Please add some text"));
  }

  /** An update written into a review: each path it sets replaces the old value, object ids cast. */
  function ApplyPatch(r: Review, patch: ReviewPatch): Review
  {
    Review(patch.title.GetOr(r.title), patch.text.GetOr(r.text),
           if patch.rating.Some? then patch.rating.value.value else r.rating,
           if patch.bootcamp.Some? then ObjectId(patch.bootcamp.value) else r.bootcamp,
           if patch.user.Some? then ObjectId(patch.user.value) else r.user)
  }

  // ---------------------------------------------------------------------
  // Unique index

  /** Some review of `user` for `bootcamp` is already stored. */
  predicate Reviewed(reviews: seq<Doc<Review>>, bootcamp: string, user: string)
  {
    exists i :: 0 <= i < |reviews| && reviews[i].val.bootcamp == bootcamp && reviews[i].val.user == user
  }

  /** Some review other than the one with id `id` is by `user` about `bootcamp`. */
  predicate ReviewedByOther(reviews: seq<Doc<Review>>, id: string, bootcamp: string, user: string)
  {
    exists i :: 0 <= i < |reviews| && reviews[i].id != id && reviews[i].val.bootcamp == bootcamp && reviews[i].val.user == user
  }

  /** The store's error for a second review of the same bootcamp by the same user. */
  const DuplicateKeyError := ErrorHandler.JsError("MongoError", Some(ErrorHandler.DuplicateCode),
    "E11000 duplicate key error index: bootcamp_1_user_1", None, "", None)

  /** One review per (bootcamp, user), as the unique index enforces. */
  predicate OneReviewPerUser(reviews: seq<Doc<Review>>)
  {
    forall i, j :: 0 <= i < j < |reviews| ==>
      !(reviews[i].val.bootcamp == reviews[j].val.bootcamp && reviews[i].val.user == reviews[j].val.user)
  }

  // ---------------------------------------------------------------------
  // Average rating

  /** The ratings of the reviews of bootcamp `b`, in store order (`$match`). */
  function RatingsOf(reviews: seq<Doc<Review>>, b: string): (rs: seq<real>)
    ensures |rs| <= |reviews|
    ensures |rs| == 0 <==> forall i :: 0 <= i < |reviews| ==> reviews[i].val.bootcamp != b
  {
    if |reviews| == 0 then []
    else
      var rest := RatingsOf(reviews[1..], b);
      assert forall i :: 1 <= i < |reviews| ==> reviews[i] == reviews[1..][i - 1];
      if reviews[0].val.bootcamp == b then [reviews[0].val.rating] + rest else rest
  }

  function Sum(xs: seq<real>): real
  {
    if |xs| == 0 then 0.0 else xs[0] + Sum(xs[1..])
  }

  /** `$avg`: the arithmetic mean. */
  function Mean(xs: seq<real>): real
    requires |xs| > 0
  {
    Sum(xs) / (|xs| as real)
  }

  /** What the aggregation reports for bootcamp `b`: nothing when it has no review. */
  function AverageOf(reviews: seq<Doc<Review>>, b: string): Option<real>
  {
    var rs := RatingsOf(reviews, b);
    if |rs| == 0 then None else Some(Mean(rs))
  }

  /** `Bootcamp.findByIdAndUpdate(b, {averageRating})`: no effect when there is no such bootcamp. */
  function SetAverage(bootcamps: seq<Doc<Bootcamp>>, b: string, avg: Option<real>): (r: seq<Doc<Bootcamp>>)
    requires UniqueIds(bootcamps)
    ensures UniqueIds(r)
    ensures |r| == |bootcamps|
    ensures forall i :: 0 <= i < |bootcamps| ==> r[i].id == bootcamps[i].id
    ensures forall i :: 0 <= i < |bootcamps| ==>
      r[i] == (if bootcamps[i].id == b then bootcamps[i].(val := bootcamps[i].val.(averageRating := avg)) else bootcamps[i])
  {
    match Find(bootcamps, b)
    case None => bootcamps
    case Some(d) =>
      ReplacePreservesUniqueIds(bootcamps, d.(val := d.val.(averageRating := avg)));
      Replace(bootcamps, d.(val := d.val.(averageRating := avg)))
  }

  /**
   * `getAverageRating(b)` as written: when no review matches, reading
   * `obj[0].averageRating` throws inside the `try`, the error is logged and
   * the stored average is left as it was.
   */
  function AverageRatingAsWritten(s: Store, b: string): (s': Store)
    requires UniqueIds(s.bootcamps)
    ensures s'.reviews == s.reviews && s'.courses == s.courses
    ensures AverageOf(s.reviews, b).Some? ==> s'.bootcamps == SetAverage(s.bootcamps, b, AverageOf(s.reviews, b))
    ensures AverageOf(s.reviews, b).None? ==> s' == s
  {
    match AverageOf(s.reviews, b)
    case None => s
    case Some(avg) => s.(bootcamps := SetAverage(s.bootcamps, b, Some(avg)))
  }

  /** `getAverageRating(b)` clearing the average when no review remains. */
  function AverageRating(s: Store, b: string): (s': Store)
    requires UniqueIds(s.bootcamps)
    ensures s'.reviews == s.reviews && s'.courses == s.courses
    ensures s'.bootcamps == SetAverage(s.bootcamps, b, AverageOf(s.reviews, b))
  {
    s.(bootcamps := SetAverage(s.bootcamps, b, AverageOf(s.reviews, b)))
  }

  /**
   * A review saved in place by an update, with the averages of its old and
   * its new bootcamp recomputed afterwards, as a hook on the update would.
   */
  function ReplaceReview(s: Store, prior: Doc<Review>, d: Doc<Review>): (s': Store)
    requires UniqueIds(s.bootcamps)
    ensures s'.reviews == Replace(s.reviews, d) && s'.courses == s.courses
    ensures UniqueIds(s'.bootcamps) && |s'.bootcamps| == |s.bootcamps|
  {
    var moved := s.(reviews := Replace(s.reviews, d));
    AverageRating(AverageRating(moved, prior.val.bootcamp), d.val.bootcamp)
  }

  /** Every bootcamp's stored average is the mean of its reviews' ratings (none without reviews). */
  predicate AveragesCurrent(s: Store)
  {
    forall i :: 0 <= i < |s.bootcamps| ==> s.bootcamps[i].val.averageRating == AverageOf(s.reviews, s.bootcamps[i].id)
  }

  // ---------------------------------------------------------------------
  // Save and remove

  /**
   * `Reviews.create(input)`: validation, then the unique index, then the
   * insertion and the `post('save')` recompute for the review's bootcamp.
   * `id` is the id the store assigns.
   */
  function Create(s: Store, id: string, input: ReviewInput): (r: Result<(Doc<Review>, Store), ErrorHandler.JsError>)
    requires UniqueIds(s.bootcamps)
    ensures r.Failure? <==> !Acceptable(input) || Reviewed(s.reviews, input.bootcamp.value, input.user.value)
    ensures r.Failure? && !Acceptable(input) ==> r.error.name == "ValidationError"
    ensures r.Failure? && Acceptable(input) ==> r.error == DuplicateKeyError
    ensures r.Success? ==> var (d, s') := r.value;
      d.id == id && d.val == Validate(input).value
      && s' == AverageRating(s.(reviews := s.reviews + [d]), d.val.bootcamp)
  {
    var review :- Validate(input);
    if Reviewed(s.reviews, review.bootcamp, review.user) then Failure(DuplicateKeyError)
    else
      var d := Doc(id, review);
      Success((d, AverageRating(s.(reviews := s.reviews + [d]), review.bootcamp)))
  }

  /** `review.remove()` as written: the `pre('remove')` recompute still counts the review being removed. */
  function RemoveAsWritten(s: Store, d: Doc<Review>): (s': Store)
    requires UniqueIds(s.bootcamps)
    ensures s'.reviews == Remove(s.reviews, d.id)
    ensures s'.bootcamps == AverageRatingAsWritten(s, d.val.bootcamp).bootcamps
  {
    var before := AverageRatingAsWritten(s, d.val.bootcamp);
    before.(reviews := Remove(before.reviews, d.id))
  }

  /** `review.remove()` with the recompute after the removal, as a `post('remove')` hook would run it. */
  function RemoveReview(s: Store, d: Doc<Review>): (s': Store)
    requires UniqueIds(s.bootcamps)
    ensures s'.reviews == Remove(s.reviews, d.id)
    ensures s'.bootcamps == SetAverage(s.bootcamps, d.val.bootcamp, AverageOf(Remove(s.reviews, d.id), d.val.bootcamp))
  {
    AverageRating(s.(reviews := Remove(s.reviews, d.id)), d.val.bootcamp)
  }

  // ---------------------------------------------------------------------
  // Properties

  /** The mean of ratings that each pass the schema's range passes it too. */
  lemma MeanWithinRange(xs: seq<real>)
    requires |xs| > 0
    requires forall i :: 0 <= i < |xs| ==> MinRating <= xs[i] <= MaxRating
    ensures MinRating <= Mean(xs) <= MaxRating
  {
    SumWithinRange(xs);
    QuotientBounds(Sum(xs), |xs| as real);
  }

  lemma QuotientBounds(a: real, n: real)
    requires n > 0.0 && n * MinRating <= a <= n * MaxRating
    ensures MinRating <= a / n <= MaxRating
  {
    var m := a / n;
    assert m * n == a;
    assert (m - MinRating) * n >= 0.0;
    assert (MaxRating - m) * n >= 0.0;
  }

  lemma {:induction false} SumWithinRange(xs: seq<real>)
    requires forall i :: 0 <= i < |xs| ==> MinRating <= xs[i] <= MaxRating
    ensures (|xs| as real) * MinRating <= Sum(xs) <= (|xs| as real) * MaxRating
  {
    if |xs| > 0 {
      assert forall i :: 0 <= i < |xs[1..]| ==> xs[1..][i] == xs[i + 1];
      SumWithinRange(xs[1..]);
    }
  }

  /** The ratings of a bootcamp after one more review is stored. */
  lemma {:induction false} RatingsOfAppend(reviews: seq<Doc<Review>>, d: Doc<Review>, b: string)
    ensures RatingsOf(reviews + [d], b) == RatingsOf(reviews, b) + (if d.val.bootcamp == b then [d.val.rating] else [])
  {
    if |reviews| == 0 {
      assert [] + [d] == [d];
      assert [d][1..] == [];
    } else {
      assert (reviews + [d])[1..] == reviews[1..] + [d];
      RatingsOfAppend(reviews[1..], d, b);
    }
  }

  /** Removing a review of another bootcamp leaves the ratings of `b` alone. */
  lemma {:induction false} RatingsOfRemoveOther(reviews: seq<Doc<Review>>, id: string, b: string)
    requires forall i :: 0 <= i < |reviews| && reviews[i].id == id ==> reviews[i].val.bootcamp != b
    ensures RatingsOf(Remove(reviews, id), b) == RatingsOf(reviews, b)
  {
    if |reviews| > 0 {
      assert forall i :: 0 <= i < |reviews[1..]| ==> reviews[1..][i] == reviews[i + 1];
      RatingsOfRemoveOther(reviews[1..], id, b);
      if reviews[0].id != id {
        assert ([reviews[0]] + Remove(reviews[1..], id))[1..] == Remove(reviews[1..], id);
      }
    }
  }

  /**
   * Recomputing the average of `b` from a new set of reviews keeps every
   * average current, when no other bootcamp's ratings changed.
   */
  lemma SetAverageKeepsCurrent(s: Store, reviews: seq<Doc<Review>>, b: string)
    requires UniqueIds(s.bootcamps) && AveragesCurrent(s)
    requires forall x :: 0 <= x < |s.bootcamps| && s.bootcamps[x].id != b ==>
      AverageOf(reviews, s.bootcamps[x].id) == AverageOf(s.reviews, s.bootcamps[x].id)
    ensures AveragesCurrent(s.(bootcamps := SetAverage(s.bootcamps, b, AverageOf(reviews, b)), reviews := reviews))
  {
  }

  lemma AppendKeepsOtherAverage(reviews: seq<Doc<Review>>, d: Doc<Review>, b: string)
    requires d.val.bootcamp != b
    ensures AverageOf(reviews + [d], b) == AverageOf(reviews, b)
  {
    RatingsOfAppend(reviews, d, b);
    assert RatingsOf(reviews + [d], b) == RatingsOf(reviews, b) + [];
    assert RatingsOf(reviews, b) + [] == RatingsOf(reviews, b);
  }

  /** Saving a review keeps every stored average current. */
  lemma CreateKeepsAveragesCurrent(s: Store, id: string, input: ReviewInput)
    requires UniqueIds(s.bootcamps) && AveragesCurrent(s)
    requires Create(s, id, input).Success?
    ensures AveragesCurrent(Create(s, id, input).value.1)
  {
    var (d, s') := Create(s, id, input).value;
    var b := d.val.bootcamp;
    var reviews := s.reviews + [d];
    assert s' == AverageRating(s.(reviews := reviews), b);
    forall x | 0 <= x < |s.bootcamps| && s.bootcamps[x].id != b
      ensures AverageOf(reviews, s.bootcamps[x].id) == AverageOf(s.reviews, s.bootcamps[x].id)
    {
      AppendKeepsOtherAverage(s.reviews, d, s.bootcamps[x].id);
    }
    RatingsOfAppend(s.reviews, d, b);
    assert AverageOf(reviews, b).Some?;
    SetAverageKeepsCurrent(s, reviews, b);
    assert s' == s.(bootcamps := SetAverage(s.bootcamps, b, AverageOf(reviews, b)), reviews := reviews);
  }

  /** With the recompute after the removal, removing a review keeps every stored average current. */
  lemma RemoveReviewKeepsAveragesCurrent(s: Store, d: Doc<Review>)
    requires ValidStore(s) && AveragesCurrent(s) && d in s.reviews
    ensures AveragesCurrent(RemoveReview(s, d))
  {
    var b := d.val.bootcamp;
    var reviews := Remove(s.reviews, d.id);
    forall x | 0 <= x < |s.bootcamps| && s.bootcamps[x].id != b
      ensures AverageOf(reviews, s.bootcamps[x].id) == AverageOf(s.reviews, s.bootcamps[x].id)
    {
      RatingsOfRemoveOther(s.reviews, d.id, s.bootcamps[x].id);
    }
    SetAverageKeepsCurrent(s, reviews, b);
  }

  /** Replacing a review that is not about `b` by another one that is not about `b` leaves the ratings of `b` alone. */
  lemma {:induction false} RatingsOfReplaceOther(reviews: seq<Doc<Review>>, d: Doc<Review>, b: string)
    requires d.val.bootcamp != b
    requires forall i :: 0 <= i < |reviews| && reviews[i].id == d.id ==> reviews[i].val.bootcamp != b
    ensures RatingsOf(Replace(reviews, d), b) == RatingsOf(reviews, b)
  {
    if |reviews| > 0 {
      assert forall i :: 0 <= i < |reviews[1..]| ==> reviews[1..][i] == reviews[i + 1];
      RatingsOfReplaceOther(reviews[1..], d, b);
      assert Replace(reviews, d)[1..] == Replace(reviews[1..], d);
    }
  }

  /**
   * With both bootcamps an update touches recomputed, the update keeps every
   * stored average current.
   */
  lemma ReplaceReviewKeepsAveragesCurrent(s: Store, prior: Doc<Review>, d: Doc<Review>)
    requires ValidStore(s) && AveragesCurrent(s) && prior in s.reviews && prior.id == d.id
    ensures AveragesCurrent(ReplaceReview(s, prior, d))
  {
    var b1, b2 := prior.val.bootcamp, d.val.bootcamp;
    var moved := s.(reviews := Replace(s.reviews, d));
    var s2 := AverageRating(moved, b1);
    var s3 := AverageRating(s2, b2);
    forall i | 0 <= i < |s3.bootcamps|
      ensures s3.bootcamps[i].val.averageRating == AverageOf(s3.reviews, s3.bootcamps[i].id)
    {
      var x := s.bootcamps[i].id;
      assert s3.bootcamps[i].id == x && s2.bootcamps[i].id == x;
      if x != b1 && x != b2 {
        forall j | 0 <= j < |s.reviews| && s.reviews[j].id == d.id
          ensures s.reviews[j].val.bootcamp != x
        {
          assert s.reviews[j] == prior by {
            var k :| 0 <= k < |s.reviews| && s.reviews[k] == prior;
          }
        }
        RatingsOfReplaceOther(s.reviews, d, x);
      }
    }
  }

  /**
   * After a save the recompute as written and the corrected one agree: the
   * saved review matches, so the aggregate is never empty.
   */
  lemma SaveRecomputeAgrees(s: Store, d: Doc<Review>)
    requires UniqueIds(s.bootcamps)
    ensures AverageRatingAsWritten(s.(reviews := s.reviews + [d]), d.val.bootcamp)
         == AverageRating(s.(reviews := s.reviews + [d]), d.val.bootcamp)
  {
    RatingsOfAppend(s.reviews, d, d.val.bootcamp);
  }

  /** A bootcamp with reviews rated 8 and 10, one of them about to be removed. */
  const Camp := Doc("camp", Bootcamp("owner", map[], Some(9.0), None))
  const Good := Doc("good", Review("Good", "Fine", 8.0, "camp", "u1"))
  const Great := Doc("great", Review("Great", "Fine", 10.0, "camp", "u2"))
  const TwoReviews := Store([Camp], [], [Good, Great])

  lemma TwoReviewsAverage()
    ensures AverageOf(TwoReviews.reviews, "camp") == Some(9.0)
  {
    assert TwoReviews.reviews[1..] == [Great];
    assert RatingsOf(TwoReviews.reviews, "camp") == [8.0, 10.0];
    assert [8.0, 10.0][1..] == [10.0];
    assert Sum([8.0, 10.0]) == 18.0;
  }

  lemma RemoveGreatAverage()
    ensures Remove(TwoReviews.reviews, "great") == [Good]
    ensures AverageOf([Good], "camp") == Some(8.0)
  {
    assert TwoReviews.reviews[1..] == [Great];
    assert [Great][1..] == [];
    assert RatingsOf([Good], "camp") == [8.0];
    assert [8.0][1..] == [];
    assert Sum([8.0]) == 8.0;
  }

  /**
   * Removing the review rated 10: as written, the recompute still sees it and
   * the average stays 9; recomputed after the removal it is 8.
   */
  lemma RemoveAsWrittenCountsRemovedReview()
    ensures AveragesCurrent(TwoReviews)
    ensures RemoveAsWritten(TwoReviews, Great).bootcamps[0].val.averageRating == Some(9.0)
    ensures RemoveReview(TwoReviews, Great).bootcamps[0].val.averageRating == Some(8.0)
    ensures !AveragesCurrent(RemoveAsWritten(TwoReviews, Great))
  {
    TwoReviewsAverage();
    RemoveGreatAverage();
    var s' := RemoveAsWritten(TwoReviews, Great);
    assert s'.reviews == [Good];
    assert s'.bootcamps[0].id == "camp";
  }

  /** The review rated 10, re-rated 4 by an update. */
  const Regraded := Great.(val := Great.val.(rating := 4.0))

  /**
   * Re-rating the review rated 10 as 4: saved in place with no recompute,
   * the stored average stays 9 while the mean is now 6; with the touched
   * averages recomputed it is 6.
   */
  lemma RatingChangeLeavesAverageStale()
    ensures AveragesCurrent(TwoReviews)
    ensures AverageOf(Replace(TwoReviews.reviews, Regraded), "camp") == Some(6.0)
    ensures !AveragesCurrent(TwoReviews.(reviews := Replace(TwoReviews.reviews, Regraded)))
    ensures ReplaceReview(TwoReviews, Great, Regraded).bootcamps[0].val.averageRating == Some(6.0)
  {
    TwoReviewsAverage();
    var rs := Replace(TwoReviews.reviews, Regraded);
    assert rs == [Good, Regraded];
    assert rs[1..] == [Regraded] && [Regraded][1..] == [];
    assert RatingsOf(rs, "camp") == [8.0, 4.0];
    assert [8.0, 4.0][1..] == [4.0] && [4.0][1..] == [];
    assert Sum([8.0, 4.0]) == 12.0;
    var s' := TwoReviews.(reviews := rs);
    assert s'.bootcamps[0].id == "camp";
  }

  /**
   * With no review left, the recompute as written leaves the old average in
   * place; the corrected recompute clears it.
   */
  lemma AverageAsWrittenStaleWhenEmpty()
    ensures var s := Store([Camp], [], []);
            AverageRatingAsWritten(s, "camp").bootcamps[0].val.averageRating == Some(9.0)
            && AverageRating(s, "camp").bootcamps[0].val.averageRating == None
  {
  }

  /** Saving a review never stores a second review of one bootcamp by one user. */
  lemma CreateKeepsOneReviewPerUser(s: Store, id: string, input: ReviewInput)
    requires UniqueIds(s.bootcamps) && OneReviewPerUser(s.reviews)
    requires Create(s, id, input).Success?
    ensures OneReviewPerUser(Create(s, id, input).value.1.reviews)
  {
    var (d, s') := Create(s, id, input).value;
    assert s'.reviews == s.reviews + [d];
    forall i | 0 <= i < |s.reviews|
      ensures !(s.reviews[i].val.bootcamp == d.val.bootcamp && s.reviews[i].val.user == d.val.user)
    {
    }
  }
}

=== FILE: reviews.dfy ===
/**
 * The review handlers (controllers/reviews.js): list (all, or those of one
 * bootcamp), read one, add to a bootcamp, update, delete. Adding and
 * deleting go through the review model, whose hooks keep the bootcamp's
 * average rating.
 */
module Reviews {
  import opened Wrappers
  import opened Collection
  import opened Api
  import opened ErrorHandler
  import opened ReviewSchema
  import AdvancedResults

  function NotFound(id: string): JsError
  {
    ErrorResponse("Review with param id " + id + " not found", 404)
  }

  function Unauthorized(c: Caller, action: string): JsError
  {
    ErrorResponse("User user id " + c.id + " not authorized to " + action, 401)
  }

  function ReviewBootcamp(r: Review): string
  {
    r.bootcamp
  }

  /** `Reviews.find({bootcamp})`: the reviews of that bootcamp, in store order. */
  function ReviewsOf(reviews: seq<Doc<Review>>, bootcamp: string): seq<Doc<Review>>
  {
    Where(reviews, ReviewBootcamp, bootcamp)
  }

  /** `getReviews` under a bootcamp: exactly that bootcamp's reviews and their number. */
  function GetReviewsOf(s: Store, bootcampId: string): (o: Outcome<Doc<Review>>)
    ensures o.store == s
    ensures !ValidObjectId(bootcampId) ==> o.result == Failure(CastError(bootcampId))
    ensures ValidObjectId(bootcampId) ==>
      var r := ReviewsOf(s.reviews, ObjectId(bootcampId));
      o.result == Success(Reply(200, Many(|r|, r)))
  {
    if !ValidObjectId(bootcampId) then Fail(s, CastError(bootcampId))
    else
      var r := ReviewsOf(s.reviews, ObjectId(bootcampId));
      Outcome(Success(Reply(200, Many(|r|, r))), s)
  }

  /**
   * `getReviews` without a bootcamp: the list middleware's envelope, whose
   * `next` link is decided against the size of the whole review collection.
   */
  function ListReviews(s: Store, q: AdvancedResults.QueryMap, matched: seq<Doc<Review>>): (r: Result<AdvancedResults.Envelope<Doc<Review>>, AdvancedResults.Rejection>)
    ensures r.Success? ==> r.value.pagination == AdvancedResults.PaginationOf(AdvancedResults.PageOf(q), AdvancedResults.LimitOf(q), |s.reviews|)
    ensures r.Success? ==> r.value.count == |r.value.data| <= AdvancedResults.Abs(AdvancedResults.LimitOf(q))
    ensures r.Success? <==> AdvancedResults.Translate(q).Success? && AdvancedResults.StartIndex(AdvancedResults.PageOf(q), AdvancedResults.LimitOf(q)) >= 0
    ensures r.Success? ==>
      r.value.data == AdvancedResults.Fetch(matched, AdvancedResults.StartIndex(AdvancedResults.PageOf(q), AdvancedResults.LimitOf(q)), AdvancedResults.LimitOf(q)).value
  {
    AdvancedResults.ListAsWritten(q, matched, |s.reviews|)
  }

  /** `getReview`: the review with that id, or a 404 naming the id. */
  function GetReview(s: Store, id: string): (o: Outcome<Doc<Review>>)
    ensures o.store == s
    ensures !ValidObjectId(id) ==> o.result == Failure(CastError(id))
    ensures ValidObjectId(id) && !HasId(s.reviews, ObjectId(id)) ==> o.result == Failure(NotFound(id))
    ensures ValidObjectId(id) && HasId(s.reviews, ObjectId(id)) ==>
      o.result.Success? && o.result.value.status == 200 && o.result.value.body.One?
      && o.result.value.body.doc.id == ObjectId(id) && o.result.value.body.doc in s.reviews
  {
    match FindById(s.reviews, id)
    case Failure(e) => Fail(s, e)
    case Success(None) => Fail(s, NotFound(id))
    case Success(Some(d)) => Outcome(Success(Reply(200, One(d))), s)
  }

  /**
   * `addReview`: the review belongs to the bootcamp of the path and to the
   * caller. Any caller may review an existing bootcamp; the model's
   * validation and unique index decide the rest. `newId` is the fresh id the
   * store assigns.
   */
  function AddReview(s: Store, c: Caller, bootcampId: string, title: Option<string>, text: Option<string>,
                     rating: Option<Number>, newId: string): (o: Outcome<Doc<Review>>)
    requires ValidStore(s) && !HasId(s.reviews, newId)
    ensures ValidStore(o.store)
    ensures o.result.Failure? ==> o.store == s
    ensures !ValidObjectId(bootcampId) ==> o.result == Failure(CastError(bootcampId))
    ensures ValidObjectId(bootcampId) && !HasId(s.bootcamps, ObjectId(bootcampId)) ==>
      o.result == Failure(ErrorResponse("Bootcamp with param id " + bootcampId + " not found", 404))
    ensures ValidObjectId(bootcampId) && HasId(s.bootcamps, ObjectId(bootcampId)) ==>
      var input := ReviewInput(title, text, rating, Some(ObjectId(bootcampId)), Some(c.id));
      match Create(s, newId, input)
      case Failure(e) => o.result == Failure(e)
      case Success((d, s')) => o.result == Success(Reply(201, One(d))) && o.store == s'
  {
    match FindById(s.bootcamps, bootcampId)
    case Failure(e) => Fail(s, e)
    case Success(None) => Fail(s, ErrorResponse("Bootcamp with param id " + bootcampId + " not found", 404))
    case Success(Some(_)) =>
      var input := ReviewInput(title, text, rating, Some(ObjectId(bootcampId)), Some(c.id));
      match Create(s, newId, input)
      case Failure(e) => Fail(s, e)
      case Success((d, s')) =>
        FindAfterInsert(s.reviews, d, newId);
        Outcome(Success(Reply(201, One(d))), s')
  }

  /** The store's error for an update that fails its validators. */
  function UpdateValidationError(errs: seq<FieldError>): (e: JsError)
    ensures e.name == "ValidationError" && e.errors == Some(Messages(errs))
  {
    JsError("ValidationError", None, "Validation failed: " + Text.Join(Summaries(errs), ", "), None, "", Some(Messages(errs)))
  }

  /** The first path of an update body that is not a well-formed object id: `bootcamp`, then `user`. */
  function CastPatch(patch: ReviewPatch): (e: Option<JsError>)
    ensures e.None? <==>
      (patch.bootcamp.Some? ==> ValidObjectId(patch.bootcamp.value)) && (patch.user.Some? ==> ValidObjectId(patch.user.value))
    ensures patch.bootcamp.Some? && !ValidObjectId(patch.bootcamp.value) ==> e == Some(CastError(patch.bootcamp.value))
    ensures (patch.bootcamp.Some? ==> ValidObjectId(patch.bootcamp.value)) && patch.user.Some? && !ValidObjectId(patch.user.value) ==>
      e == Some(CastError(patch.user.value))
  {
    if patch.bootcamp.Some? && !ValidObjectId(patch.bootcamp.value) then Some(CastError(patch.bootcamp.value))
    else if patch.user.Some? && !ValidObjectId(patch.user.value) then Some(CastError(patch.user.value))
    else None
  }

  /**
   * The checks of `updateReview` in order: the id is cast and looked up, the
   * caller must own the review or be an admin, the body's paths are cast and
   * validated, and the saved review must not collide with another under the
   * unique index. On success: the stored review and the one replacing it.
   */
  function PrepareUpdate(s: Store, c: Caller, id: string, patch: ReviewPatch): (r: Result<(Doc<Review>, Doc<Review>), JsError>)
    ensures !ValidObjectId(id) ==> r == Failure(CastError(id))
    ensures ValidObjectId(id) && !HasId(s.reviews, ObjectId(id)) ==> r == Failure(NotFound(id))
    ensures ValidObjectId(id) && HasId(s.reviews, ObjectId(id)) ==>
      var d := Find(s.reviews, ObjectId(id)).value;
      var d' := d.(val := ApplyPatch(d.val, patch));
      if !OwnerOrAdmin(d.val.user, c) then r == Failure(Unauthorized(c, "update a Review"))
      else if CastPatch(patch).Some? then r == Failure(CastPatch(patch).value)
      else if ValidatePatch(patch) != [] then r == Failure(UpdateValidationError(ValidatePatch(patch)))
      else if ReviewedByOther(s.reviews, ObjectId(id), d'.val.bootcamp, d'.val.user) then r == Failure(DuplicateKeyError)
      else r == Success((d, d'))
    ensures r.Success? ==> r.value.0 in s.reviews && r.value.0.id == ObjectId(id) && r.value.1.id == ObjectId(id)
  {
    match FindById(s.reviews, id)
    case Failure(e) => Failure(e)
    case Success(None) => Failure(NotFound(id))
    case Success(Some(d)) =>
      var d' := d.(val := ApplyPatch(d.val, patch));
      if !OwnerOrAdmin(d.val.user, c) then Failure(Unauthorized(c, "update a Review"))
      else if CastPatch(patch).Some? then Failure(CastPatch(patch).value)
      else if ValidatePatch(patch) != [] then Failure(UpdateValidationError(ValidatePatch(patch)))
      else if ReviewedByOther(s.reviews, ObjectId(id), d'.val.bootcamp, d'.val.user) then Failure(DuplicateKeyError)
      else Success((d, d'))
  }

  /**
   * `updateReview` as written: the review is saved in place and no hook
   * runs, so no bootcamp's average is recomputed.
   */
  function UpdateReviewAsWritten(s: Store, c: Caller, id: string, patch: ReviewPatch): (o: Outcome<Doc<Review>>)
    requires ValidStore(s)
    ensures ValidStore(o.store)
    ensures o.store.bootcamps == s.bootcamps && o.store.courses == s.courses
    ensures o.result.Failure? <==> PrepareUpdate(s, c, id, patch).Failure?
    ensures o.result.Failure? ==> o.store == s && o.result.error == PrepareUpdate(s, c, id, patch).error
    ensures o.result.Success? ==>
      var d' := PrepareUpdate(s, c, id, patch).value.1;
      o.result.value == Reply(200, One(d')) && o.store.reviews == Replace(s.reviews, d')
  {
    match PrepareUpdate(s, c, id, patch)
    case Failure(e) => Fail(s, e)
    case Success((_, d')) =>
      ReplacePreservesUniqueIds(s.reviews, d');
      Outcome(Success(Reply(200, One(d'))), s.(reviews := Replace(s.reviews, d')))
  }

  /**
   * `updateReview` with the averages the update touches recomputed: those of
   * the bootcamp the review leaves and of the one it is now about.
   */
  function UpdateReview(s: Store, c: Caller, id: string, patch: ReviewPatch): (o: Outcome<Doc<Review>>)
    requires ValidStore(s)
    ensures ValidStore(o.store)
    ensures o.store.courses == s.courses
    ensures o.result.Failure? <==> PrepareUpdate(s, c, id, patch).Failure?
    ensures o.result.Failure? ==> o.store == s && o.result.error == PrepareUpdate(s, c, id, patch).error
    ensures o.result.Success? ==>
      var (d, d') := PrepareUpdate(s, c, id, patch).value;
      o.result.value == Reply(200, One(d')) && o.store == ReplaceReview(s, d, d')
  {
    match PrepareUpdate(s, c, id, patch)
    case Failure(e) => Fail(s, e)
    case Success((d, d')) =>
      ReplacePreservesUniqueIds(s.reviews, d');
      Outcome(Success(Reply(200, One(d'))), ReplaceReview(s, d, d'))
  }

  /**
   * `deleteReview`: the review is removed and its bootcamp's average
   * recomputed after the removal (see `ReviewSchema.RemoveAsWritten` for
   * the recompute as the hook runs it).
   */
  function DeleteReview(s: Store, c: Caller, id: string): (o: Outcome<Doc<Review>>)
    requires ValidStore(s)
    ensures ValidStore(o.store)
    ensures o.result.Failure? ==> o.store == s
    ensures !ValidObjectId(id) ==> o.result == Failure(CastError(id))
    ensures ValidObjectId(id) && !HasId(s.reviews, ObjectId(id)) ==>
      o.result == Failure(ErrorResponse("review with param id " + id + " not found", 404))
    ensures ValidObjectId(id) && HasId(s.reviews, ObjectId(id)) ==>
      var d := Find(s.reviews, ObjectId(id)).value;
      if !OwnerOrAdmin(d.val.user, c) then o.result == Failure(Unauthorized(c, "update a review"))
      else o.result == Success(Reply(200, Note("Deleted review " + id))) && o.store == RemoveReview(s, d)
  {
    match FindById(s.reviews, id)
    case Failure(e) => Fail(s, e)
    case Success(None) => Fail(s, ErrorResponse("review with param id " + id + " not found", 404))
    case Success(Some(d)) =>
      if !OwnerOrAdmin(d.val.user, c) then Fail(s, Unauthorized(c, "update a review"))
      else
        RemovePreservesUniqueIds(s.reviews, ObjectId(id));
        Outcome(Success(Reply(200, Note("Deleted review " + id))), RemoveReview(s, d))
  }

  // ---------------------------------------------------------------------
  // Properties

  /** A second review of one bootcamp by one caller is answered with the duplicate 400. */
  lemma SecondReviewIsDuplicate(s: Store, c: Caller, bootcampId: string, title: string, text: string,
                                rating: Number, newId: string)
    requires ValidStore(s) && !HasId(s.reviews, newId)
    requires ValidObjectId(bootcampId) && HasId(s.bootcamps, ObjectId(bootcampId))
    requires Acceptable(ReviewInput(Some(title), Some(text), Some(rating), Some(ObjectId(bootcampId)), Some(c.id)))
    requires Reviewed(s.reviews, ObjectId(bootcampId), c.id)
    ensures var o := AddReview(s, c, bootcampId, Some(title), Some(text), Some(rating), newId);
            o.store == s && AnswerOf(o) == Err(JsonReply(400, false, DuplicateMessage))
  {
    assert |DuplicateKeyError.name| != |"CastError"|;
  }

  /** Adding a review keeps every bootcamp's average current. */
  lemma AddReviewKeepsAveragesCurrent(s: Store, c: Caller, bootcampId: string, title: Option<string>,
                                      text: Option<string>, rating: Option<Number>, newId: string)
    requires ValidStore(s) && AveragesCurrent(s) && !HasId(s.reviews, newId)
    ensures AveragesCurrent(AddReview(s, c, bootcampId, title, text, rating, newId).store)
  {
    var input := ReviewInput(title, text, rating, Some(ObjectId(bootcampId)), Some(c.id));
    if ValidObjectId(bootcampId) && HasId(s.bootcamps, ObjectId(bootcampId)) && Create(s, newId, input).Success? {
      CreateKeepsAveragesCurrent(s, newId, input);
    }
  }

  /** Deleting a review keeps every bootcamp's average current. */
  lemma DeleteReviewKeepsAveragesCurrent(s: Store, c: Caller, id: string)
    requires ValidStore(s) && AveragesCurrent(s)
    ensures AveragesCurrent(DeleteReview(s, c, id).store)
  {
    if ValidObjectId(id) && HasId(s.reviews, ObjectId(id)) {
      RemoveReviewKeepsAveragesCurrent(s, Find(s.reviews, ObjectId(id)).value);
    }
  }

  /** An update never stores a second review of one bootcamp by one user. */
  lemma UpdateKeepsOneReviewPerUser(s: Store, c: Caller, id: string, patch: ReviewPatch)
    requires ValidStore(s) && OneReviewPerUser(s.reviews)
    ensures OneReviewPerUser(UpdateReview(s, c, id, patch).store.reviews)
    ensures OneReviewPerUser(UpdateReviewAsWritten(s, c, id, patch).store.reviews)
  {
    var r := PrepareUpdate(s, c, id, patch);
    if r.Success? {
      var d' := r.value.1;
      var rs := Replace(s.reviews, d');
      forall i, j | 0 <= i < j < |rs|
        ensures !(rs[i].val.bootcamp == rs[j].val.bootcamp && rs[i].val.user == rs[j].val.user)
      {
        if s.reviews[i].id == ObjectId(id) {
          assert s.reviews[j].id != ObjectId(id);
        } else if s.reviews[j].id == ObjectId(id) {
          assert s.reviews[i].id != ObjectId(id);
        }
      }
    }
  }

  /** With both touched averages recomputed, an update keeps every bootcamp's average current. */
  lemma UpdateReviewKeepsAveragesCurrent(s: Store, c: Caller, id: string, patch: ReviewPatch)
    requires ValidStore(s) && AveragesCurrent(s)
    ensures AveragesCurrent(UpdateReview(s, c, id, patch).store)
  {
    var r := PrepareUpdate(s, c, id, patch);
    if r.Success? {
      ReplaceReviewKeepsAveragesCurrent(s, r.value.0, r.value.1);
    }
  }

  /**
   * As written, an update that changes the mean rating of the review's
   * bootcamp leaves that bootcamp's stored average stale.
   */
  lemma UpdateAsWrittenLeavesAverageStale(s: Store, c: Caller, id: string, patch: ReviewPatch)
    requires ValidStore(s) && AveragesCurrent(s)
    requires PrepareUpdate(s, c, id, patch).Success?
    requires var (d, d') := PrepareUpdate(s, c, id, patch).value;
      HasId(s.bootcamps, d.val.bootcamp)
      && AverageOf(Replace(s.reviews, d'), d.val.bootcamp) != AverageOf(s.reviews, d.val.bootcamp)
    ensures !AveragesCurrent(UpdateReviewAsWritten(s, c, id, patch).store)
  {
    var (d, d') := PrepareUpdate(s, c, id, patch).value;
    var k :| 0 <= k < |s.bootcamps| && s.bootcamps[k].id == d.val.bootcamp;
    var o := UpdateReviewAsWritten(s, c, id, patch);
    assert o.store.bootcamps[k] == s.bootcamps[k];
  }
}

=== FILE: text.dfy ===
/**
 * The string functions of the JavaScript runtime that the handlers rely on,
 * as small total functions: `split`/`join` on one separator character,
 * decimal rendering of naturals, and `parseInt`.
 */
module Text {
  import opened Wrappers

  /** `s.split(c)` for a one-character separator: never empty, empty pieces kept. */
  function Split(s: string, c: char): (parts: seq<string>)
    ensures |parts| >= 1
    ensures forall i :: 0 <= i < |parts| ==> c !in parts[i]
    decreases |s|
  {
    if |s| == 0 then [""]
    else
      var rest := Split(s[1..], c);
      if s[0] == c then [""] + rest
      else [[s[0]] + rest[0]] + rest[1..]
  }

  /** `parts.join(sep)`. */
  function Join(parts: seq<string>, sep: string): string
    decreases |parts|
  {
    if |parts| == 0 then ""
    else if |parts| == 1 then parts[0]
    else parts[0] + sep + Join(parts[1..], sep)
  }

  /** Every occurrence of `c` in `s` replaced by `d`, nothing else touched. */
  function ReplaceChar(s: string, c: char, d: char): (r: string)
    ensures |r| == |s|
    ensures forall i :: 0 <= i < |s| ==> r[i] == (if s[i] == c then d else s[i])
  {
    seq(|s|, i requires 0 <= i < |s| => if s[i] == c then d else s[i])
  }

  lemma JoinCons(p: string, rest: seq<string>, sep: string)
    requires |rest| >= 1
    ensures Join([p] + rest, sep) == p + sep + Join(rest, sep)
  {
    assert ([p] + rest)[1..] == rest;
  }

  lemma JoinHeadExtend(ch: char, rest: seq<string>, sep: string)
    requires |rest| >= 1
    ensures Join([[ch] + rest[0]] + rest[1..], sep) == [ch] + Join(rest, sep)
  {
    if |rest| == 1 {
      assert [[ch] + rest[0]] + rest[1..] == [[ch] + rest[0]];
    } else {
      JoinCons([ch] + rest[0], rest[1..], sep);
      JoinCons(rest[0], rest[1..], sep);
      assert rest == [rest[0]] + rest[1..];
    }
  }

  /**
   * Splitting on `c` and joining with `d` replaces each `c` by `d`: the pieces
   * come back in their original order and with their original contents.
   */
  lemma {:induction false} JoinSplitReplaces(s: string, c: char, d: char)
    ensures Join(Split(s, c), [d]) == ReplaceChar(s, c, d)
    decreases |s|
  {
    if |s| == 0 {
    } else {
      var rest := Split(s[1..], c);
      JoinSplitReplaces(s[1..], c, d);
      assert ReplaceChar(s, c, d) == [if s[0] == c then d else s[0]] + ReplaceChar(s[1..], c, d);
      if s[0] == c {
        JoinCons("", rest, [d]);
      } else {
        JoinHeadExtend(s[0], rest, [d]);
      }
    }
  }

  /** Splitting loses nothing: joining the pieces with the separator gives `s` back. */
  lemma JoinSplitRoundTrip(s: string, c: char)
    ensures Join(Split(s, c), [c]) == s
  {
    JoinSplitReplaces(s, c, c);
    assert ReplaceChar(s, c, c) == s;
  }

  // ---------------------------------------------------------------------
  // Length

  /** A code point outside the Basic Multilingual Plane: two UTF-16 code units. */
  predicate IsAstral(ch: char)
  {
    ch as int >= 0x1_0000
  }

  /**
   * JavaScript's `s.length`: the number of UTF-16 code units, which counts a
   * code point beyond U+FFFF twice.
   */
  function JsLength(s: string): (n: nat)
    ensures |s| <= n <= 2 * |s|
    ensures n == |s| <==> forall i :: 0 <= i < |s| ==> !IsAstral(s[i])
    ensures (forall i :: 0 <= i < |s| ==> IsAstral(s[i])) ==> n == 2 * |s|
    decreases |s|
  {
    if |s| == 0 then 0
    else
      assert forall i :: 1 <= i < |s| ==> s[i] == s[1..][i - 1];
      (if IsAstral(s[0]) then 2 else 1) + JsLength(s[1..])
  }

  // ---------------------------------------------------------------------
  // Decimal digits

  predicate IsDigit(ch: char)
  {
    '0' <= ch <= '9'
  }

  /** A digit in base `radix` (10 or 16), in either letter case. */
  predicate IsRadixDigit(ch: char, radix: nat)
  {
    if radix == 16 then IsDigit(ch) || 'a' <= ch <= 'f' || 'A' <= ch <= 'F'
    else IsDigit(ch)
  }

  function DigitValue(ch: char): (v: nat)
    ensures IsDigit(ch) ==> v == ch as int - '0' as int
    ensures v < 16
  {
    if IsDigit(ch) then ch as int - '0' as int
    else if 'a' <= ch <= 'f' then ch as int - 'a' as int + 10
    else if 'A' <= ch <= 'F' then ch as int - 'A' as int + 10
    else 0
  }

  function DigitChar(d: nat): (ch: char)
    requires d < 10
    ensures IsDigit(ch) && DigitValue(ch) == d
  {
    ('0' as int + d) as char
  }

  /** The decimal rendering JavaScript gives a non-negative integer. */
  function NatToString(n: nat): (s: string)
    ensures |s| >= 1
    ensures forall i :: 0 <= i < |s| ==> IsDigit(s[i])
    decreases n
  {
    if n < 10 then [DigitChar(n)] else NatToString(n / 10) + [DigitChar(n % 10)]
  }

  /** The value of a digit string read most-significant digit first. */
  function DigitsValue(ds: string, radix: nat): nat
    decreases |ds|
  {
    if |ds| == 0 then 0 else DigitsValue(ds[..|ds| - 1], radix) * radix + DigitValue(ds[|ds| - 1])
  }

  /** The length of the longest prefix of `s` made of base-`radix` digits. */
  function DigitRun(s: string, radix: nat): (n: nat)
    ensures n <= |s|
    ensures forall i :: 0 <= i < n ==> IsRadixDigit(s[i], radix)
    ensures n < |s| ==> !IsRadixDigit(s[n], radix)
    decreases |s|
  {
    if |s| == 0 || !IsRadixDigit(s[0], radix) then 0 else 1 + DigitRun(s[1..], radix)
  }

  /**
   * The characters `parseInt` skips before the number: ECMAScript's
   * WhiteSpace and LineTerminator code points.
   */
  predicate IsJsSpace(ch: char)
  {
    || ch == '\t' || ch == '\n' || ch == '\U{B}' || ch == '\U{C}' || ch == '\r' || ch == ' '
    || ch == '\U{A0}' || ch == '\U{1680}' || '\U{2000}' <= ch <= '\U{200A}'
    || ch == '\U{2028}' || ch == '\U{2029}' || ch == '\U{202F}' || ch == '\U{205F}'
    || ch == '\U{3000}' || ch == '\U{FEFF}'
  }

  function TrimStart(s: string): (t: string)
    ensures |t| <= |s| && t == s[|s| - |t|..]
    ensures |t| > 0 ==> !IsJsSpace(t[0])
    decreases |s|
  {
    if |s| > 0 && IsJsSpace(s[0]) then TrimStart(s[1..]) else s
  }

  /**
   * JavaScript's `parseInt(s, 10)` (`decimalOnly`) or `parseInt(s)`: skip
   * leading white space, take an optional sign, without a radix accept a
   * `0x`/`0X` prefix and read hexadecimal, then read the longest digit prefix.
   * `None` stands for `NaN`, returned when that prefix is empty.
   */
  function ParseInt(s: string, decimalOnly: bool): Option<int>
  {
    ParseSigned(TrimStart(s), decimalOnly)
  }

  function ParseSigned(t: string, decimalOnly: bool): Option<int>
  {
    if |t| > 0 && t[0] == '-' then
      match ParseUnsigned(t[1..], decimalOnly)
      case Some(v) => Some(0 - (v as int))
      case None => None
    else if |t| > 0 && t[0] == '+' then ParseUnsigned(t[1..], decimalOnly)
    else ParseUnsigned(t, decimalOnly)
  }

  predicate HasHexPrefix(u: string)
  {
    |u| >= 2 && u[0] == '0' && (u[1] == 'x' || u[1] == 'X')
  }

  function ParseUnsigned(u: string, decimalOnly: bool): Option<nat>
  {
    if !decimalOnly && HasHexPrefix(u) then ParseDigits(u[2..], 16) else ParseDigits(u, 10)
  }

  /** The value of the longest digit prefix of `w`, or `None` when it is empty. */
  function ParseDigits(w: string, radix: nat): Option<nat>
  {
    var n := DigitRun(w, radix);
    if n == 0 then None else Some(DigitsValue(w[..n], radix))
  }

  lemma {:induction false} DigitsValueOfNat(n: nat)
    ensures DigitsValue(NatToString(n), 10) == n
    decreases n
  {
    var s := NatToString(n);
    if n >= 10 {
      DigitsValueOfNat(n / 10);
      assert s[..|s| - 1] == NatToString(n / 10);
    }
  }

  /** On a string that starts with a decimal digit and no hex prefix, `parseInt` reads the digit prefix. */
  lemma ParseIntOfDigits(s: string, decimalOnly: bool)
    requires |s| > 0 && IsDigit(s[0])
    requires !decimalOnly ==> !HasHexPrefix(s)
    ensures ParseInt(s, decimalOnly) == ParseDigits(s, 10)
  {
    assert !IsJsSpace(s[0]);
    assert TrimStart(s) == s;
  }

  /**
   * `parseInt` reads back what `String(n)` wrote, whatever non-digit text
   * follows it, and with or without a radix.
   */
  lemma ParseIntReadsNat(n: nat, tail: string, decimalOnly: bool)
    requires |tail| > 0 ==> !IsDigit(tail[0])
    requires decimalOnly || n != 0 || |tail| == 0 || (tail[0] != 'x' && tail[0] != 'X')
    ensures ParseInt(NatToString(n) + tail, decimalOnly) == Some(n)
  {
    var d := NatToString(n);
    var s := d + tail;
    assert s[0] == d[0];
    if !decimalOnly && HasHexPrefix(s) {
      if n != 0 {
        NatToStringLeadingDigit(n);
      }
      assert false;
    }
    ParseIntOfDigits(s, decimalOnly);
    DigitRunPrefix(d, tail);
    assert s[..|d|] == d;
    DigitsValueOfNat(n);
  }

  /** `parseInt` reads a minus sign followed by `String(n)` as `-n`. */
  lemma ParseIntReadsNegative(n: nat, decimalOnly: bool)
    ensures ParseInt("-" + NatToString(n), decimalOnly) == Some(-(n as int))
  {
    var d := NatToString(n);
    UnsignedReadsNat(n, decimalOnly);
    MinusSign(d, decimalOnly);
  }

  lemma MinusSign(d: string, decimalOnly: bool)
    ensures ParseInt("-" + d, decimalOnly) ==
      match ParseUnsigned(d, decimalOnly) case Some(v) => Some(0 - (v as int)) case None => None
  {
    var t := "-" + d;
    assert t[0] == '-' && t[1..] == d;
    assert !IsJsSpace(t[0]);
  }

  lemma UnsignedReadsNat(n: nat, decimalOnly: bool)
    ensures ParseUnsigned(NatToString(n), decimalOnly) == Some(n)
  {
    var d := NatToString(n);
    ParseIntReadsNat(n, "", decimalOnly);
    assert d + "" == d;
    assert !IsJsSpace(d[0]) && d[0] != '-' && d[0] != '+' by {
      assert IsDigit(d[0]);
    }
  }

  /** `String(n)` has no leading zero. */
  lemma {:induction false} NatToStringLeadingDigit(n: nat)
    requires n != 0
    ensures NatToString(n)[0] != '0'
    decreases n
  {
    if n >= 10 {
      NatToStringLeadingDigit(n / 10);
    }
  }

  lemma {:induction false} DigitRunPrefix(d: string, tail: string)
    requires forall i :: 0 <= i < |d| ==> IsDigit(d[i])
    requires |tail| > 0 ==> !IsDigit(tail[0])
    ensures DigitRun(d + tail, 10) == |d|
    decreases |d|
  {
    if |d| > 0 {
      assert (d + tail)[1..] == d[1..] + tail;
      DigitRunPrefix(d[1..], tail);
    } else {
      assert d + tail == tail;
    }
  }

  /** `parseInt` of a string containing no digit at all is `NaN`. */
  lemma ParseIntWithoutDigits(s: string, decimalOnly: bool)
    requires forall i :: 0 <= i < |s| ==> !IsDigit(s[i])
    ensures ParseInt(s, decimalOnly) == None
  {
    var t := TrimStart(s);
    var u := if |t| > 0 && (t[0] == '-' || t[0] == '+') then t[1..] else t;
    assert forall i :: 0 <= i < |u| ==> !IsDigit(u[i]);
  }
}

=== FILE: wrappers.dfy ===
/** Option and Result, the failure-carrying datatypes every other module uses. */
module Wrappers {

  /** A value that may be absent: JavaScript's `undefined`, `null` or `NaN`. */
  datatype Option<+T> = None | Some(value: T) {

    /** The value, or `default` when absent (JavaScript's `x || default` on a defined value). */
    function GetOr(default: T): T
    {
      match this
      case Some(v) => v
      case None => default
    }
  }

  /** The outcome of an operation that either succeeds or hands an error on. */
  datatype Result<+R, +E> = Success(value: R) | Failure(error: E) {

    predicate IsFailure()
    {
      Failure?
    }

    function PropagateFailure<U>(): Result<U, E>
      requires Failure?
    {
      Failure(error)
    }

    function Extract(): R
      requires Success?
    {
      value
    }
  }
}
